=== FILE: README.md ===
# R2 toolbox: a Dafny model

This project models a small browser toolbox and the storage proxy behind it.

The **proxy** is a Cloudflare worker in front of an R2 bucket. It exists in two revisions:

- `docs/worker.js` is the current one.
  - It lets image files through its `/file/` route without a token.
  - It reads the list prefix from the body.
  - It reports the size of an upload.
- `docs/WORKER_CODE_WITH_RENAME.js` is the older one.
  - It checks the token before any routing.
  - It serves every file as an attachment.

Both revisions offer the same actions:

- `list`, `upload`, `delete` and `rename` through `?action=`;
- reading a file through `/file/<key>`;
- a CORS preflight.

A rename is a read, a chunked copy, a put and a delete.

The **clients** are six React components:

- **R2FileManager** is a generic bucket browser with preview and download.
- **MarkdownViewer** manages `markdown_file/*.md` files. It can rename them.
- **R2ImageManager** manages images. It uploads them in batches and tracks upload progress.
- **NotesManager** stores notes as `notes/<id>.json`. A pasted image becomes an upload plus a markdown link.
- **ByteConverter** converts between bit, byte, KB, MB, GB and TB.
- **Base64Encoder** turns text into base 64, with optional gzip or Snappy compression. It keeps a history of at most 100 runs.

## Modules

| module | what it holds |
|---|---|
| `Strings` | string helpers: prefixes, ASCII lower-casing, `indexOf`, `lastIndexOf`, `replace`, decimal rendering |
| `BlobStore` | the bucket as a map from key to stored object; put, delete, prefix listing, chunk concatenation |
| `Proxy` | requests, responses, the token gate and the four action handlers, which both revisions share |
| `Worker`, `WorkerLegacy` | the two revisions' request dispatch and `/file/` route |
| `Client` | the clients' shared pieces: `callWorkerApi`, file and upload URLs, error messages, list filtering and newest-first sorting, delete, download and the size-probed read |
| `FileManager`, `MarkdownViewer`, `ImageManager`, `Notes`, `ByteConverter` | one module per component |
| `Base64`, `Base64Tool` | the base 64 alphabet and codec of section 4 of RFC 4648, and the Base64Encoder page |

Every client operation is a pure function. Its inputs are:

- the configuration;
- the user's input;
- the replies the worker gives.

It returns its visible result together with the HTTP calls it makes, in order: a `Run<T>` of a result and a `seq<Call>`. The list refresh that an accepted upload starts is among them. The refreshes after a delete or a rename are not, as "## Left out" says. MarkdownViewer's delete is modelled as written, with its call sent under the first render's empty configuration; "## Findings" describes it. This lets the contracts state which request goes out and in which order. They also state that nothing goes out when the configuration is missing.

Functions the model cannot see are parameters:

- on the proxy side, in a `Platform` record:
  - `decodeURIComponent` and `encodeURIComponent`;
  - the stream chunking of a body;
  - the clock and the etag;
  - the set of store operations that fail;
- on the client side:
  - `encodeURIComponent`;
  - `parseFloat`;
  - `TextEncoder` and `TextDecoder`;
  - the gzip and Snappy codecs;
  - the clock;
  - the parsed content of each note file.

The `downloadFile` of MarkdownViewer and of R2ImageManager are one function, `Client.DownloadAsKey`: both save under the key itself.

Some behaviours of the code that the model makes visible:

- `R2FileManager.downloadFile` saves under the captured `filename=` value when the browser lets it read `Content-Disposition`. That holds only when the page and the worker share an origin: the worker sends no `Access-Control-Expose-Headers`, so cross-origin the header is hidden and the file is saved under its key (`FileManager.DownloadCrossOrigin`). Where the header is readable, the quotes are removed but the value is not percent-decoded. Since `encodeURIComponent` leaves `'` alone, an apostrophe in a key then disappears from the saved name. See `FileManager.DownloadNameOfProxyHeader` and `FileManager.DownloadServed`.
- A note key is mapped to its id by replacing the first `.json`. The match is case-sensitive, while the listing filter lower-cases the key. So `notes/a.JSON` is listed with id `a.JSON`, and saving it writes `notes/a.JSON.json`. See `Notes.UpperCaseExtensionQuirk`.
- The current worker lets `png` and `avif` images through without a token only when the extension is in its own list. R2FileManager's image check is wider: `FileManager.WiderThanProxyAllowList`. R2ImageManager's check agrees with the worker exactly: `ImageManager.AgreesWithProxy`.
- Renaming a markdown file to the name the dialog proposes is refused as a conflict (409): `MarkdownViewer.UnchangedRenameIsConflict`.
- A failed delete in the middle of a rename leaves both keys in the bucket: `Proxy.RenameFailureWindows`.
- MarkdownViewer's delete never reaches the configured worker: see "## Findings" and `MarkdownViewer.StaleDeleteMissesWorker`.

## Model

| member | source | states |
|---|---|---|
| BlobStore.Put | docs/worker.js:131-133 | after a put the key holds exactly the given data and metadata; every other key is unchanged |
| BlobStore.Delete | docs/worker.js:148 | a delete removes only that key; deleting a missing key changes nothing |
| BlobStore.KeysWithPrefix | docs/worker.js:100-101 | the listed keys are exactly the stored keys that start with the prefix |
| BlobStore.CopyChunks | docs/worker.js:187-199 | copying the stream chunk by chunk yields their concatenation, whose length is the sum of the chunk lengths |
| BlobStore.FlattenPrefixSplit | docs/worker.js:194-199 | each copied chunk extends the concatenation so far and never overruns the total length |
| Strings.Lower | src/components/R2ImageManager.tsx:38 | lower-casing keeps the length and maps each character on its own |
| Strings.IndexFrom | src/components/NotesManager.tsx:110 | the search finds the first occurrence at or after the start, or reports that none exists |
| Strings.IncludesIff | src/components/NotesManager.tsx:351-353 | `includes` holds exactly when the pattern occurs somewhere |
| Strings.LastIndexOf | src/components/R2ImageManager.tsx:38 | the result is the last position of the character, or -1 when the character is absent |
| Strings.NatToString | src/components/NotesManager.tsx:226 | the decimal rendering is a non-empty digit string whose decimal value is the number, with no leading zero except in `0` itself |
| Strings.NatToStringInjective | src/components/NotesManager.tsx:226 | different times give different ids |
| Proxy.FileHeaders | docs/worker.js:69-78 | a served file carries the CORS origin `*` and the given `Content-Disposition` |
| Proxy.GateToken | docs/worker.js:86-87 | a non-empty `?authorization=` wins; otherwise the bearer token of the `Authorization` header is used |
| Proxy.HeaderToken | docs/worker.js:87 | a token is read exactly when an `Authorization` header is present; a `Bearer ` header yields exactly the text after `Bearer ` |
| Proxy.Entries | docs/worker.js:103-108 | each listed key becomes one entry carrying the stored object's size, etag and upload time |
| Proxy.HandleList | docs/worker.js:98-110 | listing never changes the bucket, and answers 200 or the catch-all 500 with the JSON CORS headers |
| Proxy.ListReportsPrefixObjects | docs/worker.js:98-110 | a list reply holds exactly the stored objects under the requested prefix, each with its true size |
| Proxy.ListPrefixDefaults | docs/worker.js:99-100 | the prefix is the body's `prefix` field; a missing field, an unparsable body or no body means the empty prefix |
| Proxy.HandleUpload | docs/worker.js:114-122 | an upload without a file is rejected with 400 and leaves the bucket alone; every upload reply is 200, 400 or 500 with the JSON CORS headers |
| Proxy.HandleDelete | docs/worker.js:146-154 | a delete reply is 200, or 500 when the body cannot be read, always with the JSON CORS headers |
| Proxy.HandleRename | docs/worker.js:157-239 | a rename reply is one of 200, 400, 409, 404 or 500, always with the JSON CORS headers |
| Proxy.DispatchAction | docs/worker.js:98-157 | an action is answered exactly for `list` with any verb and for `upload`, `delete` and `rename` with POST; no action reply is a 401 |
| Proxy.UploadStoresAtName | docs/worker.js:113-143 | an upload stores the file's bytes and content type under its name, changes nothing else, and answers with the key (and the size in the current revision) |
| Proxy.DeleteAlwaysSucceeds | docs/worker.js:146-154 | a delete answers success whether or not the key existed, and removes exactly that key |
| Proxy.RenameCheckOrder | docs/worker.js:157-184 | the rename checks run in order: 400 for a missing key, then 409 for an existing target, then 404 for a missing source |
| Proxy.RenameEarlyExitsLeaveStore | docs/worker.js:161-184 | a rename that does not succeed, with deletes working, leaves the bucket unchanged |
| Proxy.RenameOntoItselfKeepsStore | docs/worker.js:169-175 | renaming a key onto itself never changes the bucket, and is refused with 409 when the key exists |
| Proxy.RenameMovesOneKey | docs/worker.js:186-216 | a successful rename moves the bytes and both kinds of metadata from the old key to the new one and touches no other key |
| Proxy.RenameSucceedsWhenFree | docs/worker.js:157-216 | with a source present and the target free, a rename succeeds with both keys in the reply |
| Proxy.RenameFailureWindows | docs/worker.js:202-208 | a failing delete after the copy leaves both keys in the bucket; a failing read or put leaves the bucket untouched |
| Worker.ImageExtensionShape | docs/worker.js:39-40 | every allowed image extension is a dot followed by a dot-free name |
| Worker.ServeFile | docs/worker.js:33-82 | reading a file never changes the bucket |
| Worker.Handle | docs/worker.js:7-241 | every response carries the CORS origin `*`; a preflight is answered at once; a 401 never changes the bucket |
| Worker.PreflightBeforeEverything | docs/worker.js:13-22 | an `OPTIONS` request gets 204 with the allowed methods and headers, whatever its path or token |
| Worker.FileRouteAuth | docs/worker.js:38-55 | on `/file/` an allowed image is never refused; any other file is refused with 401 exactly when a token is configured and the bearer header does not match it (`?authorization=` is ignored there) |
| Worker.FileRouteLookup | docs/worker.js:57-81 | an admitted read answers 404 with the key for a missing file; otherwise it answers with the stored bytes, `inline` for images and `attachment` for the rest |
| Worker.GateQueryWins | docs/worker.js:84-93 | outside `/file/`, a wrong non-empty query token is refused even when the header token is right |
| Worker.NoTokenNoRefusal | docs/worker.js:43-93 | without a configured token no request is ever refused with 401 |
| Worker.UnknownActionIs400 | docs/worker.js:219-228 | an admitted request with no recognised action gets 400 and changes nothing |
| WorkerLegacy.ServeFile | docs/WORKER_CODE_WITH_RENAME.js:150-186 | reading a file never changes the bucket |
| WorkerLegacy.Handle | docs/WORKER_CODE_WITH_RENAME.js:7-210 | every response carries the CORS origin `*`; a preflight is answered at once; a 401 never changes the bucket |
| WorkerLegacy.PreflightBeforeGate | docs/WORKER_CODE_WITH_RENAME.js:10-19 | an `OPTIONS` request gets 204 before any token check |
| WorkerLegacy.GateBeforeRouting | docs/WORKER_CODE_WITH_RENAME.js:28-35 | a request that fails the token gate is refused with 401 whatever its path or action |
| WorkerLegacy.FileReadNeedsHeaderToken | docs/WORKER_CODE_WITH_RENAME.js:28-35 | a file read with the right token only in the query passes the gate but is refused by the route's header check |
| WorkerLegacy.ActionBeforeFileRoute | docs/WORKER_CODE_WITH_RENAME.js:37-51 | an `?action=list` request on a `/file/` path is handled as a list |
| WorkerLegacy.DirectReadDisposition | docs/WORKER_CODE_WITH_RENAME.js:163-185 | a read answers the plain-text 404 for a missing file, and otherwise the bytes as an attachment |
| WorkerLegacy.UploadReplyHasNoSize | docs/WORKER_CODE_WITH_RENAME.js:54-74 | the older upload stores the file but its reply carries no size |
| WorkerLegacy.RevisionsDisagreeOnImages | docs/WORKER_CODE_WITH_RENAME.js:150-161 | with a token configured, a tokenless read of `a.png` succeeds on the current revision and is refused by the older one |
| WorkerLegacy.RenameSameInBothRevisions | docs/WORKER_CODE_WITH_RENAME.js:88-147 | a rename request gets the same response and resulting bucket from both revisions |
| Client.AuthHeader | src/components/R2FileManager.tsx:37-39 | a bearer header is sent exactly when a token is configured |
| Client.AuthHeaderRoundTrip | docs/worker.js:86-87 | stripping `Bearer ` from the header gives back the token |
| Client.ApiRequest | src/components/R2FileManager.tsx:32-55 | an API call goes to `<worker>?action=<action>` with the given body, and carries authorization exactly when a token is set |
| Client.ApiErrorMessage | src/components/R2FileManager.tsx:47-50 | the error text is the JSON `error` field, else the status text of a non-JSON reply, else `操作失败 (<status>)` |
| Client.UploadErrorMessage | src/components/R2FileManager.tsx:163-176 | a failed upload reports the reply's `error` field, `上传失败`, or the network-error text |
| Client.BaseUrl | src/components/R2FileManager.tsx:247 | the base URL is the worker URL without one trailing slash |
| Client.FileUrl | src/components/R2FileManager.tsx:247-248 | a file URL is the base URL, `/file/`, then exactly the encoded key |
| Client.FileUrlReachesKey | docs/worker.js:33-34 | the worker's `/file/` route decodes a client file URL back to the original key |
| Client.UploadUrl | src/components/R2FileManager.tsx:178 | an upload goes to `<worker>?action=upload&authorization=` followed by exactly the encoded token |
| Client.UploadTokenReachesGate | docs/worker.js:84-93 | the worker decodes the upload URL's query back to the client's token, and refuses the upload exactly when a token is configured and the client's is empty or different |
| Client.ReadErrorMessage | src/components/R2FileManager.tsx:284-292 | a failed read reports the 401 text, the 404 text, or `<verb>失败 (<status>)` |
| Client.ReadErrorsDistinct | src/components/R2FileManager.tsx:284-292 | the three read-error texts never coincide |
| Client.ListFiltered | src/components/MarkdownViewer.tsx:65-102 | a refresh makes one list call only with a configuration present; on success it shows exactly the kept files of the reply, newest first, as a permutation; on failure it shows `加载失败: ` plus the error |
| Client.ListCallsOfRun | src/components/MarkdownViewer.tsx:65-80 | a list run sends one list call exactly when a configuration with a worker URL is stored, whatever the reply |
| Client.DeleteSelected | src/components/R2ImageManager.tsx:227-250 | an unconfirmed delete does nothing; a confirmed one sends one delete call to the configured worker with its token, and clears the pane only when it showed the deleted file |
| Client.DownloadAsKey | src/components/R2ImageManager.tsx:254-300 | a download makes one authenticated read and saves under the key exactly when the read succeeds |
| Client.ProbeThenFetch | src/components/MarkdownViewer.tsx:386-418 | a read first probes with HEAD; it fetches only when the probe succeeds within the size limit, and it shows the text exactly when both calls succeed |
| Client.InsertByDate | src/components/NotesManager.tsx:90-92 | inserting into a newest-first list keeps it newest first and adds exactly one entry; every entry of the result is the new one or an old one |
| Client.SortNewestFirst | src/components/NotesManager.tsx:90-92 | sorting yields a newest-first permutation of the input |
| Client.InsertKeepsTies | src/components/NotesManager.tsx:90-92 | inserting an entry puts it after every entry of the same date already in the list |
| Client.SortIsStable | src/components/NotesManager.tsx:90-92 | the sort keeps the entries of each date in the order the reply gave them, as `Array.prototype.sort` does |
| Client.Filter | src/components/R2ImageManager.tsx:86 | filtering keeps exactly the entries whose key passes the test |
| Client.ListView | src/components/MarkdownViewer.tsx:85-94 | the shown list is a newest-first permutation of the kept entries, with the entries of each date in reply order |
| FileManager.Extension | src/components/R2FileManager.tsx:360-362 | the extension is the lower-cased text after the last dot, or the whole lower-cased name when there is no dot |
| FileManager.NoDotIsWholeName | src/components/R2FileManager.tsx:361 | a name without a dot is its own extension |
| FileManager.ExtensionOfSuffix | src/components/R2FileManager.tsx:361 | a name ending in `.e`, with `e` free of dots, has extension `e` |
| FileManager.ClassifyBySuffix | src/components/R2FileManager.tsx:360-377 | for a key ending in `.e` with `e` free of dots, the image check, the text check and the preview button all decide on `e` alone |
| FileManager.WiderThanProxyAllowList | src/components/R2FileManager.tsx:373-377 | `png` and `a.avif` count as images here but not at the proxy |
| FileManager.ProxyImagesAreImages | src/components/R2FileManager.tsx:373-377 | every key the proxy serves tokenless as an image counts as an image here too |
| FileManager.ProxyExtensionShape | src/components/R2FileManager.tsx:375 | each proxy image extension, without its dot, is in this component's image list |
| FileManager.PreviewFile | src/components/R2FileManager.tsx:380-460 | a tokenless image preview uses the direct URL with no call; an image with a token is fetched with the bearer header and shows the fetched image on success, the read error otherwise; a text preview is exactly the probe-and-fetch of the file URL with a 5 MiB limit |
| FileManager.PreviewImageServed | src/components/R2FileManager.tsx:398-410 | against the current worker holding the image and the same token, the read is answered 200 with the stored bytes and the preview shows the fetched image |
| FileManager.StripQuotes | src/components/R2FileManager.tsx:300 | the result holds no quote, and every other character exactly as often as the input; a quote-free input is unchanged |
| FileManager.StripQuotesAppend | src/components/R2FileManager.tsx:300 | removing quotes from two joined strings is removing them from each |
| FileManager.DownloadName | src/components/R2FileManager.tsx:295-302 | with no header the file is saved under the key; any other name is free of quotes |
| FileManager.DownloadFile | src/components/R2FileManager.tsx:263-320 | a download makes one authenticated read; a failed read reports the read error; a successful one saves under the name taken from the header, or the key |
| FileManager.DownloadCrossOrigin | src/components/R2FileManager.tsx:295-297 | with `Content-Disposition` hidden, as it is cross-origin, a successful download is saved under the key |
| FileManager.DownloadServed | src/components/R2FileManager.tsx:263-302 | against the current worker holding the file and the same token, the read is answered 200 with the stored bytes, and with the header readable the file is saved under the encoded key without quotes |
| FileManager.DownloadNameOfProxyHeader | src/components/R2FileManager.tsx:295-302 | against the proxy's `Content-Disposition`, the saved name is the encoded key with its quotes removed, and exactly the encoded key when it has no apostrophe |
| FileManager.NoFilenameFallsBackToKey | src/components/R2FileManager.tsx:295-302 | with no header, or a header without `filename=`, the file is saved under its key |
| FileManager.DownloadNameOfQuoted | src/components/R2FileManager.tsx:298-300 | for a header `…filename="v"` the regex captures the quoted value, so the saved name is `v` without quotes |
| FileManager.ListFiles | src/components/R2FileManager.tsx:57-73 | a refresh makes one list call and shows the reply's files in the order received; a failure shows the API error |
| FileManager.MountErrorMessage | src/components/R2FileManager.tsx:104-106 | the first load reports the same error as a refresh, except that the numeric fallback reads `加载失败 (<status>)` |
| FileManager.MountList | src/components/R2FileManager.tsx:76-125 | the first load distinguishes no saved configuration, an unreadable one and a missing worker URL; it calls list only with a worker URL and shows the reply's files |
| FileManager.MountAgreesWithRefresh | src/components/R2FileManager.tsx:57-113 | the first load and a refresh call the same URL and show the same files, though only the first load sends an empty JSON body |
| FileManager.UploadFile | src/components/R2FileManager.tsx:128-185 | an upload sends the file under its own name and re-lists exactly when the upload is accepted |
| FileManager.DeleteFile | src/components/R2FileManager.tsx:187-205 | a confirmed delete sends one delete call, then re-lists only when it succeeds |
| MarkdownViewer.ListShowsFolderMarkdown | src/components/MarkdownViewer.tsx:65-102 | the list asks for prefix `markdown_file/` and shows exactly the `.md`/`.markdown` files under that folder, with `/` or `\` |
| MarkdownViewer.PickFile | src/components/MarkdownViewer.tsx:453-463 | the picker refuses a non-markdown file and keeps the current selection; it accepts anything else |
| MarkdownViewer.UploadToR2 | src/components/MarkdownViewer.tsx:162-226 | an upload goes out only for a markdown file with a worker URL, stored under `markdown_file/`; it succeeds exactly when the reply accepts it, and only then is it followed by the list refresh, which needs a stored configuration |
| MarkdownViewer.FolderKeyIsListed | src/components/MarkdownViewer.tsx:85-90 | every uploaded markdown file shows up in the list |
| MarkdownViewer.UnchangedNameTarget | src/components/MarkdownViewer.tsx:310-318 | the rename dialog's proposed name maps back to the same key for `/` keys, and to a different key for `\` keys |
| MarkdownViewer.DialogName | src/components/MarkdownViewer.tsx:312 | the proposed name is a suffix of the key: the key itself, or the key without its 14-character `markdown_file/` or `markdown_file\` folder |
| MarkdownViewer.UnchangedRenameIsConflict | src/components/MarkdownViewer.tsx:284-289 | confirming the proposed name unchanged is refused by the proxy with 409 and changes nothing |
| MarkdownViewer.RenameFile | src/components/MarkdownViewer.tsx:255-308 | a rename checks a blank name, the markdown extension and the configuration in that order; it sends one rename call into the folder and moves the selection with the file |
| MarkdownViewer.OtherSelectionUntouched | src/components/MarkdownViewer.tsx:229-308 | renaming or deleting a file other than the one shown leaves the pane as it was |
| MarkdownViewer.DeleteFile | src/components/MarkdownViewer.tsx:229-253 | the delete as written: the same checks and pane effects as `Client.DeleteSelected`, but its one call is built from the first render's empty configuration |
| MarkdownViewer.StaleDeleteMissesWorker | src/components/MarkdownViewer.tsx:40-62 | with a worker URL and token configured, the delete goes to the relative `?action=delete` without an `Authorization` header and a worker holding a token refuses it, while the intended call reaches the worker URL with the bearer token and passes its gate |
| MarkdownViewer.LoadFileContent | src/components/MarkdownViewer.tsx:368-426 | a read probes first, refuses files over 2 MiB, and shows the text exactly when both calls succeed; on failure it clears the selection |
| ImageManager.DotExtension | src/components/R2ImageManager.tsx:37-39 | the extension is the lower-cased suffix from the last dot, or the whole lower-cased name |
| ImageManager.DotlessNeverImage | src/components/R2ImageManager.tsx:37-41 | a name without a dot is never an image |
| ImageManager.AgreesWithProxy | src/components/R2ImageManager.tsx:34-41 | the image test here holds exactly when the current proxy's allow-list accepts the key |
| ImageManager.DottedSuffixIsExtension | src/components/R2ImageManager.tsx:38 | when the lower-cased name ends in `.` plus a dot-free tail, that suffix is exactly the extension the component compares |
| Strings.LastDotOfLowerSuffix | src/components/R2ImageManager.tsx:38 | the `.` that begins a dot-free lower-cased suffix is the last `.` of the original name, since lower-casing neither makes nor removes a `.` |
| ImageManager.KeepNames | src/components/R2ImageManager.tsx:164-168 | filtering keeps exactly the names that pass the test, never more than were given, all of them exactly when all pass, and none when none pass |
| ImageManager.ListShowsImages | src/components/R2ImageManager.tsx:68-100 | the list shows exactly the reply's images, newest first |
| ImageManager.ImagesOf | src/components/R2ImageManager.tsx:421-423 | the kept names are exactly the image names, and none are lost when all are images |
| ImageManager.NonImagesOf | src/components/R2ImageManager.tsx:164-168 | the rejected names are exactly the names that are not images, and there are none when every name is an image |
| ImageManager.PickImages | src/components/R2ImageManager.tsx:420-427 | the picker keeps exactly the images and warns exactly when it dropped something |
| ImageManager.PickedBatchPassesCheck | src/components/R2ImageManager.tsx:164-168 | a batch from the picker never fails the upload's image check |
| ImageManager.AcceptedPrefix | src/components/R2ImageManager.tsx:175-210 | the counted uploads are the accepted ones before the first rejection |
| ImageManager.UploadBatch | src/components/R2ImageManager.tsx:156-225 | a batch uploads each file in order under its own name and stops after the first rejection, reporting it; the selection clears only when all are accepted, and only then does the list refresh follow, which needs a stored configuration |
| ImageManager.SendInOrder | src/components/R2ImageManager.tsx:175-221 | the files are posted one by one in order until the first rejection, which is the last call; the selection is cleared exactly when every file was accepted |
| ImageManager.Progress | src/components/R2ImageManager.tsx:184 | a progress value exists exactly when there are files and the total size is known |
| ImageManager.ProgressBounded | src/components/R2ImageManager.tsx:184 | progress stays within 0 and 100 |
| ImageManager.ProgressMonotone | src/components/R2ImageManager.tsx:184 | progress never goes back within a file, and the end of one file equals the start of the next |
| ImageManager.ProgressEndsAtHundred | src/components/R2ImageManager.tsx:184 | the last file, fully sent, shows 100 |
| ImageManager.LoadImagePreview | src/components/R2ImageManager.tsx:302-342 | a preview makes one authenticated read; it shows the image on success and reports the read error otherwise |
| ImageManager.DeletingPreviewedClears | src/components/R2ImageManager.tsx:228-252 | deleting the previewed image clears the preview; deleting another leaves it |
| ImageManager.PreviewAndDownloadShareUrl | src/components/R2ImageManager.tsx:254-342 | preview and download read the same URL, with no doubled slash |
| Notes.FirstJsonIsAppended | src/components/NotesManager.tsx:110 | for an id without `.json` inside, the first `.json` of the key is the appended one |
| Notes.IdRoundTrip | src/components/NotesManager.tsx:110-160 | the id read back from a note's key is the id it was saved under |
| Notes.NoteKey | src/components/NotesManager.tsx:160 | a note's key starts with `notes/`, ends with `.json`, and holds exactly the id between them |
| Notes.NoteKeyListed | src/components/NotesManager.tsx:88-91 | every saved note's key passes the list filter |
| Notes.DigitsHoldNoJson | src/components/NotesManager.tsx:226 | an all-digit id contains no `.json` |
| Notes.CreatedIdsRoundTrip | src/components/NotesManager.tsx:224-241 | a newly created note's id survives the save-and-list round trip |
| Notes.UpperCaseExtensionQuirk | src/components/NotesManager.tsx:88-110 | `notes/a.JSON` is listed with id `a.JSON`, whose own key is a different file |
| Notes.NoteFrom | src/components/NotesManager.tsx:108-112 | a loaded note takes its id from the file's data when present, else from the key |
| Notes.LoadNotes | src/components/NotesManager.tsx:96-117 | the loaded notes are exactly those built from the files whose read succeeded |
| Notes.LoadNotesAppend | src/components/NotesManager.tsx:96-117 | loading two runs of files one after the other gives the two results in order |
| Notes.FailedNoteIsSkipped | src/components/NotesManager.tsx:113-116 | a file whose read fails is dropped without disturbing the others |
| Notes.NoteReads | src/components/NotesManager.tsx:96-106 | each listed note gets one authenticated read of its file URL, in list order |
| Notes.LoadNotesList | src/components/NotesManager.tsx:71-126 | the notes list makes one list call, then one read per listed note; it shows notes exactly when the list succeeds, each built from a listed note file |
| Notes.SavedData | src/components/NotesManager.tsx:161-167 | a saved file carries no id and the save time |
| Notes.SaveThenLoad | src/components/NotesManager.tsx:110-167 | reading back a saved note gives the note with its new update time |
| Notes.Touch | src/components/NotesManager.tsx:193-195 | after a save, only the saved note's time changes in the list |
| Notes.SaveNote | src/components/NotesManager.tsx:151-202 | a save writes `notes/<id>.json` only with a configuration; success updates the list, and a failure keeps it and reports the matching message |
| Notes.CreateNote | src/components/NotesManager.tsx:224-241 | a new empty note titled `新笔记`, with the current time as id and its creation and update stamps taken from two separate clock reads, goes first and is selected, and is saved at once: with a configuration it is written to `notes/<id>.json`, an accepted save stamps its update time in the list and a failed one reports an error; the other notes stay as they were |
| Notes.Without | src/components/NotesManager.tsx:271 | removing keeps exactly the notes with another id |
| Notes.PerformDelete | src/components/NotesManager.tsx:250-285 | a missing or empty pending id does nothing; a delete sends one call for the note's key; success removes the note and clears the selection when it was selected; a failure keeps everything and reports it |
| Notes.Search | src/components/NotesManager.tsx:349-354 | the search keeps exactly the notes whose title, content or a tag contains the query, ignoring case |
| Notes.EmptyQueryKeepsAll | src/components/NotesManager.tsx:349-354 | an empty query shows every note in order |
| Notes.FirstImage | src/components/NotesManager.tsx:292-296 | the pasted item used is the first image item that has a file |
| Notes.HandlePaste | src/components/NotesManager.tsx:288-346 | a pasted image is uploaded under `assets/<time>-<name>`, and on success its markdown link is appended to the selected note |
| Notes.PasteOnlyAppends | src/components/NotesManager.tsx:328-335 | pasting into a note only ever appends to its content and changes nothing else |
| ByteConverter.Multiplier | src/components/ByteConverter.tsx:12-19 | every unit is worth at least one bit |
| ByteConverter.MultiplierChain | src/components/ByteConverter.tsx:12-19 | a byte is 8 bits and each larger unit is 1024 of the one below |
| ByteConverter.HandleInputChange | src/components/ByteConverter.tsx:42-55 | typing records the field; a blank value clears the amount, text that is not a number keeps it, and a number sets it to the value times the unit |
| ByteConverter.DisplayValue | src/components/ByteConverter.tsx:57-64 | the edited field shows what was typed; another shows nothing without an amount, else the amount in its unit |
| ByteConverter.EditedFieldShowsInput | src/components/ByteConverter.tsx:42-64 | the field being typed in always shows exactly the typed text |
| ByteConverter.ConversionPreservesBits | src/components/ByteConverter.tsx:53-62 | every other field shows the same number of bits as was typed |
| ByteConverter.BlankClearsOthers | src/components/ByteConverter.tsx:46-49 | clearing one field empties all the others |
| ByteConverter.NonNumericKeepsOthers | src/components/ByteConverter.tsx:51-54 | typing something that is not a number leaves the other fields as they were |
| ByteConverter.ReenteringShownValueKeepsBits | src/components/ByteConverter.tsx:53-62 | typing the exact quotient a field stands for back into that field keeps the amount |
| ByteConverter.FixedShown | src/components/ByteConverter.tsx:38-39 | in the fixed-notation range, the shown number is within half a unit of the tenth decimal of the quantity and has at most ten decimals |
| ByteConverter.RetypingRoundedTextDrifts | src/components/ByteConverter.tsx:30-63 | typing `1` in bits shows `0.0001220703` in KB, and typing that text back into KB stores 0.9999998976 bits, not 1 |
| ByteConverter.ExampleValue | src/components/ByteConverter.tsx:66-69 | the example shows the whole number of units in 1 TB |
| ByteConverter.ExampleValues | src/components/ByteConverter.tsx:28-69 | 1 TB is 8796093022208 bits, 1099511627776 bytes, and so on down to 1 TB, each dividing exactly |
| Base64.CharOf | src/components/Base64Encoder.tsx:60-67 | no six-bit value encodes to the pad character |
| Base64.ValueOf | src/components/Base64Encoder.tsx:70-78 | decoding a character gives the value that encodes to it; the pad character has no value |
| Base64.ValueOfCharOf | src/components/Base64Encoder.tsx:60-78 | each six-bit value survives encoding and decoding |
| Base64.Encode | src/components/Base64Encoder.tsx:60-67 | the encoding of n bytes has 4·⌈n/3⌉ characters |
| Base64.Decode | src/components/Base64Encoder.tsx:70-78 | only text whose length is a multiple of four decodes, to at most three bytes per four characters |
| Base64.DecodeEncode | src/components/Base64Encoder.tsx:60-78 | decoding the encoding of any byte sequence gives it back |
| Base64.DecodeRejectsForeign | src/components/Base64Encoder.tsx:70-78 | text holding a character outside the alphabet does not decode |
| Base64Tool.SaveHistory | src/components/Base64Encoder.tsx:44-57 | a new run goes first, the older ones follow in order, and the list stops at 100 |
| Base64Tool.Select | src/components/Base64Encoder.tsx:268-272 | clicking a history entry restores its input, output and compression |
| Base64Tool.Load | src/components/Base64Encoder.tsx:26-42 | opening the page restores the saved history and shows its newest entry |
| Base64Tool.Chars | src/components/Base64Encoder.tsx:60-67 | a byte sequence becomes a binary string whose codes are those bytes |
| Base64Tool.Btoa | src/components/Base64Encoder.tsx:66 | `btoa` accepts exactly binary strings, and its output decodes to their codes |
| Base64Tool.Atob | src/components/Base64Encoder.tsx:71 | `atob` succeeds exactly on valid base 64, with a binary string of the decoded bytes |
| Base64Tool.BytesToBinary | src/components/Base64Encoder.tsx:61-65 | the loop turns each byte into the character with that code |
| Base64Tool.BinaryToBytes | src/components/Base64Encoder.tsx:72-76 | the loop stores each character's code modulo 256 |
| Base64Tool.BinaryRoundTrip | src/components/Base64Encoder.tsx:60-78 | bytes turned into a binary string and back are unchanged |
| Base64Tool.Uint8ToBase64 | src/components/Base64Encoder.tsx:60-67 | encoding bytes gives their base 64 text, which decodes back to them |
| Base64Tool.Base64ToUint8 | src/components/Base64Encoder.tsx:70-78 | decoding gives the base 64 decoding of the text, and fails where it fails |
| Base64Tool.HandleEncode | src/components/Base64Encoder.tsx:90-124 | an empty input clears the output; a codec failure shows `编码/压缩失败: `; a success shows text that decodes to the compressed bytes and records the run |
| Base64Tool.HandleDecode | src/components/Base64Encoder.tsx:126-167 | invalid base 64 reports `解码/解压失败: `; a failing decompression reports its message and clears the output; a successful one shows the UTF-8 text of the decompressed bytes and records it first in the history |
| Base64Tool.EncodeThenDecode | src/components/Base64Encoder.tsx:90-167 | without compression, decoding the encoded text gives back the input and records it |
| Base64Tool.LoadRestoresLastRun | src/components/Base64Encoder.tsx:26-57 | reopening the page after an encode restores that run's input, output and compression |
| Base64Tool.ClearAll | src/components/Base64Encoder.tsx:176-180 | clearing empties input, output and error, and keeps the compression and the history |

## Left out

- Rendering, dialogs, toasts, loading spinners, timers and the NotesManager auto-save debounce are left out. The model covers the state changes and the calls, not the screen.
- `localStorage` is left out as storage. Each operation takes the saved configuration, history or note content as a parameter.
- Clipboard copying (`getFileUrl`, `copyImageUrl`, `copyToClipboard`) is left out. It only builds the URL that `Client.FileUrl` models and writes it to the clipboard.
- `formatSize`, `formatDate` and `getFileIconName` are left out. They only format text for display.
- ByteConverter.FixedShown: `formatNumber`'s fixed branch is modelled as the value the text denotes, rounded to ten decimals half up, for quantities from 0.0001 up to 10^15. Its `0`, negative and `toExponential(4)` branches (src/components/ByteConverter.tsx:30-40) and the text itself are not modelled.
- ByteConverter.ReenteringShownValueKeepsBits: it is stated for the exact quotient a field stands for. The page shows that quotient rounded by `formatNumber`, so retyping the shown text can change the amount, as `ByteConverter.RetypingRoundedTextDrifts` shows.
- Floating point is left out.
  - ByteConverter works on exact reals.
  - `Math.round` in the upload progress is exact rounding half up.
  - JavaScript's `Number` precision is not modelled.
- Unicode case mapping is left out. `toLowerCase` is modelled for ASCII letters only.
- `atob` leniency is left out.
  - Decoding follows section 4 of RFC 4648 strictly.
  - Input with whitespace or missing padding is rejected, where a browser's `atob` accepts some such input.
  - The unused bits of the last group are ignored, as `atob` ignores them.
- The gzip and Snappy codecs, `TextEncoder` and `TextDecoder` are left out. They are opaque functions in `Base64Tool.Library`.
- Network faults are left out, except where the code distinguishes them:
  - the XHR error event on upload;
  - the failed reply of an API call.
- List pagination is left out. A list reply is taken to hold every key under the prefix.
- A `delete` request whose body has no `key` is modelled as a store fault, answered with 500. R2's behaviour for an undefined key is not part of this model.
- The NotesManager mount is left out. It repeats `loadNotesList`, which is modelled.
- The MarkdownViewer and R2ImageManager mounts are left out. Each sends its own list call with the same filter and sort as its `listFiles`, but they are not the same operation:
  - R2ImageManager's mount posts the body `{}` (src/components/R2ImageManager.tsx:123), while its `listFiles` posts none (:84, `NoBody` in `ImageManager.ListShowsImages`); the worker lists everything for both (docs/worker.js:99-100), but the calls differ. MarkdownViewer's mount and `listFiles` both post `{ prefix: 'markdown_file/' }`.
  - A failed reply shows `error`, else `加载失败 (status)`, with no `加载失败: ` prefix; a network failure shows its bare message.
  - A stored configuration that is not valid JSON is caught and shows `配置读取失败，请重新配置` (src/components/MarkdownViewer.tsx:152-155, src/components/R2ImageManager.tsx:146-149), where `listFiles` throws.
  - The mount also installs the parsed configuration as the component's own.
  `FileManager.MountList` models the corresponding R2FileManager mount.
- The single-file upload progress of R2FileManager and MarkdownViewer is left out. It is `Math.round(loaded / total * 100)`, the one-file case of `ImageManager.Progress`.
- Client.DeleteSelected, MarkdownViewer.DeleteFile: the refresh that follows a successful delete (src/components/R2ImageManager.tsx:243, src/components/MarkdownViewer.tsx:244) is a separate `Client.ListFiltered` run, and is not among the calls either returns.
- MarkdownViewer.RenameFile: the refresh that follows a successful rename is a separate `Client.ListFiltered` run, and is not among the calls it returns.
- The Base64Encoder "clear history" button is left out. It only empties the history and its saved copy.
- Notes.NoteFrom: a note file whose JSON lacks `title`, `content` or `tags` is not modelled. The parsed content is taken to be complete.
- Notes.LoadNotesList: a `JSON.parse` exception is modelled as a failed read of that note only.
- Notes.SaveNote: `new Date().toISOString()` is called twice in the code. The model passes the two stamps separately and does not relate them.
- ImageManager.Progress: the progress is stated for an exact `Math.round`. The floating-point error of the division is not modelled.
- A request body is a `Body`, whose JSON fields are strings. A JSON body of `null`, or a field that is not a string, cannot be written in it. For a `null` body the code throws at `body.prefix` (docs/worker.js:99-100), `body.key` (docs/worker.js:147-148) or the destructuring of `oldKey` and `newKey` (docs/worker.js:158-159), and the catch-all answers 500. A truthy non-string `prefix` or key would be passed to the bucket as it is.
- FileManager.DownloadFile: the reply carries the `Content-Disposition` the browser exposes, or none. Whether page and worker share an origin is not modelled; `FileManager.DownloadCrossOrigin` states the cross-origin case, where the header is hidden.
- Client.ListFiltered: the stored configuration is an `Option<Config>`, so a saved value that is not valid JSON cannot be given. The code parses it outside any `try` (src/components/MarkdownViewer.tsx:73, src/components/R2ImageManager.tsx:75), so such a value throws before any call or state change; that case is not modelled.
- MarkdownViewer.UploadToR2: the refresh after an accepted upload re-reads the stored configuration; an unparsable one throws there (src/components/MarkdownViewer.tsx:73) and sends no list call, which is not modelled.
- ImageManager.UploadBatch: likewise, an unparsable stored configuration throws in the closing refresh (src/components/R2ImageManager.tsx:75) and sends no list call; not modelled.
- Notes.CreateNote: likewise, an unparsable stored configuration throws in the save (src/components/NotesManager.tsx:155) before the write; not modelled.
- MarkdownViewer.RenameFile: an unparsable stored configuration throws at src/components/MarkdownViewer.tsx:275 before any call or state change; not modelled.
- Notes.LoadNotesList: an unparsable stored configuration throws at src/components/NotesManager.tsx:78 before the list call; not modelled.
- Notes.SaveNote: an unparsable stored configuration throws at src/components/NotesManager.tsx:155 before the write; not modelled.
- Notes.PerformDelete: an unparsable stored configuration throws at src/components/NotesManager.tsx:260 before the delete, and the pending id stays set; not modelled.
- Notes.HandlePaste: an unparsable stored configuration throws at src/components/NotesManager.tsx:304 before the upload; not modelled.
- Base64Tool.HandleEncode: the history entry reads `Date.now()` twice, once for its id and once for its timestamp (src/components/Base64Encoder.tsx:46, :51). The model uses one clock value for both, as does `Base64Tool.HandleDecode`.
- WorkerLegacy.UploadReplyHasNoSize: the older revision puts `file.stream()` (docs/WORKER_CODE_WITH_RENAME.js:65), where the current one buffers the file with `arrayBuffer()` first (docs/worker.js:127-131). The model takes the streamed put to store every byte of the file.
- Base64.Decode: the contract bounds the decoded length, but states no exact length when padding is present.

## Findings

| source | as written | input that shows it | evidently intended | confidence | as-written member | corrected member |
|---|---|---|---|---|---|---|
| src/components/MarkdownViewer.tsx:239 | `deleteFile` calls `callWorkerApi('delete', { key })` with no configuration; `callWorkerApi` is memoised with `[]` (MarkdownViewer.tsx:40-62), so its default is the first render's `{ workerUrl: '', apiToken: '' }` and the POST goes to the relative `?action=delete` without `Authorization` | any confirmed delete with a worker URL and a token configured, e.g. worker `https://w.example` and token `t` | send the delete to the configured worker with its bearer token, as R2ImageManager.tsx:238 does by passing `config` | not executed | MarkdownViewer.DeleteFile, MarkdownViewer.StaleDeleteMissesWorker | Client.DeleteSelected |

=== FILE: base64.dfy ===
/** Base 64 as section 4 of RFC 4648 defines it: the 64-character alphabet,
    three bytes to four characters, and `=` padding for a final group of one
    or two bytes. This is what `btoa` writes and what `atob` reads. */
module Base64 {
  import opened Strings
  import opened BlobStore

  /** The character that encodes a six-bit value: Table 1 of section 4 of
      RFC 4648, `A`-`Z`, `a`-`z`, `0`-`9`, `+`, `/`. */
  function CharOf(v: int): (c: char)
    requires 0 <= v < 64
    ensures c != '='
  {
    if v < 26 then ('A' as int + v) as char
    else if v < 52 then ('a' as int + (v - 26)) as char
    else if v < 62 then ('0' as int + (v - 52)) as char
    else if v == 62 then '+'
    else '/'
  }

  /** The six-bit value a character encodes; `None` outside the alphabet. */
  function ValueOf(c: char): (r: Option<int>)
    ensures r.Some? ==> 0 <= r.value < 64 && CharOf(r.value) == c
    ensures c == '=' ==> r.None?
  {
    if 'A' <= c <= 'Z' then Some(c as int - 'A' as int)
    else if 'a' <= c <= 'z' then Some(c as int - 'a' as int + 26)
    else if '0' <= c <= '9' then Some(c as int - '0' as int + 52)
    else if c == '+' then Some(62)
    else if c == '/' then Some(63)
    else None
  }

  /** Reading a character back gives the value it encodes. */
  lemma ValueOfCharOf(v: int)
    requires 0 <= v < 64
    ensures ValueOf(CharOf(v)) == Some(v)
  {
  }

  /** Encoding: every three bytes become four characters; a last group of
      one or two bytes is zero-filled and padded with `=`. */
  function Encode(bs: seq<byte>): (r: string)
    ensures |r| == 4 * ((|bs| + 2) / 3)
  {
    if |bs| == 0 then ""
    else if |bs| == 1 then [CharOf(bs[0] / 4), CharOf((bs[0] % 4) * 16), '=', '=']
    else if |bs| == 2 then
      [CharOf(bs[0] / 4), CharOf((bs[0] % 4) * 16 + bs[1] / 16), CharOf((bs[1] % 16) * 4), '=']
    else
      var rest := Encode(bs[3..]);
      assert (|bs| + 2) / 3 == (|bs[3..]| + 2) / 3 + 1;
      [CharOf(bs[0] / 4), CharOf((bs[0] % 4) * 16 + bs[1] / 16),
       CharOf((bs[1] % 16) * 4 + bs[2] / 64), CharOf(bs[2] % 64)] + rest
  }

  /** Four alphabet characters decode to three bytes. */
  function DecodeQuad(c0: char, c1: char, c2: char, c3: char): Option<seq<byte>> {
    match (ValueOf(c0), ValueOf(c1), ValueOf(c2), ValueOf(c3))
    case (Some(v0), Some(v1), Some(v2), Some(v3)) =>
      Some([v0 * 4 + v1 / 16, (v1 % 16) * 16 + v2 / 4, (v2 % 4) * 64 + v3])
    case _ => None
  }

  /** The last group: `xx==` is one byte, `xxx=` two, `xxxx` three. The bits
      padding leaves over are ignored, as `atob` ignores them. */
  function DecodeLast(c0: char, c1: char, c2: char, c3: char): Option<seq<byte>> {
    if c2 == '=' && c3 == '=' then
      match (ValueOf(c0), ValueOf(c1))
      case (Some(v0), Some(v1)) => Some([v0 * 4 + v1 / 16])
      case _ => None
    else if c3 == '=' then
      match (ValueOf(c0), ValueOf(c1), ValueOf(c2))
      case (Some(v0), Some(v1), Some(v2)) => Some([v0 * 4 + v1 / 16, (v1 % 16) * 16 + v2 / 4])
      case _ => None
    else DecodeQuad(c0, c1, c2, c3)
  }

  /** Decoding; `None` where `atob` throws. */
  function Decode(s: string): (r: Option<seq<byte>>)
    ensures r.Some? ==> |s| % 4 == 0
    ensures r.Some? ==> |r.value| <= 3 * (|s| / 4)
  {
    if |s| == 0 then Some([])
    else if |s| < 4 then None
    else if |s| == 4 then DecodeLast(s[0], s[1], s[2], s[3])
    else match DecodeQuad(s[0], s[1], s[2], s[3])
      case None => None
      case Some(head) =>
        match Decode(s[4..])
        case None => None
        case Some(tail) => Some(head + tail)
  }

  lemma FirstByteBack(b0: int, b1: int)
    requires 0 <= b0 < 256 && 0 <= b1 < 256
    ensures (b0 / 4) * 4 + ((b0 % 4) * 16 + b1 / 16) / 16 == b0
  {
  }

  lemma SecondByteBack(b0: int, b1: int, b2: int)
    requires 0 <= b0 < 256 && 0 <= b1 < 256 && 0 <= b2 < 256
    ensures (((b0 % 4) * 16 + b1 / 16) % 16) * 16 + ((b1 % 16) * 4 + b2 / 64) / 4 == b1
  {
    var hi, lo := b1 / 16, b1 % 16;
    SixteensPlusSmall(b0 % 4, hi);
    FoursPlusSmall(lo, b2 / 64);
  }

  lemma SixteensPlusSmall(k: int, r: int)
    requires 0 <= r < 16
    ensures (k * 16 + r) % 16 == r
  {
  }

  lemma FoursPlusSmall(k: int, r: int)
    requires 0 <= r < 4
    ensures (k * 4 + r) / 4 == k
  {
  }

  lemma ThirdByteBack(b1: int, b2: int)
    requires 0 <= b1 < 256 && 0 <= b2 < 256
    ensures (((b1 % 16) * 4 + b2 / 64) % 4) * 64 + b2 % 64 == b2
  {
  }

  /** One full group decodes back to its three bytes. */
  lemma QuadRoundTrip(b0: byte, b1: byte, b2: byte)
    ensures DecodeQuad(CharOf(b0 / 4), CharOf((b0 % 4) * 16 + b1 / 16),
                       CharOf((b1 % 16) * 4 + b2 / 64), CharOf(b2 % 64)) == Some([b0, b1, b2])
  {
    ValueOfCharOf(b0 / 4);
    ValueOfCharOf((b0 % 4) * 16 + b1 / 16);
    ValueOfCharOf((b1 % 16) * 4 + b2 / 64);
    ValueOfCharOf(b2 % 64);
    FirstByteBack(b0, b1);
    SecondByteBack(b0, b1, b2);
    ThirdByteBack(b1, b2);
  }

  /** A last group of one byte decodes back. */
  lemma OneByteRoundTrip(b0: byte)
    ensures Decode(Encode([b0])) == Some([b0])
  {
    var s := Encode([b0]);
    assert s == [CharOf(b0 / 4), CharOf((b0 % 4) * 16), '=', '='];
    assert Decode(s) == DecodeLast(s[0], s[1], s[2], s[3]);
    ValueOfCharOf(b0 / 4);
    ValueOfCharOf((b0 % 4) * 16);
    FirstByteBack(b0, 0);
  }

  /** A last group of two bytes decodes back. */
  lemma TwoBytesRoundTrip(b0: byte, b1: byte)
    ensures Decode(Encode([b0, b1])) == Some([b0, b1])
  {
    var s := Encode([b0, b1]);
    assert s == [CharOf(b0 / 4), CharOf((b0 % 4) * 16 + b1 / 16), CharOf((b1 % 16) * 4), '='];
    assert Decode(s) == DecodeLast(s[0], s[1], s[2], s[3]);
    ValueOfCharOf(b0 / 4);
    ValueOfCharOf((b0 % 4) * 16 + b1 / 16);
    ValueOfCharOf((b1 % 16) * 4);
    FirstByteBack(b0, b1);
    SecondByteBack(b0, b1, 0);
  }

  /** The first four characters of a group followed by more groups decode
      on their own. */
  lemma DecodeSplit(q: string, rest: string, head: seq<byte>, tail: seq<byte>)
    requires |q| == 4 && |rest| >= 4
    requires DecodeQuad(q[0], q[1], q[2], q[3]) == Some(head) && Decode(rest) == Some(tail)
    ensures Decode(q + rest) == Some(head + tail)
  {
    var s := q + rest;
    assert s[4..] == rest;
    assert s[0] == q[0] && s[1] == q[1] && s[2] == q[2] && s[3] == q[3];
  }

  /** The group of the first three bytes. */
  function Quad(b0: byte, b1: byte, b2: byte): string {
    [CharOf(b0 / 4), CharOf((b0 % 4) * 16 + b1 / 16), CharOf((b1 % 16) * 4 + b2 / 64), CharOf(b2 % 64)]
  }

  /** Encoding peels off one full group at a time. */
  lemma EncodeFirstGroup(bs: seq<byte>)
    requires |bs| >= 3
    ensures Encode(bs) == Quad(bs[0], bs[1], bs[2]) + Encode(bs[3..])
  {
  }

  /** Exactly three bytes make one unpadded last group. */
  lemma ThreeBytesRoundTrip(bs: seq<byte>)
    requires |bs| == 3
    ensures Decode(Encode(bs)) == Some(bs)
  {
    var b0, b1, b2 := bs[0], bs[1], bs[2];
    assert bs == [b0, b1, b2];
    EncodeThree(bs);
    GroupDecodes(b0, b1, b2);
  }

  /** One group, standing alone, decodes back to its three bytes. */
  lemma GroupDecodes(b0: byte, b1: byte, b2: byte)
    ensures Decode(Quad(b0, b1, b2)) == Some([b0, b1, b2])
  {
    var q := Quad(b0, b1, b2);
    DecodeOneGroup(q);
    QuadRoundTrip(b0, b1, b2);
  }

  lemma EncodeThree(bs: seq<byte>)
    requires |bs| == 3
    ensures Encode(bs) == Quad(bs[0], bs[1], bs[2])
  {
    EncodeFirstGroup(bs);
    assert Encode(bs[3..]) == [];
  }

  /** A last group without padding decodes like any other group. */
  lemma DecodeOneGroup(q: string)
    requires |q| == 4 && q[2] != '=' && q[3] != '='
    ensures Decode(q) == DecodeQuad(q[0], q[1], q[2], q[3])
  {
  }

  /** Decoding what was encoded gives the bytes back. */
  lemma {:induction false} DecodeEncode(bs: seq<byte>)
    ensures Decode(Encode(bs)) == Some(bs)
    decreases |bs|
  {
    if |bs| == 1 {
      assert bs == [bs[0]];
      OneByteRoundTrip(bs[0]);
    } else if |bs| == 2 {
      assert bs == [bs[0], bs[1]];
      TwoBytesRoundTrip(bs[0], bs[1]);
    } else if |bs| == 3 {
      ThreeBytesRoundTrip(bs);
    } else if |bs| > 3 {
      DecodeEncode(bs[3..]);
      LongerRoundTrip(bs);
    }
  }

  /** The step of the induction: a full group in front of bytes that
      round-trip. */
  lemma LongerRoundTrip(bs: seq<byte>)
    requires |bs| > 3 && Decode(Encode(bs[3..])) == Some(bs[3..])
    ensures Decode(Encode(bs)) == Some(bs)
  {
    var tail := bs[3..];
    var rest := Encode(tail);
    assert Encode(bs) == Quad(bs[0], bs[1], bs[2]) + rest by { EncodeFirstGroup(bs); }
    assert |rest| >= 4 by { EncodeNonEmpty(tail); }
    GroupThenRest(bs[0], bs[1], bs[2], tail, rest);
    FirstThree(bs);
  }

  lemma FirstThree<T>(s: seq<T>)
    requires |s| >= 3
    ensures [s[0], s[1], s[2]] + s[3..] == s
  {
    assert s == [s[0]] + s[1..];
    assert s[1..] == [s[1]] + s[2..];
    assert s[2..] == [s[2]] + s[3..];
  }

  lemma EncodeNonEmpty(bs: seq<byte>)
    requires |bs| > 0
    ensures |Encode(bs)| >= 4
  {
  }

  /** A full group in front of decodable groups decodes to its three bytes
      in front of theirs. */
  lemma GroupThenRest(b0: byte, b1: byte, b2: byte, tail: seq<byte>, rest: string)
    requires |rest| >= 4 && Decode(rest) == Some(tail)
    ensures Decode(Quad(b0, b1, b2) + rest) == Some([b0, b1, b2] + tail)
  {
    QuadRoundTrip(b0, b1, b2);
    var q := Quad(b0, b1, b2);
    DecodeSplit(q, rest, [b0, b1, b2], tail);
  }

  /** Only the alphabet, and `=` as padding, get through decoding. */
  lemma {:induction false} DecodeRejectsForeign(s: string, i: nat)
    requires i < |s| && ValueOf(s[i]).None? && s[i] != '='
    ensures Decode(s) == None
    decreases |s|
  {
    if |s| > 4 && i >= 4 {
      assert s[4..][i - 4] == s[i];
      DecodeRejectsForeign(s[4..], i - 4);
    }
  }
}

=== FILE: base64_tool.dfy ===
/** The base 64 page: text is UTF-8 encoded, optionally compressed, and
    written as base 64 (and back); each successful run is recorded in a
    history of at most 100 entries, newest first, and the newest entry is
    restored when the page loads. */
module Base64Tool {
  import opened Strings
  import opened BlobStore
  import Base64

  datatype Compression = NoCompression | Gzip | Snappy
  datatype Direction = Encoded | Decoded

  datatype HistoryItem = HistoryItem(id: string, input: string, output: string, direction: Direction,
                                     compression: Compression, timestamp: nat)

  /** A library call's result, or the message of what it threw. */
  datatype Outcome<T> = Done(value: T) | Threw(message: string)

  /** `TextEncoder`/`TextDecoder`, and the gzip and Snappy codecs, whose
      workings are outside this model. */
  datatype Library = Library(utf8: string -> seq<byte>, fromUtf8: seq<byte> -> string,
                             gzip: seq<byte> -> Outcome<seq<byte>>, gunzip: seq<byte> -> Outcome<seq<byte>>,
                             snappy: seq<byte> -> Outcome<seq<byte>>, unsnappy: seq<byte> -> Outcome<seq<byte>>)

  /** The page: input and output text, the chosen compression, the error
      line, and the history. */
  datatype Page = Page(input: string, output: string, compression: Compression, error: string,
                       history: seq<HistoryItem>)

  const HistoryLimit := 100

  // ---------------------------------------------------------------------
  // History
  // ---------------------------------------------------------------------

  /** `[newItem, ...history].slice(0, 100)`. */
  function SaveHistory(history: seq<HistoryItem>, item: HistoryItem): (r: seq<HistoryItem>)
    ensures |r| == if |history| < HistoryLimit then |history| + 1 else HistoryLimit
    ensures r[0] == item
    ensures forall k :: 1 <= k < |r| ==> r[k] == history[k - 1]
  {
    var all := [item] + history;
    if |all| <= HistoryLimit then all else all[..HistoryLimit]
  }

  /** Clicking a history entry brings back its text and compression. */
  function Select(p: Page, item: HistoryItem): (r: Page)
    ensures r.input == item.input && r.output == item.output && r.compression == item.compression
    ensures r.error == p.error && r.history == p.history
  {
    p.(input := item.input, output := item.output, compression := item.compression)
  }

  /** Loading the stored history: `None` when nothing (or nothing parsable)
      is stored. A non-empty history also brings back its newest entry. */
  function Load(p: Page, stored: Option<seq<HistoryItem>>): (r: Page)
    ensures stored.None? ==> r == p
    ensures stored.Some? ==> r.history == stored.value
    ensures stored.Some? && |stored.value| > 0 ==> r == Select(p.(history := stored.value), stored.value[0])
    ensures stored.Some? && |stored.value| == 0 ==> r == p.(history := [])
  {
    match stored
    case None => p
    case Some(h) =>
      if |h| > 0 then Select(p.(history := h), h[0]) else p.(history := h)
  }

  // ---------------------------------------------------------------------
  // Bytes and binary strings
  // ---------------------------------------------------------------------

  /** A binary string: one code unit per byte. */
  predicate IsBinary(s: string) {
    forall i :: 0 <= i < |s| ==> s[i] as int < 256
  }

  function Codes(s: string): (r: seq<byte>)
    requires IsBinary(s)
    ensures |r| == |s| && forall i :: 0 <= i < |s| ==> r[i] == s[i] as int
  {
    seq(|s|, i requires 0 <= i < |s| => s[i] as int)
  }

  function Chars(bs: seq<byte>): (r: string)
    ensures |r| == |bs| && IsBinary(r) && Codes(r) == bs
  {
    seq(|bs|, i requires 0 <= i < |bs| => bs[i] as char)
  }

  /** `btoa`: throws (`None`) on a code unit above 255. */
  function Btoa(s: string): (r: Option<string>)
    ensures r.Some? <==> IsBinary(s)
    ensures r.Some? ==> Base64.Decode(r.value) == Some(Codes(s))
  {
    if IsBinary(s) then
      Base64.DecodeEncode(Codes(s));
      Some(Base64.Encode(Codes(s)))
    else None
  }

  /** `atob` read strictly: throws (`None`) unless the text is base 64. */
  function Atob(s: string): (r: Option<string>)
    ensures r.Some? <==> Base64.Decode(s).Some?
    ensures r.Some? ==> IsBinary(r.value) && Codes(r.value) == Base64.Decode(s).value
  {
    match Base64.Decode(s)
    case None => None
    case Some(bs) => Some(Chars(bs))
  }

  /** The loop of `uint8ToBase64`: one character per byte, its code the
      byte. */
  method BytesToBinary(bytes: seq<byte>) returns (binary: string)
    ensures |binary| == |bytes|
    ensures forall i :: 0 <= i < |bytes| ==> binary[i] as int == bytes[i]
  {
    binary := "";
    var i := 0;
    while i < |bytes|
      invariant 0 <= i <= |bytes|
      invariant |binary| == i
      invariant forall k :: 0 <= k < i ==> binary[k] as int == bytes[k]
    {
      binary := binary + [bytes[i] as char];
      i := i + 1;
    }
  }

  /** The loop of `base64ToUint8`: each code unit stored into a
      `Uint8Array`, which keeps it modulo 256. */
  method BinaryToBytes(binary: string) returns (bytes: seq<byte>)
    ensures |bytes| == |binary|
    ensures forall i :: 0 <= i < |binary| ==> bytes[i] == (binary[i] as int) % 256
  {
    bytes := [];
    var i := 0;
    while i < |binary|
      invariant 0 <= i <= |binary|
      invariant |bytes| == i
      invariant forall k :: 0 <= k < i ==> bytes[k] == (binary[k] as int) % 256
    {
      bytes := bytes + [(binary[i] as int) % 256];
      i := i + 1;
    }
  }

  /** Bytes survive the trip through a binary string and back. */
  method BinaryRoundTrip(bytes: seq<byte>) returns (back: seq<byte>)
    ensures back == bytes
  {
    var binary := BytesToBinary(bytes);
    back := BinaryToBytes(binary);
  }

  /** `uint8ToBase64`: the base 64 text of the bytes, which decodes back to
      them. */
  method Uint8ToBase64(bytes: seq<byte>) returns (text: string)
    ensures Base64.Decode(text) == Some(bytes)
    ensures text == Base64.Encode(bytes)
  {
    var binary := BytesToBinary(bytes);
    assert IsBinary(binary);
    assert Codes(binary) == bytes;
    text := Btoa(binary).value;
  }

  /** `base64ToUint8`: `None` where `atob` throws. */
  method Base64ToUint8(text: string) returns (bytes: Option<seq<byte>>)
    ensures bytes == Base64.Decode(text)
  {
    var binary := Atob(text);
    if binary.None? {
      return None;
    }
    var b := BinaryToBytes(binary.value);
    var codes := Codes(binary.value);
    forall i | 0 <= i < |b| ensures b[i] == codes[i] {
      assert binary.value[i] as int < 256;
    }
    SameElements(b, codes);
    bytes := Some(b);
  }

  lemma SameElements<T>(a: seq<T>, b: seq<T>)
    requires |a| == |b| && forall i :: 0 <= i < |a| ==> a[i] == b[i]
    ensures a == b
  {
  }

  // ---------------------------------------------------------------------
  // Encode and decode
  // ---------------------------------------------------------------------

  function Compress(c: Compression, lib: Library, bytes: seq<byte>): Outcome<seq<byte>> {
    match c
    case NoCompression => Done(bytes)
    case Gzip => lib.gzip(bytes)
    case Snappy => lib.snappy(bytes)
  }

  function Decompress(c: Compression, lib: Library, bytes: seq<byte>): Outcome<seq<byte>> {
    match c
    case NoCompression => Done(bytes)
    case Gzip => lib.gunzip(bytes)
    case Snappy => lib.unsnappy(bytes)
  }

  const InvalidBase64 := "无效的 Base64 字符串"

  /** `handleEncode`; `now` is `Date.now()`. */
  function HandleEncode(p: Page, lib: Library, now: nat): (r: Page)
    ensures r.input == p.input && r.compression == p.compression
    ensures p.input == "" ==> r == p.(output := "", error := "")
    ensures p.input != "" && Compress(p.compression, lib, lib.utf8(p.input)).Threw? ==>
              r == p.(output := "", error := "编码/压缩失败: " + Compress(p.compression, lib, lib.utf8(p.input)).message)
    ensures p.input != "" && Compress(p.compression, lib, lib.utf8(p.input)).Done? ==>
              && r.error == ""
              && Base64.Decode(r.output) == Some(Compress(p.compression, lib, lib.utf8(p.input)).value)
              && r.history == SaveHistory(p.history, HistoryItem(NatToString(now), p.input, r.output, Encoded, p.compression, now))
  {
    if p.input == "" then p.(output := "", error := "")
    else match Compress(p.compression, lib, lib.utf8(p.input))
      case Threw(m) => p.(output := "", error := "编码/压缩失败: " + m)
      case Done(bytes) =>
        var text := Base64.Encode(bytes);
        Base64.DecodeEncode(bytes);
        p.(output := text, error := "",
           history := SaveHistory(p.history, HistoryItem(NatToString(now), p.input, text, Encoded, p.compression, now)))
  }

  /** `handleDecode`; `now` is `Date.now()`. */
  function HandleDecode(p: Page, lib: Library, now: nat): (r: Page)
    ensures r.input == p.input && r.compression == p.compression
    ensures p.input == "" ==> r == p.(output := "", error := "")
    ensures p.input != "" && Base64.Decode(p.input).None? ==>
              r == p.(output := "", error := "解码/解压失败: " + InvalidBase64)
    ensures p.input != "" && Base64.Decode(p.input).Some? ==>
              var d := Decompress(p.compression, lib, Base64.Decode(p.input).value);
              && (d.Threw? ==> r == p.(output := "", error := "解码/解压失败: " + d.message))
              && (d.Done? ==>
                    && r.error == "" && r.output == lib.fromUtf8(d.value)
                    && r.history == SaveHistory(p.history, HistoryItem(NatToString(now), p.input, r.output, Decoded,
                                                                       p.compression, now)))
    ensures r.history != p.history ==>
              && Base64.Decode(p.input).Some?
              && Decompress(p.compression, lib, Base64.Decode(p.input).value).Done?
              && r.output == lib.fromUtf8(Decompress(p.compression, lib, Base64.Decode(p.input).value).value)
              && r.history == SaveHistory(p.history, HistoryItem(NatToString(now), p.input, r.output, Decoded, p.compression, now))
  {
    if p.input == "" then p.(output := "", error := "")
    else match Base64.Decode(p.input)
      case None => p.(output := "", error := "解码/解压失败: " + InvalidBase64)
      case Some(bytes) =>
        match Decompress(p.compression, lib, bytes)
        case Threw(m) => p.(output := "", error := "解码/解压失败: " + m)
        case Done(plain) =>
          var text := lib.fromUtf8(plain);
          p.(output := text, error := "",
             history := SaveHistory(p.history, HistoryItem(NatToString(now), p.input, text, Decoded, p.compression, now)))
  }

  /** Without compression, decoding the encoded output gives the input back,
      given that UTF-8 decoding inverts UTF-8 encoding on it. */
  lemma EncodeThenDecode(p: Page, lib: Library, now: nat, later: nat)
    requires p.compression == NoCompression && p.input != ""
    requires |lib.utf8(p.input)| > 0 && lib.fromUtf8(lib.utf8(p.input)) == p.input
    ensures var e := HandleEncode(p, lib, now);
      var d := HandleDecode(e.(input := e.output), lib, later);
      d.output == p.input && d.error == "" && |d.history| > 0 && d.history[0].output == p.input
  {
    var e := HandleEncode(p, lib, now);
    assert |e.output| > 0;
  }

  /** A recorded run is what the next load brings back. */
  lemma LoadRestoresLastRun(p: Page, lib: Library, now: nat, reopened: Page)
    requires p.input != "" && Compress(p.compression, lib, lib.utf8(p.input)).Done?
    ensures var e := HandleEncode(p, lib, now);
      var l := Load(reopened, Some(e.history));
      l.input == p.input && l.output == e.output && l.compression == p.compression
  {
  }

  /** `clearAll`. */
  function ClearAll(p: Page): (r: Page)
    ensures r.input == "" && r.output == "" && r.error == ""
    ensures r.compression == p.compression && r.history == p.history
  {
    p.(input := "", output := "", error := "")
  }
}

=== FILE: blobstore.dfy ===
/** The key/value blob store behind the proxy (an R2 bucket), as an immutable
    map from key to stored object, plus the reading of an object's body as a
    stream of byte chunks. */
module BlobStore {
  import opened Strings

  type byte = x: int | 0 <= x < 256

  datatype HttpMetadata = HttpMetadata(contentType: Option<string>)

  /** One stored blob. `uploaded` and `etag` are assigned by the store on
      every write. */
  datatype StoredObject = StoredObject(
    data: seq<byte>,
    httpMetadata: HttpMetadata,
    customMetadata: map<string, string>,
    uploaded: int,
    etag: string)

  type Store = map<string, StoredObject>

  /** `bucket.put(key, data, {httpMetadata, customMetadata})`: the key now
      holds exactly the new bytes and metadata, every other key is untouched. */
  function Put(st: Store, key: string, data: seq<byte>, http: HttpMetadata,
               custom: map<string, string>, now: int, etag: string): (st': Store)
    ensures st'.Keys == st.Keys + {key}
    ensures st'[key].data == data && st'[key].httpMetadata == http
    ensures st'[key].customMetadata == custom
    ensures forall k :: k in st && k != key ==> st'[k] == st[k]
  {
    st[key := StoredObject(data, http, custom, now, etag)]
  }

  /** `bucket.delete(key)`: deleting an absent key is not an error. */
  function Delete(st: Store, key: string): (st': Store)
    ensures st'.Keys == st.Keys - {key}
    ensures forall k :: k in st' ==> st'[k] == st[k]
    ensures key !in st ==> st' == st
  {
    st - {key}
  }

  /** The keys a `bucket.list({prefix})` call reports. */
  function KeysWithPrefix(st: Store, prefix: string): (ks: set<string>)
    ensures forall k :: k in ks <==> k in st && StartsWith(k, prefix)
  {
    set k | k in st && StartsWith(k, prefix)
  }

  /** The bytes of a body read chunk by chunk, in order. */
  function Flatten(chunks: seq<seq<byte>>): seq<byte> {
    if |chunks| == 0 then [] else Flatten(chunks[..|chunks| - 1]) + chunks[|chunks| - 1]
  }

  /** `chunks.reduce((acc, chunk) => acc + chunk.length, 0)`. */
  function TotalLength(chunks: seq<seq<byte>>): nat {
    if |chunks| == 0 then 0 else TotalLength(chunks[..|chunks| - 1]) + |chunks[|chunks| - 1]|
  }

  lemma {:induction false} FlattenLength(chunks: seq<seq<byte>>)
    ensures |Flatten(chunks)| == TotalLength(chunks)
  {
    if |chunks| > 0 {
      FlattenLength(chunks[..|chunks| - 1]);
    }
  }

  /** The rename copy step: a buffer of the summed chunk lengths is
      allocated, then every chunk is written at the running offset. */
  method CopyChunks(chunks: seq<seq<byte>>) returns (content: seq<byte>)
    ensures |content| == TotalLength(chunks)
    ensures content == Flatten(chunks)
  {
    var total := 0;
    var n := 0;
    while n < |chunks|
      invariant 0 <= n <= |chunks|
      invariant total == TotalLength(chunks[..n])
    {
      assert chunks[..n + 1][..n] == chunks[..n];
      total := total + |chunks[n]|;
      n := n + 1;
    }
    assert chunks[..|chunks|] == chunks;
    var buffer := new byte[total];
    var offset := 0;
    var i := 0;
    FlattenLength(chunks);
    while i < |chunks|
      invariant 0 <= i <= |chunks|
      invariant offset == TotalLength(chunks[..i]) <= total
      invariant buffer[..offset] == Flatten(chunks[..i])
    {
      var chunk := chunks[i];
      FlattenPrefixSplit(chunks, i);
      WriteAt(buffer, offset, chunk);
      assert buffer[..offset + |chunk|] == buffer[..offset] + buffer[offset..offset + |chunk|];
      assert chunks[..i + 1][..i] == chunks[..i];
      offset := offset + |chunk|;
      i := i + 1;
    }
    assert chunks[..|chunks|] == chunks;
    content := buffer[..];
  }

  /** `result.set(chunk, offset)`: the chunk's bytes land at the offset and
      nothing before it changes. */
  method WriteAt(buffer: array<byte>, offset: nat, chunk: seq<byte>)
    requires offset + |chunk| <= buffer.Length
    modifies buffer
    ensures buffer[..offset] == old(buffer[..offset])
    ensures buffer[offset..offset + |chunk|] == chunk
  {
    var j := 0;
    while j < |chunk|
      invariant 0 <= j <= |chunk|
      invariant buffer[..offset] == old(buffer[..offset])
      invariant buffer[offset..offset + j] == chunk[..j]
    {
      buffer[offset + j] := chunk[j];
      j := j + 1;
    }
  }

  /** The prefix of the flattened stream up to chunk `i` plus chunk `i` still
      fits inside the whole stream. */
  lemma {:induction false} FlattenPrefixSplit(chunks: seq<seq<byte>>, i: nat)
    requires i < |chunks|
    ensures TotalLength(chunks[..i]) + |chunks[i]| <= TotalLength(chunks)
    ensures Flatten(chunks[..i + 1]) == Flatten(chunks[..i]) + chunks[i]
  {
    assert chunks[..i + 1][..i] == chunks[..i];
    TotalLengthMonotone(chunks, i + 1);
  }

  lemma {:induction false} TotalLengthMonotone(chunks: seq<seq<byte>>, n: nat)
    requires n <= |chunks|
    ensures TotalLength(chunks[..n]) <= TotalLength(chunks)
    decreases |chunks| - n
  {
    if n < |chunks| {
      assert chunks[..n + 1][..n] == chunks[..n];
      TotalLengthMonotone(chunks, n + 1);
    } else {
      assert chunks[..n] == chunks;
    }
  }
}

=== FILE: byte_converter.dfy ===
/** The byte converter: six units, one shared quantity in bits. Editing a
    unit's field stores that quantity; every other field shows it divided by
    its own multiplier, while the edited field keeps the text as typed.
    Arithmetic is exact here (reals), where the page uses doubles. */
module ByteConverter {
  import opened Strings

  datatype Unit = Bit | Byte | KB | MB | GB | TB

  /** Bits per unit, as in `unitInfo`. */
  function Multiplier(u: Unit): (m: nat)
    ensures m >= 1
  {
    match u
    case Bit => 1
    case Byte => 8
    case KB => 8 * 1024
    case MB => 8 * 1024 * 1024
    case GB => 8 * 1024 * 1024 * 1024
    case TB => 8 * 1024 * 1024 * 1024 * 1024
  }

  /** The unit one step smaller, where there is one. */
  function Smaller(u: Unit): Option<Unit> {
    match u
    case Bit => None
    case Byte => Some(Bit)
    case KB => Some(Byte)
    case MB => Some(KB)
    case GB => Some(MB)
    case TB => Some(GB)
  }

  /** A byte is eight bits and every larger unit is 1024 of the one below. */
  lemma MultiplierChain(u: Unit)
    ensures Smaller(u).None? ==> Multiplier(u) == 1
    ensures u == Byte ==> Multiplier(u) == 8 * Multiplier(Bit)
    ensures Smaller(u).Some? && u != Byte ==> Multiplier(u) == 1024 * Multiplier(Smaller(u).value)
  {
  }

  /** The converter's state: the quantity in bits (`null` when cleared), the
      unit last typed into, and the text typed there. */
  datatype Converter = Converter(baseBits: Option<real>, lastEdited: Option<Unit>, input: string)

  const Initial := Converter(None, None, "")

  /** `handleInputChange`: `parse` is `parseFloat`, `None` standing for NaN. */
  function HandleInputChange(c: Converter, u: Unit, value: string, parse: string -> Option<real>): (r: Converter)
    ensures r.lastEdited == Some(u) && r.input == value
    ensures IsBlank(value) ==> r.baseBits.None?
    ensures !IsBlank(value) && parse(value).None? ==> r.baseBits == c.baseBits
    ensures !IsBlank(value) && parse(value).Some? ==>
              r.baseBits.Some? && r.baseBits.value / Multiplier(u) as real == parse(value).value
  {
    if IsBlank(value) then Converter(None, Some(u), value)
    else match parse(value)
      case None => Converter(c.baseBits, Some(u), value)
      case Some(n) => Converter(Some(n * Multiplier(u) as real), Some(u), value)
  }

  /** What a field shows: the typed text, nothing, or a number (whose
      text `formatNumber` renders is not modelled; `FixedShown` gives the
      number that text denotes). */
  datatype Display = Typed(text: string) | Empty | Number(value: real)

  /** `getDisplayValue`. */
  function DisplayValue(c: Converter, u: Unit): (d: Display)
    ensures c.lastEdited == Some(u) <==> d.Typed?
    ensures d.Empty? <==> c.lastEdited != Some(u) && c.baseBits.None?
    ensures d.Number? ==> d.value * Multiplier(u) as real == c.baseBits.value
  {
    if c.lastEdited == Some(u) then Typed(c.input)
    else match c.baseBits
      case None => Empty
      case Some(bits) => Number(bits / Multiplier(u) as real)
  }

  /** The edited field always shows exactly what was typed. */
  lemma EditedFieldShowsInput(c: Converter, u: Unit, value: string, parse: string -> Option<real>)
    ensures DisplayValue(HandleInputChange(c, u, value, parse), u) == Typed(value)
  {
  }

  /** Typing a number n into unit u shows, in any other unit v, the value
      whose v-multiple is n's u-multiple. */
  lemma ConversionPreservesBits(c: Converter, u: Unit, v: Unit, value: string, parse: string -> Option<real>)
    requires u != v && !IsBlank(value) && parse(value).Some?
    ensures var d := DisplayValue(HandleInputChange(c, u, value, parse), v);
      d.Number? && d.value * Multiplier(v) as real == parse(value).value * Multiplier(u) as real
  {
  }

  /** Clearing a field empties every other field. */
  lemma BlankClearsOthers(c: Converter, u: Unit, v: Unit, value: string, parse: string -> Option<real>)
    requires u != v && IsBlank(value)
    ensures DisplayValue(HandleInputChange(c, u, value, parse), v) == Empty
  {
  }

  /** Text that is not a number leaves the other fields as they were. */
  lemma NonNumericKeepsOthers(c: Converter, u: Unit, v: Unit, value: string, parse: string -> Option<real>)
    requires u != v && c.lastEdited != Some(v) && !IsBlank(value) && parse(value).None?
    ensures DisplayValue(HandleInputChange(c, u, value, parse), v) == DisplayValue(c, v)
  {
  }

  /** Typing the exact quotient a field stands for back into that field
      keeps the quantity: the conversion and its inverse agree. The text the
      page shows is rounded by `formatNumber`, see `RetypingRoundedTextDrifts`. */
  lemma ReenteringShownValueKeepsBits(c: Converter, v: Unit, value: string, parse: string -> Option<real>)
    requires DisplayValue(c, v).Number? && !IsBlank(value)
    requires parse(value) == Some(DisplayValue(c, v).value)
    ensures HandleInputChange(c, v, value, parse).baseBits == c.baseBits
  {
  }

  /** Ten decimal places, as `toFixed(10)` keeps. */
  const FixedScale: real := 10000000000.0

  /** The number `parseFloat(num.toFixed(10))` denotes in the fixed-notation
      range of `formatNumber` (at least 0.0001 and below 10^15): the value
      rounded to ten decimals, half up, so within half a unit of the tenth
      decimal. */
  function FixedShown(x: real): (r: real)
    requires 0.0001 <= x < 1000000000000000.0
    ensures -1.0 / (2.0 * FixedScale) < r - x <= 1.0 / (2.0 * FixedScale)
    ensures r * FixedScale == (r * FixedScale).Floor as real
  {
    ((x * FixedScale + 0.5).Floor as real) / FixedScale
  }

  /** Retyping the text a field shows need not keep the quantity: typing `1`
      in bits makes the KB field stand for 1/8192, shown as `0.0001220703`,
      and typing that text into KB stores 0.9999998976 bits. */
  lemma RetypingRoundedTextDrifts(one: string, shown: string, parse: string -> Option<real>)
    requires !IsBlank(one) && parse(one) == Some(1.0)
    requires !IsBlank(shown) && parse(shown) == Some(FixedShown(1.0 / 8192.0))
    ensures var c := HandleInputChange(Initial, Bit, one, parse);
      && c.baseBits == Some(1.0)
      && DisplayValue(c, KB) == Number(1.0 / 8192.0)
      && FixedShown(1.0 / 8192.0) == 0.0001220703
      && HandleInputChange(c, KB, shown, parse).baseBits == Some(0.9999998976)
  {
  }

  /** One terabyte in bits. */
  const ExampleBits: nat := 8 * 1024 * 1024 * 1024 * 1024

  /** `getExampleValue`: one terabyte in the unit, rounded down. */
  function ExampleValue(u: Unit): (n: nat)
    ensures n * Multiplier(u) <= ExampleBits < (n + 1) * Multiplier(u)
  {
    ExampleBits / Multiplier(u)
  }

  /** Every unit divides a terabyte exactly, from 8796093022208 bits down
      to one terabyte. */
  lemma ExampleValues()
    ensures ExampleValue(Bit) == 8796093022208
    ensures ExampleValue(Byte) == 1099511627776
    ensures ExampleValue(KB) == 1073741824
    ensures ExampleValue(MB) == 1048576
    ensures ExampleValue(GB) == 1024
    ensures ExampleValue(TB) == 1
    ensures forall u :: ExampleValue(u) * Multiplier(u) == ExampleBits
  {
    forall u ensures ExampleValue(u) * Multiplier(u) == ExampleBits {
    }
  }
}

=== FILE: client.dfy ===
/** What the storage browser components share: the endpoint configuration,
    request construction for `callWorkerApi`, the decoding of error replies,
    file-URL construction, the probe-then-fetch preview gate, and the
    newest-first ordering of list replies. Server replies are explicit
    inputs; nothing here performs I/O. */
module Client {
  import opened Strings
  import opened Proxy

  /** `{workerUrl, apiToken}` as read from local storage. */
  datatype Config = Config(workerUrl: string, apiToken: string)

  /** The messages shown when the stored configuration is missing or has
      no worker URL. */
  const NoStoredConfig := "未配置 R2 存储信息，请点击设置按钮进行配置"
  const NoWorkerUrl := "未配置 Worker URL，请在设置中配置 R2 存储信息"

  /** A request the client issues. */
  datatype Call =
    | ApiCall(url: string, authorization: Option<string>, action: string, body: Body)
    | HeadCall(url: string, authorization: Option<string>)
    | GetCall(url: string, authorization: Option<string>)
    | UploadCall(url: string, key: string)
    | DeleteCall(key: string)
    | RenameCall(oldKey: string, newKey: string)

  /** `Bearer ${apiToken}`, attached only for a non-empty token. */
  function AuthHeader(apiToken: string): (h: Option<string>)
    ensures h.Some? <==> apiToken != ""
    ensures h.Some? ==> h.value == "Bearer " + apiToken
  {
    if apiToken == "" then None else Some("Bearer " + apiToken)
  }

  /** The header the client sends is exactly what the worker strips back to
      the token. */
  lemma AuthHeaderRoundTrip(apiToken: string)
    requires apiToken != ""
    ensures ReplaceFirst(AuthHeader(apiToken).value, "Bearer ", "") == apiToken
  {
    var h := "Bearer " + apiToken;
    assert OccursAt(h, "Bearer ", 0);
    assert h[7..] == apiToken;
  }

  /** The request `callWorkerApi(action, body)` sends: a POST to
      `${workerUrl}?action=${action}` with the JSON body (`NoBody` when the
      caller passes none). */
  function ApiRequest(config: Config, action: string, body: Body): (c: Call)
    ensures c.ApiCall? && c.url == config.workerUrl + "?action=" + action && c.body == body
    ensures c.authorization.Some? <==> config.apiToken != ""
  {
    ApiCall(config.workerUrl + "?action=" + action, AuthHeader(config.apiToken), action, body)
  }

  /** The reply to a `callWorkerApi` call: OK with the `files` array (empty
      when the reply has none), or a non-OK reply. */
  datatype ApiReply = ApiOk(files: seq<ListEntry>) | ApiFailed(error: ErrorReply)

  /** What a component operation decided, with the requests it sent. */
  datatype Run<T> = Run(result: T, calls: seq<Call>)

  /** The outcome of an upload through `XMLHttpRequest`: a reply with its
      status and, when the body parses, its JSON object; or a network error. */
  datatype XhrReply = XhrLoaded(status: int, json: Option<map<string, string>>) | XhrNetworkError

  /** The error shown for a failed upload: the body's `error` when present
      and non-empty, `上传失败` otherwise, and a network hint when no reply
      arrived. */
  function UploadErrorMessage(reply: XhrReply): (m: string)
    ensures reply.XhrNetworkError? ==> m == "上传失败，请检查网络连接"
    ensures reply.XhrLoaded? && reply.json.Some? && "error" in reply.json.value && reply.json.value["error"] != ""
            ==> m == reply.json.value["error"]
    ensures reply.XhrLoaded? && (reply.json.None? || "error" !in reply.json.value || reply.json.value["error"] == "")
            ==> m == "上传失败"
  {
    match reply
    case XhrNetworkError => "上传失败，请检查网络连接"
    case XhrLoaded(_, json) =>
      if json.Some? && "error" in json.value && json.value["error"] != "" then json.value["error"] else "上传失败"
  }

  datatype ListResult = ListShown(files: seq<ListEntry>) | ListError(message: string)

  /** The `listFiles` of the Markdown and image browsers: the configuration
      read back from storage must exist and name a worker URL; then one list
      call, and the view keeps exactly the reply's entries that `keep`
      accepts, newest first. */
  function ListFiltered(stored: Option<Config>, noConfig: string, noWorkerUrl: string, body: Body,
                        keep: string -> bool, reply: ApiReply): (r: Run<ListResult>)
    ensures stored.None? ==> r == Run(ListError(noConfig), [])
    ensures stored.Some? && stored.value.workerUrl == "" ==> r == Run(ListError(noWorkerUrl), [])
    ensures stored.Some? && stored.value.workerUrl != "" ==> r.calls == [ApiRequest(stored.value, "list", body)]
    ensures r.result.ListShown? <==> stored.Some? && stored.value.workerUrl != "" && reply.ApiOk?
    ensures r.result.ListShown? ==>
              && NewestFirst(r.result.files)
              && (forall e :: e in r.result.files <==> e in reply.files && keep(e.key))
              && multiset(r.result.files) == multiset(Filter(reply.files, keep))
    ensures stored.Some? && stored.value.workerUrl != "" && reply.ApiFailed? ==>
              r.result == ListError("加载失败: " + ApiErrorMessage(reply.error))
  {
    match stored
    case None => Run(ListError(noConfig), [])
    case Some(config) =>
      if config.workerUrl == "" then Run(ListError(noWorkerUrl), [])
      else
        var call := ApiRequest(config, "list", body);
        match reply
        case ApiOk(files) => Run(ListShown(ListView(files, keep)), [call])
        case ApiFailed(e) => Run(ListError("加载失败: " + ApiErrorMessage(e)), [call])
  }

  /** The calls a component's `listFiles` makes: none unless the stored
      configuration names a worker URL, then one list call. */
  function ListCalls(stored: Option<Config>, body: Body): seq<Call> {
    if stored.Some? && stored.value.workerUrl != "" then [ApiRequest(stored.value, "list", body)] else []
  }

  /** `ListCalls` is what a list run sends, whatever the reply. */
  lemma ListCallsOfRun(stored: Option<Config>, noConfig: string, noWorkerUrl: string, body: Body,
                       keep: string -> bool, reply: ApiReply)
    ensures ListFiltered(stored, noConfig, noWorkerUrl, body, keep, reply).calls == ListCalls(stored, body)
  {
  }

  /** A preview pane: the selected key and what it shows (the loaded text,
      or the object URL of a loaded image). */
  datatype Pane = Pane(selected: Option<string>, shown: string)

  /** An operation's effect on the pane and the error it leaves shown. */
  datatype Effect = Effect(pane: Pane, error: Option<string>)

  /** The `deleteFile` of the Markdown and image browsers: nothing unless
      confirmed; then one delete call; on success the pane is cleared if it
      showed the deleted key, and left alone otherwise. */
  function DeleteSelected(pane: Pane, key: string, confirmed: bool, config: Config, noWorkerUrl: string,
                          reply: ApiReply): (r: Run<Effect>)
    ensures !confirmed ==> r == Run(Effect(pane, None), [])
    ensures confirmed && config.workerUrl == "" ==> r == Run(Effect(pane, Some(noWorkerUrl)), [])
    ensures r.calls != [] <==> confirmed && config.workerUrl != ""
    ensures r.calls != [] ==> r.calls == [ApiRequest(config, "delete", JsonObject(map["key" := key]))]
    ensures r.calls != [] && reply.ApiOk? ==>
              r.result == Effect(if pane.selected == Some(key) then Pane(None, "") else pane, None)
    ensures r.calls != [] && reply.ApiFailed? ==> r.result == Effect(pane, Some(ApiErrorMessage(reply.error)))
  {
    if !confirmed then Run(Effect(pane, None), [])
    else if config.workerUrl == "" then Run(Effect(pane, Some(noWorkerUrl)), [])
    else
      var call := ApiRequest(config, "delete", JsonObject(map["key" := key]));
      match reply
      case ApiOk(_) => Run(Effect(if pane.selected == Some(key) then Pane(None, "") else pane, None), [call])
      case ApiFailed(e) => Run(Effect(pane, Some(ApiErrorMessage(e))), [call])
  }

  /** An XHR upload succeeded exactly when it loaded with status 200. */
  predicate UploadAccepted(reply: XhrReply) {
    reply.XhrLoaded? && reply.status == 200
  }

  /** A non-OK reply of a JSON call: its status, status text, and the body
      as a JSON object when it parses as one. */
  datatype ErrorReply = ErrorReply(status: int, statusText: string, json: Option<map<string, string>>)

  /** The message `callWorkerApi` throws for a non-OK reply: the body's
      `error` when the body parses and carries a non-empty one; the status
      text when the body does not parse; otherwise `操作失败 (status)`. */
  function ApiErrorMessage(r: ErrorReply): (m: string)
    ensures r.json.Some? && "error" in r.json.value && r.json.value["error"] != "" ==> m == r.json.value["error"]
    ensures r.json.None? && r.statusText != "" ==> m == r.statusText
    ensures (r.json.None? && r.statusText == "") || (r.json.Some? && ("error" !in r.json.value || r.json.value["error"] == ""))
            ==> m == "操作失败 (" + IntToString(r.status) + ")"
  {
    var error := match r.json
      case Some(f) => if "error" in f then f["error"] else ""
      case None => r.statusText;
    if error != "" then error else "操作失败 (" + IntToString(r.status) + ")"
  }

  /** `workerUrl.replace(/\/$/, '')`: one trailing slash removed. */
  function BaseUrl(workerUrl: string): (b: string)
    ensures b == workerUrl || b + "/" == workerUrl
    ensures EndsWith(workerUrl, "/") <==> b + "/" == workerUrl
  {
    if EndsWith(workerUrl, "/") then workerUrl[..|workerUrl| - 1] else workerUrl
  }

  /** `${baseUrl}/file/${encodeURIComponent(key)}`. */
  function FileUrl(workerUrl: string, encodeUri: string -> string, key: string): (u: string)
    ensures StartsWith(u, BaseUrl(workerUrl) + "/file/")
    ensures u[|BaseUrl(workerUrl)| + 6..] == encodeUri(key)
  {
    var base := BaseUrl(workerUrl);
    assert (base + "/file/" + encodeUri(key))[..|base| + 6] == base + "/file/";
    base + "/file/" + encodeUri(key)
  }

  /** The URL path the client appends is the one the current worker routes
      to its direct-read branch and decodes back to the key. */
  lemma FileUrlReachesKey(p: Platform, key: string)
    requires p.decodeUri(p.encodeUri(key)) == Some(key)
    ensures var path := "/file/" + p.encodeUri(key);
      StartsWith(path, "/file/") && p.decodeUri(path[6..]) == Some(key)
  {
    var path := "/file/" + p.encodeUri(key);
    assert path[..6] == "/file/";
    assert path[6..] == p.encodeUri(key);
  }

  /** `${workerUrl}?action=upload&authorization=${encodeURIComponent(token)}`:
      uploads carry the token as a query parameter, never as a header. */
  function UploadUrl(config: Config, encodeUri: string -> string): (u: string)
    ensures StartsWith(u, UploadPrefix(config))
    ensures u[|UploadPrefix(config)|..] == encodeUri(config.apiToken)
  {
    var prefix := UploadPrefix(config);
    assert (prefix + encodeUri(config.apiToken))[..|prefix|] == prefix;
    prefix + encodeUri(config.apiToken)
  }

  function UploadPrefix(config: Config): string {
    config.workerUrl + "?action=upload&authorization="
  }

  /** The upload as the proxy sees it: the `authorization` query value
      decodes back to the stored token, and since an XHR upload carries no
      `Authorization` header, the gate passes exactly when that token is
      non-empty and the configured one, or no token is configured. */
  lemma UploadTokenReachesGate(config: Config, p: Platform, env: Env, path: string, body: Body)
    requires p.decodeUri(p.encodeUri(config.apiToken)) == Some(config.apiToken)
    ensures var u := UploadUrl(config, p.encodeUri);
      var query := p.decodeUri(u[|UploadPrefix(config)|..]);
      var req := Request(Post, path, Some("upload"), query, None, body);
      && query == Some(config.apiToken)
      && (config.apiToken != "" ==> GateToken(req) == Some(config.apiToken))
      && (Denied(env, GateToken(req)) <==>
            TokenConfigured(env) && (config.apiToken == "" || env.apiToken != Some(config.apiToken)))
  {
  }

  /** The error a failed direct read raises: dedicated messages for 401 and
      404, otherwise `${verb}失败 (status)`. */
  function ReadErrorMessage(status: int, verb: string): (m: string)
    ensures status == 401 ==> m == "未授权，请检查 API Token 配置"
    ensures status == 404 ==> m == "文件不存在"
    ensures status != 401 && status != 404 ==> m == verb + "失败 (" + IntToString(status) + ")"
  {
    if status == 401 then "未授权，请检查 API Token 配置"
    else if status == 404 then "文件不存在"
    else verb + "失败 (" + IntToString(status) + ")"
  }

  /** The three messages are pairwise distinct for the verbs the components
      use. */
  lemma ReadErrorsDistinct(verb: string, status: int)
    requires status != 401 && status != 404
    ensures ReadErrorMessage(401, verb) != ReadErrorMessage(404, verb)
    ensures ReadErrorMessage(status, verb) != ReadErrorMessage(401, verb)
    ensures ReadErrorMessage(status, verb) != ReadErrorMessage(404, verb)
  {
    var unauthorized := ReadErrorMessage(401, verb);
    var missing := ReadErrorMessage(404, verb);
    var other := ReadErrorMessage(status, verb);
    LastCharsDiffer(unauthorized, missing);
    EndsInParenthesis(verb, "失败 (" + IntToString(status) + ")");
    LastCharsDiffer(other, unauthorized);
    LastCharsDiffer(other, missing);
  }

  lemma LastCharsDiffer(a: string, b: string)
    requires |a| > 0 && |b| > 0 && a[|a| - 1] != b[|b| - 1]
    ensures a != b
  {
  }

  lemma EndsInParenthesis(a: string, b: string)
    requires |b| > 0 && b[|b| - 1] == ')'
    ensures (a + b)[|a + b| - 1] == ')'
  {
  }

  predicate IsOk(status: int) {
    200 <= status < 300
  }

  /** How a download ended: saved under a name, or an error message. */
  datatype Download = Saved(name: string) | DownloadError(message: string)

  /** The `downloadFile` of the Markdown and image browsers: one
      authenticated GET of the file URL, saved under the key itself. */
  function DownloadAsKey(config: Config, noWorkerUrl: string, encodeUri: string -> string, key: string,
                         status: int): (r: Run<Download>)
    ensures config.workerUrl == "" ==> r == Run(DownloadError(noWorkerUrl), [])
    ensures config.workerUrl != "" ==>
              r.calls == [GetCall(FileUrl(config.workerUrl, encodeUri, key), AuthHeader(config.apiToken))]
    ensures config.workerUrl != "" ==>
              (r.result == Saved(key) <==> IsOk(status))
              && (!IsOk(status) ==> r.result == DownloadError(ReadErrorMessage(status, "下载")))
  {
    if config.workerUrl == "" then Run(DownloadError(noWorkerUrl), [])
    else
      var call := GetCall(FileUrl(config.workerUrl, encodeUri, key), AuthHeader(config.apiToken));
      if IsOk(status) then Run(Saved(key), [call])
      else Run(DownloadError(ReadErrorMessage(status, "下载")), [call])
  }

  // ---------------------------------------------------------------------
  // Probe-then-fetch preview gate
  // ---------------------------------------------------------------------

  /** The `content-length` of a HEAD reply: absent or empty (counted as 0),
      not a number (`parseInt` gives NaN, which compares false), or a
      parsed integer. */
  datatype ContentLength = Absent | NotANumber | Bytes(n: int)

  datatype ProbeReply = ProbeReply(status: int, contentLength: ContentLength)
  datatype ReadReply = ReadReply(status: int, text: string)

  datatype Failure = Message(text: string) | TooLarge(size: int)

  datatype Fetched = Fetched(result: Result, calls: seq<Call>)
  datatype Result = Loaded(text: string) | Failed(failure: Failure)

  /** `fileSize > maxSize` where a missing length is 0 and NaN never exceeds. */
  predicate ExceedsLimit(cl: ContentLength, limit: int) {
    cl.Bytes? && cl.n > limit
  }

  /** HEAD first; a non-OK probe or an over-limit size fails before the GET
      is sent; otherwise the GET's reply decides. */
  function ProbeThenFetch(url: string, auth: Option<string>, limit: int,
                          head: ProbeReply, get: ReadReply, verb: string): (f: Fetched)
    ensures |f.calls| >= 1 && f.calls[0] == HeadCall(url, auth)
    ensures (|f.calls| == 2) <==> IsOk(head.status) && !ExceedsLimit(head.contentLength, limit)
    ensures |f.calls| == 2 ==> f.calls[1] == GetCall(url, auth)
    ensures !IsOk(head.status) ==> f.result == Failed(Message("无法获取文件信息"))
    ensures IsOk(head.status) && ExceedsLimit(head.contentLength, limit) ==>
              f.result == Failed(TooLarge(head.contentLength.n))
    ensures f.result.Loaded? <==>
              IsOk(head.status) && !ExceedsLimit(head.contentLength, limit) && IsOk(get.status)
    ensures f.result.Loaded? ==> f.result.text == get.text
  {
    if !IsOk(head.status) then Fetched(Failed(Message("无法获取文件信息")), [HeadCall(url, auth)])
    else if ExceedsLimit(head.contentLength, limit) then
      Fetched(Failed(TooLarge(head.contentLength.n)), [HeadCall(url, auth)])
    else if !IsOk(get.status) then
      Fetched(Failed(Message(ReadErrorMessage(get.status, verb))), [HeadCall(url, auth), GetCall(url, auth)])
    else Fetched(Loaded(get.text), [HeadCall(url, auth), GetCall(url, auth)])
  }

  const MiB := 1024 * 1024

  // ---------------------------------------------------------------------
  // Newest-first ordering of list replies
  // ---------------------------------------------------------------------

  /** The comparator `new Date(b.LastModified) - new Date(a.LastModified)`
      holds throughout. */
  predicate NewestFirst(xs: seq<ListEntry>) {
    forall i, j :: 0 <= i < j < |xs| ==> xs[i].lastModified >= xs[j].lastModified
  }

  /** Insert after every entry at least as new, so equal timestamps keep
      their reply order (`SortIsStable`). */
  function InsertByDate(x: ListEntry, xs: seq<ListEntry>): (r: seq<ListEntry>)
    requires NewestFirst(xs)
    ensures NewestFirst(r)
    ensures multiset(r) == multiset(xs) + multiset{x}
    ensures |r| == |xs| + 1
    ensures forall k :: 0 <= k < |r| ==> r[k] == x || r[k] in xs
  {
    if |xs| == 0 then [x]
    else if xs[0].lastModified >= x.lastModified then
      var rest := InsertByDate(x, xs[1..]);
      NoNewerThanHead(x, xs, rest);
      KeepHead(x, xs, rest);
      [xs[0]] + rest
    else [x] + xs
  }

  /** Putting the head back in front of the insertion into the tail. */
  lemma KeepHead(x: ListEntry, xs: seq<ListEntry>, rest: seq<ListEntry>)
    requires |xs| > 0 && NewestFirst(rest)
    requires multiset(rest) == multiset(xs[1..]) + multiset{x}
    requires forall k :: 0 <= k < |rest| ==> rest[k] == x || rest[k] in xs[1..]
    requires forall k :: 0 <= k < |rest| ==> rest[k].lastModified <= xs[0].lastModified
    ensures NewestFirst([xs[0]] + rest)
    ensures multiset([xs[0]] + rest) == multiset(xs) + multiset{x}
    ensures forall k :: 0 <= k < |rest| + 1 ==> ([xs[0]] + rest)[k] == x || ([xs[0]] + rest)[k] in xs
  {
    assert xs == [xs[0]] + xs[1..];
    var r := [xs[0]] + rest;
    forall k | 1 <= k < |r| ensures r[k] == x || r[k] in xs {
      assert r[k] == rest[k - 1];
    }
  }

  /** Whatever is inserted behind the head is no newer than the head. */
  lemma NoNewerThanHead(x: ListEntry, xs: seq<ListEntry>, rest: seq<ListEntry>)
    requires NewestFirst(xs) && |xs| > 0 && xs[0].lastModified >= x.lastModified
    requires forall k :: 0 <= k < |rest| ==> rest[k] == x || rest[k] in xs[1..]
    ensures forall k :: 0 <= k < |rest| ==> rest[k].lastModified <= xs[0].lastModified
  {
    forall k | 0 <= k < |rest| ensures rest[k].lastModified <= xs[0].lastModified {
      if rest[k] != x {
        var m :| 0 <= m < |xs[1..]| && xs[1..][m] == rest[k];
        assert xs[m + 1] == rest[k];
      }
    }
  }

  function SortNewestFirst(xs: seq<ListEntry>): (r: seq<ListEntry>)
    ensures NewestFirst(r)
    ensures multiset(r) == multiset(xs)
  {
    if |xs| == 0 then []
    else
      assert xs == xs[..|xs| - 1] + [xs[|xs| - 1]];
      InsertByDate(xs[|xs| - 1], SortNewestFirst(xs[..|xs| - 1]))
  }

  /** The entries stamped with date `d`, in order. */
  function WithDate(xs: seq<ListEntry>, d: int): seq<ListEntry> {
    if |xs| == 0 then []
    else (if xs[0].lastModified == d then [xs[0]] else []) + WithDate(xs[1..], d)
  }

  lemma WithDateCons(h: ListEntry, t: seq<ListEntry>, d: int)
    ensures WithDate([h] + t, d) == (if h.lastModified == d then [h] else []) + WithDate(t, d)
  {
    assert ([h] + t)[1..] == t;
  }

  /** No entry of a date newer than the whole list. */
  lemma {:induction false} WithNewerDate(xs: seq<ListEntry>, d: int)
    requires forall k :: 0 <= k < |xs| ==> xs[k].lastModified < d
    ensures WithDate(xs, d) == []
  {
    if |xs| > 0 {
      WithNewerDate(xs[1..], d);
    }
  }

  lemma {:induction false} WithDateAppend(a: seq<ListEntry>, b: seq<ListEntry>, d: int)
    ensures WithDate(a + b, d) == WithDate(a, d) + WithDate(b, d)
  {
    if |a| > 0 {
      assert a + b == [a[0]] + (a[1..] + b);
      WithDateCons(a[0], a[1..] + b, d);
      WithDateAppend(a[1..], b, d);
      assert a == [a[0]] + a[1..];
      WithDateCons(a[0], a[1..], d);
    } else {
      assert a + b == b;
    }
  }

  /** Inserting puts the new entry behind every older entry of its date. */
  lemma {:induction false} InsertKeepsTies(x: ListEntry, xs: seq<ListEntry>, d: int)
    requires NewestFirst(xs)
    ensures WithDate(InsertByDate(x, xs), d) == WithDate(xs, d) + (if x.lastModified == d then [x] else [])
  {
    if |xs| == 0 {
      WithDateCons(x, [], d);
    } else if xs[0].lastModified >= x.lastModified {
      InsertKeepsTies(x, xs[1..], d);
      InsertBehindHead(x, xs, d);
    } else {
      InsertInFront(x, xs, d);
    }
  }

  /** The step of `InsertKeepsTies` where the entry goes behind the head. */
  lemma InsertBehindHead(x: ListEntry, xs: seq<ListEntry>, d: int)
    requires NewestFirst(xs) && |xs| > 0 && xs[0].lastModified >= x.lastModified
    requires WithDate(InsertByDate(x, xs[1..]), d) == WithDate(xs[1..], d) + (if x.lastModified == d then [x] else [])
    ensures WithDate(InsertByDate(x, xs), d) == WithDate(xs, d) + (if x.lastModified == d then [x] else [])
  {
    var rest := InsertByDate(x, xs[1..]);
    assert InsertByDate(x, xs) == [xs[0]] + rest;
    SplitFirst(xs);
    TiesBehindHead(xs[0], xs[1..], rest, if x.lastModified == d then [x] else [], d);
  }

  /** The step of `InsertKeepsTies` where the entry goes first. */
  lemma InsertInFront(x: ListEntry, xs: seq<ListEntry>, d: int)
    requires NewestFirst(xs) && |xs| > 0 && xs[0].lastModified < x.lastModified
    ensures WithDate(InsertByDate(x, xs), d) == WithDate(xs, d) + (if x.lastModified == d then [x] else [])
  {
    assert InsertByDate(x, xs) == [x] + xs;
    TiesInFront(x, xs, d);
  }

  /** A common head does not disturb the order of the entries of one date. */
  lemma TiesBehindHead(h: ListEntry, t: seq<ListEntry>, rest: seq<ListEntry>, tail: seq<ListEntry>, d: int)
    requires WithDate(rest, d) == WithDate(t, d) + tail
    ensures WithDate([h] + rest, d) == WithDate([h] + t, d) + tail
  {
    WithDateCons(h, rest, d);
    WithDateCons(h, t, d);
    AppendAssoc(if h.lastModified == d then [h] else [], WithDate(t, d), tail);
  }

  /** An entry newer than all of a sorted list is the last of its date. */
  lemma TiesInFront(x: ListEntry, xs: seq<ListEntry>, d: int)
    requires NewestFirst(xs) && |xs| > 0 && xs[0].lastModified < x.lastModified
    ensures WithDate([x] + xs, d) == WithDate(xs, d) + (if x.lastModified == d then [x] else [])
  {
    WithDateCons(x, xs, d);
    if x.lastModified == d {
      assert forall k :: 0 <= k < |xs| ==> xs[k].lastModified < d by {
        forall k | 0 <= k < |xs| ensures xs[k].lastModified < d {
          if k > 0 { assert xs[0].lastModified >= xs[k].lastModified; }
        }
      }
      WithNewerDate(xs, d);
      EmptyFront([x], WithDate(xs, d));
    } else {
      EmptyFront(WithDate(xs, d), []);
    }
  }

  lemma AppendAssoc<T>(a: seq<T>, b: seq<T>, c: seq<T>)
    ensures a + (b + c) == (a + b) + c
  {
  }

  lemma EmptyFront<T>(a: seq<T>, b: seq<T>)
    ensures (b == [] ==> a + b == a && b + a == a)
  {
  }

  lemma SplitFirst<T>(s: seq<T>)
    requires |s| > 0
    ensures s == [s[0]] + s[1..]
  {
  }

  lemma SplitLast<T>(s: seq<T>)
    requires |s| > 0
    ensures s == s[..|s| - 1] + [s[|s| - 1]]
  {
  }

  /** The sort is stable: entries of equal date keep their relative order. */
  lemma {:induction false} SortIsStable(xs: seq<ListEntry>, d: int)
    ensures WithDate(SortNewestFirst(xs), d) == WithDate(xs, d)
  {
    if |xs| > 0 {
      var init, last := xs[..|xs| - 1], xs[|xs| - 1];
      var sorted := SortNewestFirst(init);
      assert SortNewestFirst(xs) == InsertByDate(last, sorted);
      SortIsStable(init, d);
      InsertKeepsTies(last, sorted, d);
      SplitLast(xs);
      WithDateAppend(init, [last], d);
      WithDateCons(last, [], d);
      assert [last] + [] == [last];
    }
  }

  /** `files.filter(keep)`. */
  function Filter(xs: seq<ListEntry>, keep: string -> bool): (r: seq<ListEntry>)
    ensures forall e :: e in r ==> e in xs && keep(e.key)
    ensures forall i :: 0 <= i < |xs| && keep(xs[i].key) ==> xs[i] in r
    ensures |r| <= |xs|
  {
    if |xs| == 0 then []
    else if keep(xs[0].key) then [xs[0]] + Filter(xs[1..], keep)
    else Filter(xs[1..], keep)
  }

  /** A component's list view: filter, then newest first. It holds exactly
      the kept entries, each as often as in the reply. */
  function ListView(files: seq<ListEntry>, keep: string -> bool): (r: seq<ListEntry>)
    ensures NewestFirst(r)
    ensures forall e :: e in r <==> e in files && keep(e.key)
    ensures multiset(r) == multiset(Filter(files, keep))
    ensures forall d :: WithDate(r, d) == WithDate(Filter(files, keep), d)
  {
    var kept := Filter(files, keep);
    var r := SortNewestFirst(kept);
    forall d ensures WithDate(r, d) == WithDate(kept, d) {
      SortIsStable(kept, d);
    }
    assert forall e :: e in r <==> e in multiset(kept);
    forall e | e in files && keep(e.key) ensures e in r {
      var i :| 0 <= i < |files| && files[i] == e;
      assert e in kept;
    }
    r
  }
}

=== FILE: file_manager.dfy ===
/** The general-purpose storage browser: extension classification by the last
    `.`-separated segment, preview with an image/text split and a 5 MiB
    probe gate, and downloads named after the reply's `Content-Disposition`. */
module FileManager {
  import opened Strings
  import opened BlobStore
  import opened Proxy
  import opened Client
  import Worker

  const TextExtensions: seq<string> := [
    "txt", "json", "js", "ts", "jsx", "tsx", "html", "htm", "css", "scss", "less",
    "md", "markdown", "xml", "yaml", "yml", "toml", "ini", "conf", "config",
    "sh", "bash", "zsh", "fish", "py", "rb", "php", "java", "c", "cpp", "h", "hpp",
    "go", "rs", "swift", "kt", "scala", "groovy", "lua", "r", "sql", "graphql",
    "vue", "svelte", "webc", "astro", "htaccess", "env", "gitignore", "dockerignore"]

  const ImageExtensions: seq<string> :=
    ["png", "jpg", "jpeg", "gif", "webp", "svg", "bmp", "ico", "avif", "tiff", "tif"]

  /** `name.split('.').pop().toLowerCase()`: the text after the last `.`, or
      the whole name when it has none. */
  function Extension(name: string): (ext: string)
    ensures forall j :: 0 <= j < |ext| ==> ext[j] != '.'
    ensures EndsWith(Lower(name), ext)
    ensures LastIndexOf(name, '.') == -1 ==> ext == Lower(name)
  {
    var i := LastIndexOf(name, '.');
    LowerSuffix(name, i + 1);
    Lower(name[i + 1..])
  }

  predicate HasNoDot(s: string) {
    forall j :: 0 <= j < |s| ==> s[j] != '.'
  }

  /** A name without a dot is its own extension, lower-cased. */
  lemma NoDotIsWholeName(name: string)
    requires HasNoDot(name)
    ensures Extension(name) == Lower(name)
  {
  }

  predicate IsTextFile(name: string) {
    Extension(name) in TextExtensions
  }

  predicate IsImageFile(name: string) {
    Extension(name) in ImageExtensions
  }

  /** The preview button is offered exactly for text and image files. */
  predicate ShowsPreview(key: string) {
    IsTextFile(key) || IsImageFile(key)
  }

  /** A key whose lower-cased form ends in `.e`, with no `.` in `e`, has
      extension `e`. */
  lemma ExtensionOfSuffix(key: string, e: string)
    requires HasNoDot(e) && EndsWith(Lower(key), "." + e)
    ensures Extension(key) == e
  {
    var dotted := "." + e;
    var dot := |key| - |dotted|;
    forall j | 1 <= j < |dotted| ensures dotted[j] != '.' {
      assert dotted[j] == e[j - 1];
    }
    LastDotOfLowerSuffix(key, dotted);
    LowerSuffix(key, dot + 1);
    assert Lower(key)[dot + 1..] == Lower(key)[dot..][1..];
  }

  /** For a key ending in `.e` with `e` free of dots, the image and text
      checks and the preview button all decide on `e` alone. */
  lemma ClassifyBySuffix(key: string, e: string)
    requires HasNoDot(e) && EndsWith(Lower(key), "." + e)
    ensures IsImageFile(key) <==> e in ImageExtensions
    ensures IsTextFile(key) <==> e in TextExtensions
    ensures ShowsPreview(key) <==> e in TextExtensions || e in ImageExtensions
  {
    ExtensionOfSuffix(key, e);
  }

  /** A bare `png` counts as an image here, and so does an `.avif` file,
      while the proxy's allow-list accepts neither. */
  lemma WiderThanProxyAllowList()
    ensures IsImageFile("png") && !Worker.IsImageKey("png")
    ensures IsImageFile("a.avif") && !Worker.IsImageKey("a.avif")
  {
    assert Lower("png") == "png";
    assert Extension("png") == "png";
    BarePngNotProxyImage();
    assert Lower("a.avif") == "a.avif";
    ExtensionOfSuffix("a.avif", "avif");
    AvifNotProxyImage();
  }

  lemma BarePngNotProxyImage()
    ensures !Worker.IsImageKey("png")
  {
    assert Lower("png") == "png";
    forall ext | ext in Worker.ImageExtensions ensures !EndsWith("png", ext) {
      assert |ext| >= 4;
    }
  }

  lemma AvifNotProxyImage()
    ensures !Worker.IsImageKey("a.avif")
  {
    assert Lower("a.avif") == "a.avif";
    forall ext | ext in Worker.ImageExtensions ensures !EndsWith("a.avif", ext) {
      assert "a.avif"[6 - |ext|..] != ext;
    }
  }

  /** Every key the proxy serves publicly as an image is an image here too. */
  lemma ProxyImagesAreImages(key: string)
    requires Worker.IsImageKey(key)
    ensures IsImageFile(key)
  {
    var ext :| ext in Worker.ImageExtensions && EndsWith(Lower(key), ext);
    ProxyExtensionShape(ext);
    assert ext == "." + ext[1..];
    ExtensionOfSuffix(key, ext[1..]);
  }

  lemma ProxyExtensionShape(x: string)
    requires x in Worker.ImageExtensions
    ensures |x| > 1 && x[0] == '.' && x[1..] in ImageExtensions && HasNoDot(x[1..])
  {
    var i :| 0 <= i < |Worker.ImageExtensions| && Worker.ImageExtensions[i] == x;
    if i == 0 { assert x[1..] == ImageExtensions[1]; }
    else if i == 1 { assert x[1..] == ImageExtensions[2]; }
    else if i == 2 { assert x[1..] == ImageExtensions[0]; }
    else if i == 3 { assert x[1..] == ImageExtensions[3]; }
    else if i == 4 { assert x[1..] == ImageExtensions[4]; }
    else if i == 5 { assert x[1..] == ImageExtensions[5]; }
    else if i == 6 { assert x[1..] == ImageExtensions[6]; }
    else { assert x[1..] == ImageExtensions[7]; }
  }

  // ---------------------------------------------------------------------
  // Preview
  // ---------------------------------------------------------------------

  datatype ImageSource = DirectUrl(url: string) | FetchedBlob

  datatype Preview =
    | ShowImage(source: ImageSource)
    | ShowText(text: string)
    | PreviewError(failure: Failure)

  /** `previewFileContent(key)`. `imageGet` answers the authenticated image
      fetch; `head` and `get` answer the text probe and read. */
  function PreviewFile(config: Config, encodeUri: string -> string, key: string,
                       imageGet: ReadReply, head: ProbeReply, get: ReadReply): (r: Run<Preview>)
    ensures config.workerUrl == "" ==> r == Run(PreviewError(Message(NoWorkerUrl)), [])
    ensures config.workerUrl != "" && IsImageFile(key) && config.apiToken == "" ==>
              r == Run(ShowImage(DirectUrl(FileUrl(config.workerUrl, encodeUri, key))), [])
    ensures config.workerUrl != "" && IsImageFile(key) && config.apiToken != "" ==>
              && r.calls == [GetCall(FileUrl(config.workerUrl, encodeUri, key), Some("Bearer " + config.apiToken))]
              && (IsOk(imageGet.status) ==> r.result == ShowImage(FetchedBlob))
              && (!IsOk(imageGet.status) ==> r.result == PreviewError(Message(ReadErrorMessage(imageGet.status, "预览"))))
    ensures config.workerUrl != "" && !IsImageFile(key) ==>
              |r.calls| >= 1 && r.calls[0].HeadCall?
              && (ExceedsLimit(head.contentLength, 5 * MiB) ==> |r.calls| == 1 && r.result.PreviewError?)
    ensures config.workerUrl != "" && !IsImageFile(key) ==>
              var f := ProbeThenFetch(FileUrl(config.workerUrl, encodeUri, key), AuthHeader(config.apiToken),
                                      5 * MiB, head, get, "预览");
              && r.calls == f.calls
              && (f.result.Loaded? ==> r.result == ShowText(f.result.text))
              && (f.result.Failed? ==> r.result == PreviewError(f.result.failure))
  {
    if config.workerUrl == "" then Run(PreviewError(Message(NoWorkerUrl)), [])
    else
      var url := FileUrl(config.workerUrl, encodeUri, key);
      if IsImageFile(key) then
        if config.apiToken != "" then
          var call := GetCall(url, AuthHeader(config.apiToken));
          if IsOk(imageGet.status) then Run(ShowImage(FetchedBlob), [call])
          else Run(PreviewError(Message(ReadErrorMessage(imageGet.status, "预览"))), [call])
        else Run(ShowImage(DirectUrl(url)), [])
      else
        var f := ProbeThenFetch(url, AuthHeader(config.apiToken), 5 * MiB, head, get, "预览");
        match f.result
        case Loaded(text) => Run(ShowText(text), f.calls)
        case Failed(e) => Run(PreviewError(e), f.calls)
  }

  // ---------------------------------------------------------------------
  // Download naming: /filename[^;=\n]*=((['"]).*?\2|[^;\n]*)/
  // ---------------------------------------------------------------------

  predicate IsLineTerminator(c: char) {
    c == '\n' || c == '\r' || c == '\U{2028}' || c == '\U{2029}'
  }

  predicate IsQuote(c: char) {
    c == '\'' || c == '"'
  }

  /** `[^;=\n]*=` from `j`: the index just after the `=`, if the run of other
      characters ends at one. */
  function EqualsFrom(h: string, j: nat): (r: Option<nat>)
    requires j <= |h|
    ensures r.Some? ==> j < r.value <= |h| && h[r.value - 1] == '='
    decreases |h| - j
  {
    if j == |h| then None
    else if h[j] == '=' then Some(j + 1)
    else if h[j] == ';' || h[j] == '\n' then None
    else EqualsFrom(h, j + 1)
  }

  /** The leftmost position where `filename[^;=\n]*=` matches, giving the
      index where the captured value starts. */
  function MatchFrom(h: string, i: nat): (r: Option<nat>)
    requires i <= |h|
    ensures r.Some? ==> r.value <= |h|
    decreases |h| - i
  {
    if i + 8 > |h| then None
    else if OccursAt(h, "filename", i) && EqualsFrom(h, i + 8).Some? then EqualsFrom(h, i + 8)
    else MatchFrom(h, i + 1)
  }

  /** `.*?\2`: the first closing quote `q` from `m`, before any line end. */
  function CloseQuote(h: string, q: char, m: nat): (r: Option<nat>)
    requires m <= |h|
    ensures r.Some? ==> m <= r.value < |h| && h[r.value] == q
    decreases |h| - m
  {
    if m == |h| then None
    else if h[m] == q then Some(m)
    else if IsLineTerminator(h[m]) then None
    else CloseQuote(h, q, m + 1)
  }

  /** `[^;\n]*`: the end of the greedy run from `k`. */
  function RunEnd(h: string, k: nat): (r: nat)
    requires k <= |h|
    ensures k <= r <= |h|
    decreases |h| - k
  {
    if k == |h| || h[k] == ';' || h[k] == '\n' then k else RunEnd(h, k + 1)
  }

  /** Capture group 1: a quoted value with its quotes when it closes,
      otherwise the unquoted run. */
  function Captured(h: string, k: nat): string
    requires k <= |h|
  {
    if k < |h| && IsQuote(h[k]) && CloseQuote(h, h[k], k + 1).Some? then
      h[k..CloseQuote(h, h[k], k + 1).value + 1]
    else h[k..RunEnd(h, k)]
  }

  /** `.replace(/['"]/g, '')`: every other character is kept, as often as
      it occurs; a string without quotes is left as it is. */
  function StripQuotes(s: string): (r: string)
    ensures forall c :: c in r ==> c in s && !IsQuote(c)
    ensures forall c :: !IsQuote(c) ==> multiset(r)[c] == multiset(s)[c]
    ensures (forall i :: 0 <= i < |s| ==> !IsQuote(s[i])) ==> r == s
  {
    if |s| == 0 then ""
    else
      var rest := StripQuotes(s[1..]);
      KeepsNonQuotes(s, rest);
      (if IsQuote(s[0]) then "" else [s[0]]) + rest
  }

  /** One step of `StripQuotes`: the head's fate, then the tail's. */
  lemma KeepsNonQuotes(s: string, rest: string)
    requires |s| > 0
    requires forall c :: c in rest ==> c in s[1..] && !IsQuote(c)
    requires forall c :: !IsQuote(c) ==> multiset(rest)[c] == multiset(s[1..])[c]
    requires (forall i :: 0 <= i < |s[1..]| ==> !IsQuote(s[1..][i])) ==> rest == s[1..]
    ensures var r := (if IsQuote(s[0]) then "" else [s[0]]) + rest;
      && (forall c :: c in r ==> c in s && !IsQuote(c))
      && (forall c :: !IsQuote(c) ==> multiset(r)[c] == multiset(s)[c])
      && ((forall i :: 0 <= i < |s| ==> !IsQuote(s[i])) ==> r == s)
  {
    assert s == [s[0]] + s[1..];
    if forall i :: 0 <= i < |s| ==> !IsQuote(s[i]) {
      assert forall i :: 0 <= i < |s[1..]| ==> !IsQuote(s[1..][i]) by {
        forall i | 0 <= i < |s[1..]| ensures !IsQuote(s[1..][i]) {
          assert s[1..][i] == s[i + 1];
        }
      }
    }
  }

  /** The name `downloadFile` saves under: the captured value without
      quotes, or the key when the header is absent, does not match, or the
      capture is empty. It is never percent-decoded. */
  function DownloadName(disposition: Option<string>, key: string): (name: string)
    ensures disposition.None? ==> name == key
    ensures name == key || forall c :: c in name ==> !IsQuote(c)
  {
    match disposition
    case None => key
    case Some(h) =>
      match MatchFrom(h, 0)
      case None => key
      case Some(k) =>
        var g := Captured(h, k);
        if g == "" then key else StripQuotes(g)
  }

  datatype DownloadReply = DownloadReply(status: int, disposition: Option<string>)

  /** `downloadFile(key)`: one authenticated GET of the file URL. */
  function DownloadFile(config: Config, encodeUri: string -> string, key: string, reply: DownloadReply): (r: Run<Download>)
    ensures config.workerUrl == "" ==> r == Run(DownloadError(NoWorkerUrl), [])
    ensures config.workerUrl != "" ==>
              r.calls == [GetCall(FileUrl(config.workerUrl, encodeUri, key), AuthHeader(config.apiToken))]
    ensures config.workerUrl != "" && !IsOk(reply.status) ==>
              r.result == DownloadError(ReadErrorMessage(reply.status, "下载"))
    ensures config.workerUrl != "" && IsOk(reply.status) ==>
              r.result == Saved(DownloadName(reply.disposition, key))
  {
    if config.workerUrl == "" then Run(DownloadError(NoWorkerUrl), [])
    else
      var call := GetCall(FileUrl(config.workerUrl, encodeUri, key), AuthHeader(config.apiToken));
      if !IsOk(reply.status) then Run(DownloadError(ReadErrorMessage(reply.status, "下载")), [call])
      else Run(Saved(DownloadName(reply.disposition, key)), [call])
  }

  // ---------------------------------------------------------------------
  // Download naming against the proxy's header
  // ---------------------------------------------------------------------

  /** Quotes are removed piece by piece. */
  lemma {:induction false} StripQuotesAppend(a: string, b: string)
    ensures StripQuotes(a + b) == StripQuotes(a) + StripQuotes(b)
  {
    if |a| > 0 {
      var h, t := a[0], a[1..];
      var head: string := if IsQuote(h) then "" else [h];
      SplitFirst(a);
      AppendAssoc([h], t, b);
      StripQuotesCons(h, t + b);
      StripQuotesCons(h, t);
      StripQuotesAppend(t, b);
      AppendAssoc(head, StripQuotes(t), StripQuotes(b));
    } else {
      EmptyFront(b, a);
    }
  }

  lemma StripQuotesCons(h: char, t: string)
    ensures StripQuotes([h] + t) == (if IsQuote(h) then "" else [h]) + StripQuotes(t)
  {
    assert ([h] + t)[1..] == t;
  }

  lemma {:induction false} MatchSkips(h: string, i: nat, j: nat)
    requires i <= j <= |h|
    requires forall m :: i <= m < j ==> h[m] != 'f'
    ensures MatchFrom(h, i) == MatchFrom(h, j)
    decreases j - i
  {
    if i < j {
      if i + 8 <= |h| {
        assert !OccursAt(h, "filename", i) by {
          assert h[i..i + 8][0] == h[i];
        }
      }
      MatchSkips(h, i + 1, j);
      if i + 8 > |h| {
        MatchNoneNearEnd(h, i + 1);
      }
    }
  }

  lemma {:induction false} MatchNoneNearEnd(h: string, i: nat)
    requires i <= |h| && i + 8 > |h|
    ensures MatchFrom(h, i) == None
  {
  }

  lemma {:induction false} CloseQuoteSkips(h: string, q: char, m: nat, e: nat)
    requires m <= e < |h| && h[e] == q
    requires forall j :: m <= j < e ==> h[j] != q && !IsLineTerminator(h[j])
    ensures CloseQuote(h, q, m) == Some(e)
    decreases e - m
  {
    if m < e {
      CloseQuoteSkips(h, q, m + 1, e);
    }
  }

  /** `filename=` at `s` is a match whose value starts after the `=`. */
  lemma MatchAtFilename(h: string, s: nat)
    requires s + 9 <= |h| && h[s..s + 8] == "filename" && h[s + 8] == '='
    ensures MatchFrom(h, s) == Some(s + 9)
  {
    assert OccursAt(h, "filename", s);
  }

  /** A value opening with `"` that closes on the same line is captured
      with both quotes. */
  lemma CapturedQuoted(h: string, k: nat, e: nat)
    requires k < e < |h| && h[k] == '"' && h[e] == '"'
    requires forall j :: k < j < e ==> h[j] != '"' && !IsLineTerminator(h[j])
    ensures Captured(h, k) == h[k..e + 1]
  {
    CloseQuoteSkips(h, '"', k + 1, e);
  }

  /** The naming of a header whose first `f` starts `filename="`, with
      the quoted value closing at `e` on the same line. */
  lemma DownloadNameOfShape(h: string, s: nat, e: nat, key: string)
    requires s + 9 < e < |h|
    requires forall m :: 0 <= m < s ==> h[m] != 'f'
    requires h[s..s + 8] == "filename" && h[s + 8] == '=' && h[s + 9] == '"' && h[e] == '"'
    requires forall j :: s + 9 < j < e ==> h[j] != '"' && !IsLineTerminator(h[j])
    ensures DownloadName(Some(h), key) == StripQuotes(h[s + 9..e + 1])
  {
    MatchSkips(h, 0, s);
    MatchAtFilename(h, s);
    CapturedQuoted(h, s + 9, e);
  }

  /** Where the parts of `<prefix>filename="<v>"` sit. */
  lemma QuotedHeaderLayout(prefix: string, v: string, h: string)
    requires forall m :: 0 <= m < |prefix| ==> prefix[m] != 'f'
    requires forall i :: 0 <= i < |v| ==> v[i] != '"' && !IsLineTerminator(v[i])
    requires h == prefix + "filename=\"" + v + "\""
    ensures var s := |prefix|; var e := s + 10 + |v|;
      && s + 9 < e < |h|
      && (forall m :: 0 <= m < s ==> h[m] != 'f')
      && h[s..s + 8] == "filename" && h[s + 8] == '=' && h[s + 9] == '"' && h[e] == '"'
      && (forall j :: s + 9 < j < e ==> h[j] != '"' && !IsLineTerminator(h[j]))
  {
    var s := |prefix|;
    assert forall m :: 0 <= m < s ==> h[m] == prefix[m];
    forall j | s + 9 < j < s + 10 + |v| ensures h[j] != '"' && !IsLineTerminator(h[j]) {
      assert h[j] == v[j - s - 10];
    }
  }

  /** The captured `"<v>"` loses exactly its two quotes. */
  lemma StripQuotedValue(prefix: string, v: string, h: string, e: nat)
    requires h == prefix + "filename=\"" + v + "\"" && e == |prefix| + 10 + |v|
    ensures StripQuotes(h[|prefix| + 9..e + 1]) == StripQuotes(v)
  {
    QuotedSlice(prefix, v, h);
    StripQuotesAppend("\"" + v, "\"");
    StripQuotesAppend("\"", v);
    StripLoneQuote();
  }

  lemma QuotedSlice(prefix: string, v: string, h: string)
    requires h == prefix + "filename=\"" + v + "\""
    ensures h[|prefix| + 9..|prefix| + 11 + |v|] == "\"" + v + "\""
  {
    var g := h[|prefix| + 9..|prefix| + 11 + |v|];
    forall j | 0 <= j < |g| ensures g[j] == ("\"" + v + "\"")[j] {
      if 0 < j < |g| - 1 { assert g[j] == v[j - 1]; }
    }
  }

  lemma StripLoneQuote()
    ensures StripQuotes("\"") == ""
  {
    assert "\""[1..] == "";
  }

  /** The naming of a header shaped `<prefix>filename="<v>"` whose prefix
      holds no `f`. */
  lemma DownloadNameOfQuoted(prefix: string, v: string, key: string, h: string)
    requires forall m :: 0 <= m < |prefix| ==> prefix[m] != 'f'
    requires forall i :: 0 <= i < |v| ==> v[i] != '"' && !IsLineTerminator(v[i])
    requires h == prefix + "filename=\"" + v + "\""
    ensures DownloadName(Some(h), key) == StripQuotes(v)
  {
    var e := |prefix| + 10 + |v|;
    QuotedHeaderLayout(prefix, v, h);
    DownloadNameOfShape(h, |prefix|, e, key);
    StripQuotedValue(prefix, v, h, e);
  }

  /** The name saved for a file the current proxy serves: its
      `filename="…"` value with quotes removed, so the percent-encoded key
      whenever that has no apostrophe (`encodeURIComponent` leaves `'`
      as it is, and the strip then drops it). */
  lemma DownloadNameOfProxyHeader(image: bool, encoded: string, key: string)
    requires forall i :: 0 <= i < |encoded| ==> encoded[i] != '"' && !IsLineTerminator(encoded[i])
    ensures DownloadName(Some(Worker.Disposition(image, encoded)), key) == StripQuotes(encoded)
    ensures (forall i :: 0 <= i < |encoded| ==> encoded[i] != '\'') ==>
              DownloadName(Some(Worker.Disposition(image, encoded)), key) == encoded
  {
    var h := Worker.Disposition(image, encoded);
    var prefix := DispositionLead(image, encoded);
    DownloadNameOfQuoted(prefix, encoded, key, h);
    if forall i :: 0 <= i < |encoded| ==> encoded[i] != '\'' {
      forall i | 0 <= i < |encoded| ensures !IsQuote(encoded[i]) {}
    }
  }

  /** The proxy's header is `<lead>filename="<encoded>"` with no `f` in
      the lead. */
  lemma DispositionLead(image: bool, encoded: string) returns (prefix: string)
    ensures forall m :: 0 <= m < |prefix| ==> prefix[m] != 'f'
    ensures Worker.Disposition(image, encoded) == prefix + "filename=\"" + encoded + "\""
  {
    prefix := if image then "inline; " else "attachment; ";
  }

  /** The regex does not match a header without `filename…=`, so the key
      itself is used. */
  lemma NoFilenameFallsBackToKey(key: string)
    ensures DownloadName(Some("attachment"), key) == key
    ensures DownloadName(None, key) == key
  {
    assert MatchFrom("attachment", 0) == None;
  }

  /** Cross-origin, the worker does not expose `Content-Disposition`
      (no `Access-Control-Expose-Headers`), so the browser reports no header
      and a successful download is saved under the key. */
  lemma DownloadCrossOrigin(config: Config, encodeUri: string -> string, key: string, status: int)
    requires config.workerUrl != "" && IsOk(status)
    ensures DownloadFile(config, encodeUri, key, DownloadReply(status, None))
            == Run(Saved(key), [GetCall(FileUrl(config.workerUrl, encodeUri, key), AuthHeader(config.apiToken))])
  {
  }

  /** The bearer header the client builds passes the worker's header check. */
  lemma BearerAdmitted(token: string, encodedKey: string)
    requires token != ""
    ensures HeaderToken(Worker.FileRequest(encodedKey, None, AuthHeader(token))) == Some(token)
  {
    AuthHeaderRoundTrip(token);
  }

  /** Against the current worker holding the key, with the client's token
      configured there: the read answers 200 with the stored bytes, and when
      the header is visible (same origin) the download is saved under the
      encoded key with its quotes removed. */
  lemma DownloadServed(config: Config, p: Platform, key: string, env: Env, st: Store)
    requires config.workerUrl != "" && config.apiToken != "" && env.apiToken == Some(config.apiToken)
    requires p.decodeUri(p.encodeUri(key)) == Some(key) && OpGet !in p.failing && key in st
    requires forall i :: 0 <= i < |p.encodeUri(key)| ==> p.encodeUri(key)[i] != '"' && !IsLineTerminator(p.encodeUri(key)[i])
    ensures var o := Worker.Handle(Worker.FileRequest(p.encodeUri(key), None, AuthHeader(config.apiToken)), env, st, p);
      && o.response.status == 200 && o.response.payload == Blob(st[key].data)
      && DownloadFile(config, p.encodeUri, key,
                      DownloadReply(o.response.status, Some(o.response.headers["Content-Disposition"]))).result
         == Saved(StripQuotes(p.encodeUri(key)))
  {
    var enc := p.encodeUri(key);
    BearerAdmitted(config.apiToken, enc);
    Worker.FileRouteLookup(enc, AuthHeader(config.apiToken), env, st, p, key);
    DownloadNameOfProxyHeader(Worker.IsImageKey(key), enc, key);
  }

  /** Against the current worker holding the key, with the client's token
      configured there, the authenticated image preview is answered with the
      stored bytes and shows the fetched image. */
  lemma PreviewImageServed(config: Config, p: Platform, key: string, env: Env, st: Store,
                           head: ProbeReply, get: ReadReply)
    requires config.workerUrl != "" && config.apiToken != "" && env.apiToken == Some(config.apiToken)
    requires IsImageFile(key) && p.decodeUri(p.encodeUri(key)) == Some(key) && OpGet !in p.failing && key in st
    ensures var o := Worker.Handle(Worker.FileRequest(p.encodeUri(key), None, AuthHeader(config.apiToken)), env, st, p);
      && o.response.status == 200 && o.response.payload == Blob(st[key].data)
      && PreviewFile(config, p.encodeUri, key, ReadReply(o.response.status, ""), head, get).result
         == ShowImage(FetchedBlob)
  {
    BearerAdmitted(config.apiToken, p.encodeUri(key));
    Worker.FileRouteLookup(p.encodeUri(key), AuthHeader(config.apiToken), env, st, p, key);
  }

  // ---------------------------------------------------------------------
  // Listing, uploading and deleting
  // ---------------------------------------------------------------------

  /** `listFiles`: one list call without a body; the reply's files are
      shown as they come, unsorted and unfiltered. */
  function ListFiles(config: Config, reply: ApiReply): (r: Run<ListResult>)
    ensures config.workerUrl == "" ==> r == Run(ListError(NoWorkerUrl), [])
    ensures config.workerUrl != "" ==> r.calls == [ApiRequest(config, "list", NoBody)]
    ensures r.result.ListShown? <==> config.workerUrl != "" && reply.ApiOk?
    ensures r.result.ListShown? ==> r.result.files == reply.files
    ensures config.workerUrl != "" && reply.ApiFailed? ==> r.result == ListError(ApiErrorMessage(reply.error))
  {
    if config.workerUrl == "" then Run(ListError(NoWorkerUrl), [])
    else
      var call := ApiRequest(config, "list", NoBody);
      match reply
      case ApiOk(files) => Run(ListShown(files), [call])
      case ApiFailed(e) => Run(ListError(ApiErrorMessage(e)), [call])
  }

  /** What local storage holds under `r2_config` at mount. */
  datatype StoredConfig = NothingStored | Unreadable | StoredJson(config: Config)

  const UnreadableConfig := "配置读取失败，请重新配置"

  /** The mount-time list's error text: the same reading of the reply as
      `callWorkerApi`, with `加载失败 (status)` as the last resort. */
  function MountErrorMessage(e: ErrorReply): (m: string)
    ensures ApiErrorMessage(e) != "操作失败 (" + IntToString(e.status) + ")" ==> m == ApiErrorMessage(e)
    ensures ApiErrorMessage(e) == "操作失败 (" + IntToString(e.status) + ")" && !(e.json.Some? && "error" in e.json.value && e.json.value["error"] != "")
            && !(e.json.None? && e.statusText != "")
            ==> m == "加载失败 (" + IntToString(e.status) + ")"
  {
    match e.json
    case Some(obj) =>
      if "error" in obj && obj["error"] != "" then obj["error"] else "加载失败 (" + IntToString(e.status) + ")"
    case None =>
      if e.statusText != "" then e.statusText else "加载失败 (" + IntToString(e.status) + ")"
  }

  /** The list the page loads when it mounts: the stored configuration must
      parse and name a worker URL; the call sends an empty JSON object. */
  function MountList(stored: StoredConfig, reply: ApiReply): (r: Run<ListResult>)
    ensures stored.NothingStored? ==> r == Run(ListError(NoStoredConfig), [])
    ensures stored.Unreadable? ==> r == Run(ListError(UnreadableConfig), [])
    ensures stored.StoredJson? && stored.config.workerUrl == "" ==> r == Run(ListError(NoWorkerUrl), [])
    ensures r.calls != [] <==> stored.StoredJson? && stored.config.workerUrl != ""
    ensures r.calls != [] ==> r.calls == [ApiRequest(stored.config, "list", JsonObject(map[]))]
    ensures r.result.ListShown? <==> r.calls != [] && reply.ApiOk?
    ensures r.result.ListShown? ==> r.result.files == reply.files
    ensures r.calls != [] && reply.ApiFailed? ==> r.result == ListError(MountErrorMessage(reply.error))
  {
    match stored
    case NothingStored => Run(ListError(NoStoredConfig), [])
    case Unreadable => Run(ListError(UnreadableConfig), [])
    case StoredJson(config) =>
      if config.workerUrl == "" then Run(ListError(NoWorkerUrl), [])
      else
        var call := ApiRequest(config, "list", JsonObject(map[]));
        match reply
        case ApiOk(files) => Run(ListShown(files), [call])
        case ApiFailed(e) => Run(ListError(MountErrorMessage(e)), [call])
  }

  /** The mount-time load and a later refresh show the same files for the
      same reply; only their requests' bodies differ. */
  lemma MountAgreesWithRefresh(config: Config, reply: ApiReply)
    requires config.workerUrl != "" && reply.ApiOk?
    ensures MountList(StoredJson(config), reply).result == ListFiles(config, reply).result
    ensures MountList(StoredJson(config), reply).calls[0].url == ListFiles(config, reply).calls[0].url
    ensures MountList(StoredJson(config), reply).calls[0].body != ListFiles(config, reply).calls[0].body
  {
  }

  /** What became of the chosen file. */
  datatype Sent = NotSent(error: Option<string>) | Accepted | Rejected(message: string)

  /** `uploadToR2`: the file goes up under its own name; on success the
      list is fetched again. */
  function UploadFile(config: Config, encodeUri: string -> string, file: Option<string>, reply: XhrReply)
    : (r: Run<Sent>)
    ensures file.None? ==> r == Run(NotSent(None), [])
    ensures file.Some? && config.workerUrl == "" ==> r == Run(NotSent(Some(NoWorkerUrl)), [])
    ensures file.Some? && config.workerUrl != "" ==>
              && |r.calls| > 0 && r.calls[0] == UploadCall(UploadUrl(config, encodeUri), file.value)
              && (UploadAccepted(reply) <==> r.result.Accepted?)
              && (r.result.Accepted? ==> r.calls == [r.calls[0], ApiRequest(config, "list", NoBody)])
              && (!r.result.Accepted? ==> r == Run(Rejected(UploadErrorMessage(reply)), [r.calls[0]]))
  {
    match file
    case None => Run(NotSent(None), [])
    case Some(name) =>
      if config.workerUrl == "" then Run(NotSent(Some(NoWorkerUrl)), [])
      else
        var up := UploadCall(UploadUrl(config, encodeUri), name);
        if UploadAccepted(reply) then Run(Accepted, [up, ApiRequest(config, "list", NoBody)])
        else Run(Rejected(UploadErrorMessage(reply)), [up])
  }

  /** `deleteFile`: after confirmation, one delete call; success fetches
      the list again, failure shows the reply's message. */
  function DeleteFile(config: Config, key: string, confirmed: bool, reply: ApiReply): (r: Run<Option<string>>)
    ensures !confirmed ==> r == Run(None, [])
    ensures confirmed && config.workerUrl == "" ==> r == Run(Some(NoWorkerUrl), [])
    ensures confirmed && config.workerUrl != "" ==>
              && |r.calls| > 0 && r.calls[0] == ApiRequest(config, "delete", JsonObject(map["key" := key]))
              && (reply.ApiOk? ==> r == Run(None, [r.calls[0], ApiRequest(config, "list", NoBody)]))
              && (reply.ApiFailed? ==> r == Run(Some(ApiErrorMessage(reply.error)), [r.calls[0]]))
  {
    if !confirmed then Run(None, [])
    else if config.workerUrl == "" then Run(Some(NoWorkerUrl), [])
    else
      var del := ApiRequest(config, "delete", JsonObject(map["key" := key]));
      match reply
      case ApiOk(_) => Run(None, [del, ApiRequest(config, "list", NoBody)])
      case ApiFailed(e) => Run(Some(ApiErrorMessage(e)), [del])
  }
}

=== FILE: image_manager.dfy ===
/** The image browser: it lists only image keys, uploads a batch of images
    one after another, reports combined progress, and previews, downloads
    and deletes single images. */
module ImageManager {
  import opened Strings
  import opened Proxy
  import opened Client
  import Worker

  /** The component's own allow-list (the same eight dotted extensions the
      proxy's direct-read route uses). */
  const ImageExtensions: seq<string> := [".jpg", ".jpeg", ".png", ".gif", ".webp", ".svg", ".bmp", ".ico"]

  const NoImageConfig := "未配置图片存储信息，请点击设置按钮进行配置"
  const NoImageWorkerUrl := "未配置 Worker URL，请在设置中配置图片存储信息"
  const PickerFiltered := "部分文件不是图片格式，已自动过滤"
  const OnlyImages := "只能上传图片文件，不支持的文件: "

  /** `fileName.toLowerCase().substring(fileName.lastIndexOf('.'))`, where
      `substring(-1)` is the whole string. */
  function DotExtension(name: string): (ext: string)
    ensures EndsWith(Lower(name), ext)
    ensures LastIndexOf(name, '.') == -1 ==> ext == Lower(name)
    ensures LastIndexOf(name, '.') >= 0 ==> |ext| >= 1 && ext[0] == '.'
  {
    var i := LastIndexOf(name, '.');
    Lower(name)[if i < 0 then 0 else i..]
  }

  predicate IsImageFile(name: string) {
    DotExtension(name) in ImageExtensions
  }

  /** A name without a dot is never an image: its "extension" is the whole
      lower-cased name, which has no dot, while every entry starts with one. */
  lemma DotlessNeverImage(name: string)
    requires forall j :: 0 <= j < |name| ==> name[j] != '.'
    ensures !IsImageFile(name)
  {
    var ext := DotExtension(name);
    assert LastIndexOf(name, '.') == -1;
    assert forall j :: 0 <= j < |ext| ==> ext[j] != '.';
    forall x | x in ImageExtensions ensures ext != x {
      Worker.ImageExtensionShape(x);
      if |ext| > 0 {
        assert ext[0] != x[0];
      }
    }
  }

  /** This classifier and the proxy's `endsWith` test accept the same keys. */
  lemma AgreesWithProxy(key: string)
    ensures IsImageFile(key) <==> Worker.IsImageKey(key)
  {
    SameAllowList();
    if IsImageFile(key) {
      assert DotExtension(key) in Worker.ImageExtensions;
    }
    if Worker.IsImageKey(key) {
      var ext :| ext in Worker.ImageExtensions && EndsWith(Lower(key), ext);
      Worker.ImageExtensionShape(ext);
      DottedSuffixIsExtension(key, ext);
    }
  }

  /** The component's list and the proxy's list are the same list. */
  lemma SameAllowList()
    ensures ImageExtensions == Worker.ImageExtensions
  {
  }

  /** A lower-cased suffix made of `.` and a dot-free tail is the extension. */
  lemma DottedSuffixIsExtension(key: string, ext: string)
    requires EndsWith(Lower(key), ext)
    requires |ext| >= 1 && ext[0] == '.'
    requires forall j :: 1 <= j < |ext| ==> ext[j] != '.'
    ensures DotExtension(key) == ext
  {
    LastDotOfLowerSuffix(key, ext);
  }

  /** `listFiles`: exactly the image keys of the reply, newest first. */
  lemma ListShowsImages(stored: Option<Config>, reply: ApiReply)
    ensures var r := ListFiltered(stored, NoImageConfig, NoImageWorkerUrl, NoBody, IsImageFile, reply);
      && (stored.Some? && stored.value.workerUrl != "" ==> r.calls == [ApiRequest(stored.value, "list", NoBody)])
      && (r.result.ListShown? ==>
            && NewestFirst(r.result.files)
            && forall e :: e in r.result.files <==> e in reply.files && Worker.IsImageKey(e.key))
  {
    forall k: string {
      AgreesWithProxy(k);
    }
  }

  // ---------------------------------------------------------------------
  // Picking and uploading a batch
  // ---------------------------------------------------------------------

  /** The names that pass a test, in order. */
  function KeepNames(names: seq<string>, keep: string -> bool): (r: seq<string>)
    ensures forall x :: x in r <==> x in names && keep(x)
    ensures |r| <= |names|
    ensures |r| == |names| <==> forall k :: 0 <= k < |names| ==> keep(names[k])
    ensures (forall k :: 0 <= k < |names| ==> !keep(names[k])) ==> r == []
  {
    if |names| == 0 then []
    else
      var rest := KeepNames(names[1..], keep);
      assert forall k :: 1 <= k < |names| ==> names[k] == names[1..][k - 1];
      if keep(names[0]) then [names[0]] + rest else rest
  }

  /** The names that pass the classifier, in order. */
  function ImagesOf(names: seq<string>): (r: seq<string>)
    ensures forall x :: x in r <==> x in names && IsImageFile(x)
    ensures |r| <= |names|
    ensures |r| == |names| <==> forall k :: 0 <= k < |names| ==> IsImageFile(names[k])
  {
    KeepNames(names, IsImageFile)
  }

  /** The names that fail the classifier, in order. */
  function NonImagesOf(names: seq<string>): (r: seq<string>)
    ensures forall x :: x in r <==> x in names && !IsImageFile(x)
    ensures (forall k :: 0 <= k < |names| ==> IsImageFile(names[k])) ==> r == []
  {
    KeepNames(names, x => !IsImageFile(x))
  }

  datatype Picked = Picked(selection: seq<string>, warning: Option<string>)

  /** The file input's `onChange`: keep the images, warn when some were
      dropped. */
  function PickImages(names: seq<string>): (r: Picked)
    ensures forall x :: x in r.selection <==> x in names && IsImageFile(x)
    ensures r.warning.Some? <==> exists k :: 0 <= k < |names| && !IsImageFile(names[k])
    ensures r.warning.Some? ==> r.warning.value == PickerFiltered
  {
    var images := ImagesOf(names);
    Picked(images, if |images| != |names| then Some(PickerFiltered) else None)
  }

  /** What the picker selects always passes the upload's batch check. */
  lemma PickedBatchPassesCheck(names: seq<string>)
    ensures NonImagesOf(PickImages(names).selection) == []
  {
    var sel := PickImages(names).selection;
    forall k | 0 <= k < |sel| ensures IsImageFile(sel[k]) {
      assert sel[k] in sel;
    }
  }

  /** How many replies, from the first, accept their upload. */
  function AcceptedPrefix(replies: seq<XhrReply>): (n: nat)
    ensures n <= |replies|
    ensures forall k :: 0 <= k < n ==> UploadAccepted(replies[k])
    ensures n < |replies| ==> !UploadAccepted(replies[n])
  {
    if |replies| == 0 || !UploadAccepted(replies[0]) then 0 else 1 + AcceptedPrefix(replies[1..])
  }

  datatype BatchResult = NothingToUpload | BatchRefused(message: string) | AllUploaded(count: nat) | BatchFailed(message: string)

  /** The result, the uploads sent, and the selection left afterwards. */
  datatype Batch = Batch(result: BatchResult, calls: seq<Call>, selection: seq<string>)

  predicate Sendable(config: Config, names: seq<string>) {
    |names| > 0 && config.workerUrl != "" && NonImagesOf(names) == []
  }

  /** `uploadToR2`: refuse the whole batch when any name is not an image;
      otherwise upload one file at a time (`replies[k]` answers the k-th),
      stopping at the first failure, which keeps the selection. A batch
      that all went through refreshes the list, which reads the
      configuration afresh from `stored`. */
  method UploadBatch(config: Config, stored: Option<Config>, encodeUri: string -> string, names: seq<string>,
                     replies: seq<XhrReply>)
    returns (b: Batch)
    requires |replies| == |names|
    ensures |names| == 0 ==> b == Batch(NothingToUpload, [], names)
    ensures |names| > 0 && config.workerUrl == "" ==> b == Batch(BatchRefused(NoImageWorkerUrl), [], names)
    ensures |names| > 0 && config.workerUrl != "" && NonImagesOf(names) != [] ==>
              b == Batch(BatchRefused(OnlyImages + Join(NonImagesOf(names), ", ")), [], names)
    ensures b.calls != [] <==> Sendable(config, names)
    ensures Sendable(config, names) ==>
              var n := AcceptedPrefix(replies);
              var sent := if n == |names| then n else n + 1;
              && |b.calls| == sent + (if n == |names| then |ListCalls(stored, NoBody)| else 0)
              && (forall k :: 0 <= k < sent ==> b.calls[k] == UploadCall(UploadUrl(config, encodeUri), names[k]))
              && (n == |names| ==> b.result == AllUploaded(|names|) && b.selection == []
                                   && b.calls[sent..] == ListCalls(stored, NoBody))
              && (n < |names| ==> b.result == BatchFailed(UploadErrorMessage(replies[n])) && b.selection == names)
  {
    if |names| == 0 {
      return Batch(NothingToUpload, [], names);
    }
    if config.workerUrl == "" {
      return Batch(BatchRefused(NoImageWorkerUrl), [], names);
    }
    var invalid := NonImagesOf(names);
    if invalid != [] {
      return Batch(BatchRefused(OnlyImages + Join(invalid, ", ")), [], names);
    }
    b := SendInOrder(UploadUrl(config, encodeUri), names, replies);
    if b.result.AllUploaded? {
      b := b.(calls := b.calls + ListCalls(stored, NoBody));
    }
  }

  /** The upload loop: one request per file, in order, until the first
      rejection. */
  method SendInOrder(url: string, names: seq<string>, replies: seq<XhrReply>) returns (b: Batch)
    requires |replies| == |names| && |names| > 0
    ensures var n := AcceptedPrefix(replies);
      && |b.calls| == (if n == |names| then n else n + 1)
      && (forall k :: 0 <= k < |b.calls| ==> b.calls[k] == UploadCall(url, names[k]))
      && (n == |names| ==> b.result == AllUploaded(|names|) && b.selection == [])
      && (n < |names| ==> b.result == BatchFailed(UploadErrorMessage(replies[n])) && b.selection == names)
  {
    var calls: seq<Call> := [];
    var i := 0;
    while i < |names|
      invariant 0 <= i <= |names|
      invariant i <= AcceptedPrefix(replies)
      invariant |calls| == i
      invariant forall k :: 0 <= k < i ==> calls[k] == UploadCall(url, names[k])
    {
      calls := calls + [UploadCall(url, names[i])];
      if !UploadAccepted(replies[i]) {
        return Batch(BatchFailed(UploadErrorMessage(replies[i])), calls, names);
      }
      i := i + 1;
    }
    return Batch(AllUploaded(|names|), calls, []);
  }

  // ---------------------------------------------------------------------
  // Progress
  // ---------------------------------------------------------------------

  /** `Math.round(((i * total + loaded) / (n * total)) * 100)` in exact
      arithmetic; `None` when the division is by zero (NaN or Infinity). */
  function Progress(i: nat, n: nat, loaded: nat, total: nat): (r: Option<int>)
    ensures r.None? <==> n == 0 || total == 0
  {
    var m := n * total;
    if m == 0 then None else Some((200 * (i * total + loaded) + m) / (2 * m))
  }

  lemma MulMonotone(x: int, y: int, b: int)
    requires x <= y && 0 <= b
    ensures x * b <= y * b
  {
    assert y * b - x * b == (y - x) * b;
  }

  lemma MulCancel(x: int, y: int, b: int)
    requires 0 < b && x * b < y * b
    ensures x < y
  {
    if y <= x {
      MulMonotone(y, x, b);
    }
  }

  lemma DivBetween(a: int, b: int, q: int)
    requires b > 0 && q * b <= a < (q + 1) * b
    ensures a / b == q
  {
    var d := a / b;
    assert d * b + a % b == a;
    assert (d + 1) * b == d * b + b;
    MulCancel(q, d + 1, b);
    MulCancel(d, q + 1, b);
  }

  lemma DivMonotone(a: int, c: int, b: int)
    requires b > 0 && 0 <= a <= c
    ensures a / b <= c / b
  {
    var x := a / b;
    var y := c / b;
    assert x * b + a % b == a;
    assert y * b + c % b == c;
    assert (y + 1) * b == y * b + b;
    MulCancel(x, y + 1, b);
  }

  /** For file `i` of `n` with `0 <= loaded <= total`, the percentage stays
      within 0..100. */
  lemma ProgressBounded(i: nat, n: nat, loaded: nat, total: nat)
    requires i < n && 0 < total && loaded <= total
    ensures Progress(i, n, loaded, total).Some?
    ensures 0 <= Progress(i, n, loaded, total).value <= 100
  {
    var m := n * total;
    MulMonotone(i, n - 1, total);
    assert (n - 1) * total + total == m;
    MulMonotone(1, n, total);
    RoundedPercentBounded(i * total + loaded, m);
  }

  /** `round(100 * s / m)` for `0 <= s <= m` lies in 0..100. */
  lemma RoundedPercentBounded(s: int, m: int)
    requires 0 <= s <= m && 0 < m
    ensures 0 <= (200 * s + m) / (2 * m) <= 100
  {
    DivMonotone(200 * s + m, 202 * m - 1, 2 * m);
    DivBetween(202 * m - 1, 2 * m, 100);
  }

  /** Progress never goes backwards while a file uploads, and the end of one
      file is the start of the next. */
  lemma ProgressMonotone(i: nat, n: nat, a: nat, b: nat, total: nat)
    requires i < n && 0 < total && a <= b <= total
    ensures Progress(i, n, a, total).value <= Progress(i, n, b, total).value
    ensures i + 1 < n ==> Progress(i, n, total, total) == Progress(i + 1, n, 0, total)
  {
    var m := n * total;
    MulMonotone(1, n, total);
    DivMonotone(200 * (i * total + a) + m, 200 * (i * total + b) + m, 2 * m);
    assert i * total + total == (i + 1) * total;
  }

  /** The last file's completion shows exactly 100. */
  lemma ProgressEndsAtHundred(n: nat, total: nat)
    requires 0 < n && 0 < total
    ensures Progress(n - 1, n, total, total) == Some(100)
  {
    var m := n * total;
    assert (n - 1) * total + total == m;
    assert 200 * m + m == 201 * m;
    DivBetween(201 * m, 2 * m, 100);
  }

  // ---------------------------------------------------------------------
  // Preview, download and delete
  // ---------------------------------------------------------------------

  /** `loadImagePreview`: select the key, GET the file; an OK reply shows
      its object URL, a failure clears the selection. */
  function LoadImagePreview(pane: Pane, key: string, config: Config, encodeUri: string -> string,
                            status: int, objectUrl: string): (r: Run<Effect>)
    ensures config.workerUrl == "" ==> r == Run(Effect(pane, Some(NoImageWorkerUrl)), [])
    ensures config.workerUrl != "" ==>
              r.calls == [GetCall(FileUrl(config.workerUrl, encodeUri, key), AuthHeader(config.apiToken))]
    ensures config.workerUrl != "" && IsOk(status) ==> r.result == Effect(Pane(Some(key), objectUrl), None)
    ensures config.workerUrl != "" && !IsOk(status) ==>
              r.result == Effect(Pane(None, pane.shown), Some(ReadErrorMessage(status, "加载")))
  {
    if config.workerUrl == "" then Run(Effect(pane, Some(NoImageWorkerUrl)), [])
    else
      var call := GetCall(FileUrl(config.workerUrl, encodeUri, key), AuthHeader(config.apiToken));
      if IsOk(status) then Run(Effect(Pane(Some(key), objectUrl), None), [call])
      else Run(Effect(Pane(None, pane.shown), Some(ReadErrorMessage(status, "加载"))), [call])
  }

  /** Deleting the previewed image clears the preview selection and URL;
      deleting another one leaves the preview alone. */
  lemma DeletingPreviewedClears(pane: Pane, key: string, config: Config, reply: ApiReply)
    requires config.workerUrl != "" && reply.ApiOk?
    ensures var r := DeleteSelected(pane, key, true, config, NoImageWorkerUrl, reply);
      && (pane.selected == Some(key) ==> r.result.pane == Pane(None, ""))
      && (pane.selected != Some(key) ==> r.result.pane == pane)
  {
  }

  /** Preview and download of the same key fetch the same URL, which drops
      one trailing `/` of the worker URL. */
  lemma PreviewAndDownloadShareUrl(pane: Pane, key: string, config: Config, encodeUri: string -> string,
                                   status: int, objectUrl: string)
    requires config.workerUrl != ""
    ensures LoadImagePreview(pane, key, config, encodeUri, status, objectUrl).calls
            == DownloadAsKey(config, NoImageWorkerUrl, encodeUri, key, status).calls
    ensures var c := DownloadAsKey(config, NoImageWorkerUrl, encodeUri, key, status).calls[0];
      EndsWith(config.workerUrl, "/") ==> StartsWith(c.url, config.workerUrl + "file/")
  {
    var base := BaseUrl(config.workerUrl);
    if EndsWith(config.workerUrl, "/") {
      assert base + "/" == config.workerUrl;
      assert base + "/file/" == config.workerUrl + "file/";
    }
  }
}

=== FILE: markdown_viewer.dfy ===
/** The Markdown browser: it lists `.md`/`.markdown` files under the
    `markdown_file/` folder, uploads and renames inside that folder, and
    loads a file's text behind a 2 MiB probe gate. */
module MarkdownViewer {
  import opened Strings
  import opened BlobStore
  import opened Proxy
  import opened Client

  const Folder := "markdown_file/"
  const OnlyMarkdownUploads := "只能上传 Markdown 文件（.md 或 .markdown）"
  const NameMustBeMarkdown := "文件名必须以 .md 或 .markdown 结尾"
  const EmptyName := "新文件名不能为空"
  const TooLargeToPreview := "文件过大，超过预览限制 (2MB)，请下载后查看"

  /** A case-insensitive `.md` or `.markdown` ending. */
  predicate IsMarkdownName(name: string) {
    EndsWith(Lower(name), ".md") || EndsWith(Lower(name), ".markdown")
  }

  /** The list filter: in the folder (with either separator, ignoring case)
      and a Markdown name. */
  predicate Listed(key: string) {
    (StartsWith(Lower(key), "markdown_file/") || StartsWith(Lower(key), "markdown_file\\"))
    && IsMarkdownName(key)
  }

  const ListBody: Body := JsonObject(map["prefix" := Folder])

  /** `listFiles`: the stored configuration is checked, the list call asks
      for the folder prefix, and the view keeps exactly the listed Markdown
      files, newest first. */
  lemma ListShowsFolderMarkdown(stored: Option<Config>, reply: ApiReply)
    ensures var r := ListFiltered(stored, NoStoredConfig, NoWorkerUrl, ListBody, Listed, reply);
      && (stored.Some? && stored.value.workerUrl != "" ==>
            r.calls == [ApiRequest(stored.value, "list", JsonObject(map["prefix" := "markdown_file/"]))])
      && (r.result.ListShown? ==>
            forall e :: e in r.result.files <==>
              && e in reply.files
              && (StartsWith(Lower(e.key), "markdown_file/") || StartsWith(Lower(e.key), "markdown_file\\"))
              && (EndsWith(Lower(e.key), ".md") || EndsWith(Lower(e.key), ".markdown")))
  {
  }

  // ---------------------------------------------------------------------
  // Upload
  // ---------------------------------------------------------------------

  /** The file input's `onChange`: a non-Markdown pick is refused and the
      previous selection kept; anything else (including no file) replaces it. */
  datatype Pick = Pick(selection: Option<string>, error: Option<string>)

  function PickFile(current: Option<string>, picked: Option<string>): (r: Pick)
    ensures picked.Some? && !IsMarkdownName(picked.value) ==> r == Pick(current, Some(OnlyMarkdownUploads))
    ensures r.error.None? <==> picked.None? || IsMarkdownName(picked.value)
    ensures r.error.None? ==> r.selection == picked
  {
    if picked.Some? && !IsMarkdownName(picked.value) then Pick(current, Some(OnlyMarkdownUploads))
    else Pick(picked, None)
  }

  datatype UploadResult = NoFile | Refused(message: string) | Uploaded | UploadFailed(message: string)

  /** `uploadToR2`: configuration, then the name check, then one upload of
      the file under `markdown_file/<name>`; an accepted upload refreshes the
      list, which reads the configuration afresh from `stored`. */
  function UploadToR2(config: Config, stored: Option<Config>, encodeUri: string -> string, file: Option<string>,
                      reply: XhrReply)
    : (r: Run<UploadResult>)
    ensures file.None? ==> r == Run(NoFile, [])
    ensures file.Some? && config.workerUrl == "" ==> r == Run(Refused(NoWorkerUrl), [])
    ensures file.Some? && config.workerUrl != "" && !IsMarkdownName(file.value) ==>
              r == Run(Refused(OnlyMarkdownUploads), [])
    ensures r.calls != [] <==> file.Some? && config.workerUrl != "" && IsMarkdownName(file.value)
    ensures r.calls != [] ==> r.calls[0] == UploadCall(UploadUrl(config, encodeUri), Folder + file.value)
    ensures r.calls != [] ==>
              (r.result == Uploaded <==> UploadAccepted(reply))
              && (!UploadAccepted(reply) ==> r.result == UploadFailed(UploadErrorMessage(reply)))
    ensures r.calls != [] ==> r.calls[1..] == (if UploadAccepted(reply) then ListCalls(stored, ListBody) else [])
  {
    match file
    case None => Run(NoFile, [])
    case Some(name) =>
      if config.workerUrl == "" then Run(Refused(NoWorkerUrl), [])
      else if !IsMarkdownName(name) then Run(Refused(OnlyMarkdownUploads), [])
      else
        var call := UploadCall(UploadUrl(config, encodeUri), Folder + name);
        if UploadAccepted(reply) then Run(Uploaded, [call] + ListCalls(stored, ListBody))
        else Run(UploadFailed(UploadErrorMessage(reply)), [call])
  }

  /** Lower-casing the folder prefix leaves it as it is. */
  lemma LowerFolder(name: string)
    ensures Lower(Folder + name) == Folder + Lower(name)
  {
    LowerAppend(Folder, name);
    assert Lower(Folder) == Folder;
  }

  /** Suffixes survive a prefix. */
  lemma EndsWithAppend(a: string, b: string, suffix: string)
    requires EndsWith(b, suffix)
    ensures EndsWith(a + b, suffix)
  {
    assert (a + b)[|a + b| - |suffix|..] == b[|b| - |suffix|..];
  }

  /** A name the upload or rename accepts lands at a key the list shows. */
  lemma FolderKeyIsListed(name: string)
    requires IsMarkdownName(name)
    ensures Listed(Folder + name)
  {
    LowerFolder(name);
    var lower := Folder + Lower(name);
    assert lower[..|Folder|] == Folder;
    if EndsWith(Lower(name), ".md") {
      EndsWithAppend(Folder, Lower(name), ".md");
    } else {
      EndsWithAppend(Folder, Lower(name), ".markdown");
    }
  }

  // ---------------------------------------------------------------------
  // Selection, rename and delete
  // ---------------------------------------------------------------------

  /** `openRenameDialog`: `key.replace(/^markdown_file[/\\]/, '')`, which
      is case-sensitive unlike the list filter. */
  function DialogName(key: string): (name: string)
    ensures EndsWith(key, name)
    ensures name != key ==>
              |key| == |name| + 14 && (StartsWith(key, "markdown_file/") || StartsWith(key, "markdown_file\\"))
  {
    if StartsWith(key, "markdown_file/") || StartsWith(key, "markdown_file\\") then key[14..] else key
  }

  /** Confirming the prefilled name unchanged targets the key itself only for
      a `/`-separated key; a `\`-separated key is retargeted to the `/`
      form, and a key whose folder differs in case gets the folder twice. */
  lemma UnchangedNameTarget(key: string)
    ensures StartsWith(key, "markdown_file/") ==> Folder + DialogName(key) == key
    ensures StartsWith(key, "markdown_file\\") ==> Folder + DialogName(key) != key
    ensures !StartsWith(key, "markdown_file/") && !StartsWith(key, "markdown_file\\") ==>
              Folder + DialogName(key) == Folder + key
  {
    if StartsWith(key, "markdown_file/") {
      assert key == key[..14] + key[14..];
    } else if StartsWith(key, "markdown_file\\") {
      assert (Folder + DialogName(key))[13] == '/';
      assert key[13] == '\\';
    }
  }

  /** Renaming a `/`-separated key to its prefilled name asks the proxy to
      move the key onto itself, which answers 409 and changes nothing. */
  lemma UnchangedRenameIsConflict(key: string, st: Store, p: Platform)
    requires StartsWith(key, "markdown_file/") && key in st && OpHead !in p.failing
    ensures var o := HandleRename(RenameRequest(key, Folder + DialogName(key)), st, p);
      o.response.status == 409 && o.store == st
  {
    UnchangedNameTarget(key);
    RenameOntoItselfKeepsStore(st, p, key);
  }

  /** `renameFile`: the blank and extension checks, then the stored
      configuration, then one rename call to `markdown_file/<name>` (the
      name is not trimmed). */
  function RenameFile(v: Pane, oldKey: string, newName: string, stored: Option<Config>, reply: ApiReply)
    : (r: Run<Effect>)
    ensures IsBlank(newName) ==> r == Run(Effect(v, Some(EmptyName)), [])
    ensures !IsBlank(newName) && !IsMarkdownName(newName) ==> r == Run(Effect(v, Some(NameMustBeMarkdown)), [])
    ensures !IsBlank(newName) && IsMarkdownName(newName) && stored.None? ==>
              r == Run(Effect(v, Some(NoStoredConfig)), [])
    ensures !IsBlank(newName) && IsMarkdownName(newName) && stored.Some? && stored.value.workerUrl == "" ==>
              r == Run(Effect(v, Some(NoWorkerUrl)), [])
    ensures r.calls != [] <==>
              !IsBlank(newName) && IsMarkdownName(newName) && stored.Some? && stored.value.workerUrl != ""
    ensures r.calls != [] ==>
              r.calls == [ApiRequest(stored.value, "rename", RenameFields(oldKey, Folder + newName))]
    ensures r.calls != [] && reply.ApiOk? ==>
              && r.result.error.None? && r.result.pane.shown == v.shown
              && r.result.pane.selected == (if v.selected == Some(oldKey) then Some(Folder + newName) else v.selected)
    ensures r.calls != [] && reply.ApiFailed? ==>
              r.result == Effect(v, Some("重命名失败: " + ApiErrorMessage(reply.error)))
  {
    if IsBlank(newName) then Run(Effect(v, Some(EmptyName)), [])
    else if !IsMarkdownName(newName) then Run(Effect(v, Some(NameMustBeMarkdown)), [])
    else match stored
      case None => Run(Effect(v, Some(NoStoredConfig)), [])
      case Some(config) =>
        if config.workerUrl == "" then Run(Effect(v, Some(NoWorkerUrl)), [])
        else
          var newKey := Folder + newName;
          var call := ApiRequest(config, "rename", RenameFields(oldKey, newKey));
          match reply
          case ApiOk(_) =>
            var selected := if v.selected == Some(oldKey) then Some(newKey) else v.selected;
            Run(Effect(Pane(selected, v.shown), None), [call])
          case ApiFailed(e) => Run(Effect(v, Some("重命名失败: " + ApiErrorMessage(e))), [call])
  }

  /** A rename and a delete leave a different selection alone. */
  lemma OtherSelectionUntouched(v: Pane, key: string, newName: string, config: Config, reply: ApiReply)
    requires v.selected != Some(key) && reply.ApiOk? && config.workerUrl != ""
    requires !IsBlank(newName) && IsMarkdownName(newName)
    ensures RenameFile(v, key, newName, Some(config), reply).result.pane == v
    ensures DeleteSelected(v, key, true, config, NoWorkerUrl, reply).result.pane == v
  {
  }

  // ---------------------------------------------------------------------
  // Deleting, as the component is written
  // ---------------------------------------------------------------------

  /** The configuration of the first render. `callWorkerApi` is memoised
      with no dependencies, so its default configuration argument stays
      this one for the life of the component. */
  const FirstRenderConfig := Config("", "")

  /** `deleteFile` as written: the worker URL is checked against the current
      configuration, but the delete goes through `callWorkerApi` without a
      configuration, so it is sent with the first render's empty one. */
  function DeleteFile(v: Pane, key: string, confirmed: bool, config: Config, reply: ApiReply): (r: Run<Effect>)
    ensures r.result == DeleteSelected(v, key, confirmed, config, NoWorkerUrl, reply).result
    ensures r.calls != [] <==> confirmed && config.workerUrl != ""
    ensures r.calls != [] ==> r.calls == [ApiRequest(FirstRenderConfig, "delete", JsonObject(map["key" := key]))]
  {
    if !confirmed then Run(Effect(v, None), [])
    else if config.workerUrl == "" then Run(Effect(v, Some(NoWorkerUrl)), [])
    else
      var call := ApiRequest(FirstRenderConfig, "delete", JsonObject(map["key" := key]));
      match reply
      case ApiOk(_) => Run(Effect(if v.selected == Some(key) then Pane(None, "") else v, None), [call])
      case ApiFailed(e) => Run(Effect(v, Some(ApiErrorMessage(e))), [call])
  }

  /** The request a worker receives for a client call that carries no
      `authorization` query parameter. */
  function Received(c: Call): Request
    requires c.ApiCall?
  {
    Request(Post, c.url, Some(c.action), None, c.authorization, c.body)
  }

  /** A confirmed delete with a worker URL and a token configured: the
      component's call is the relative `?action=delete` with no
      `Authorization` header, so it never reaches the configured worker, and
      a worker with a token refuses it; the intended call (the current
      configuration, as the image browser passes it) goes to the worker URL
      with the bearer token and passes the gate of the worker holding that
      token. */
  lemma StaleDeleteMissesWorker(v: Pane, key: string, config: Config, reply: ApiReply, env: Env)
    requires config.workerUrl != "" && config.apiToken != ""
    ensures var written := DeleteFile(v, key, true, config, reply).calls;
      var intended := DeleteSelected(v, key, true, config, NoWorkerUrl, reply).calls;
      && |written| == 1 && |intended| == 1
      && written[0].url == "?action=delete" && written[0].authorization == None
      && intended[0].url == config.workerUrl + "?action=delete"
      && intended[0].authorization == Some("Bearer " + config.apiToken)
      && written[0] != intended[0]
      && (TokenConfigured(env) ==> Denied(env, GateToken(Received(written[0]))))
      && (env.apiToken == Some(config.apiToken) ==> !Denied(env, GateToken(Received(intended[0]))))
  {
    var intended := DeleteSelected(v, key, true, config, NoWorkerUrl, reply).calls;
    AuthHeaderRoundTrip(config.apiToken);
    assert HeaderToken(Received(intended[0])) == Some(config.apiToken);
    assert |intended[0].url| > |"?action=delete"|;
  }

  // ---------------------------------------------------------------------
  // Loading a file's text
  // ---------------------------------------------------------------------

  function FailureText(f: Failure): string {
    match f
    case Message(t) => t
    case TooLarge(_) => TooLargeToPreview
  }

  /** `loadFileContent`: select the key, probe with HEAD, refuse above
      2 MiB, then read the text; any failure clears the selection. */
  function LoadFileContent(v: Pane, key: string, config: Config, encodeUri: string -> string,
                           head: ProbeReply, get: ReadReply): (r: Run<Effect>)
    ensures config.workerUrl == "" ==> r == Run(Effect(v, Some(NoWorkerUrl)), [])
    ensures config.workerUrl != "" ==>
              |r.calls| >= 1 && r.calls[0] == HeadCall(FileUrl(config.workerUrl, encodeUri, key), AuthHeader(config.apiToken))
    ensures config.workerUrl != "" && ExceedsLimit(head.contentLength, 2 * MiB) ==>
              |r.calls| == 1 && r.result.error.Some? && r.result.pane.selected.None?
    ensures config.workerUrl != "" ==>
              (r.result.error.None? <==> IsOk(head.status) && !ExceedsLimit(head.contentLength, 2 * MiB) && IsOk(get.status))
    ensures config.workerUrl != "" && r.result.error.None? ==> r.result.pane == Pane(Some(key), get.text)
    ensures config.workerUrl != "" && r.result.error.Some? ==> r.result.pane == Pane(None, v.shown)
  {
    if config.workerUrl == "" then Run(Effect(v, Some(NoWorkerUrl)), [])
    else
      var f := ProbeThenFetch(FileUrl(config.workerUrl, encodeUri, key), AuthHeader(config.apiToken),
                              2 * MiB, head, get, "加载");
      match f.result
      case Loaded(text) => Run(Effect(Pane(Some(key), text), None), f.calls)
      case Failed(e) => Run(Effect(Pane(None, v.shown), Some(FailureText(e))), f.calls)
  }
}

=== FILE: notes.dfy ===
/** The notes editor: notes are JSON objects stored under `notes/<id>.json`;
    the list loads every note (skipping the ones that fail), the editor saves
    a note under its id, deletes it, creates fresh ones, searches them, and
    uploads pasted images under `assets/`. */
module Notes {
  import opened Strings
  import opened Proxy
  import opened Client

  datatype Note = Note(id: string, title: string, content: string, tags: seq<string>,
                       createdAt: string, updatedAt: string)

  /** A note file's parsed JSON. Saved notes carry no `id`; one present in
      the file overrides the id taken from the key. */
  datatype NoteData = NoteData(id: Option<string>, title: string, content: string, tags: seq<string>,
                               createdAt: string, updatedAt: string)

  const NotesPrefix := "notes/"
  const NotesListBody: Body := JsonObject(map["prefix" := NotesPrefix])

  // ---------------------------------------------------------------------
  // Keys and ids
  // ---------------------------------------------------------------------

  /** `notes/${id}.json`. */
  function NoteKey(id: string): (k: string)
    ensures |k| == |id| + 11 && StartsWith(k, "notes/") && EndsWith(k, ".json") && k[6..|k| - 5] == id
  {
    var k := "notes/" + id + ".json";
    assert k[..6] == "notes/" && k[|k| - 5..] == ".json" && k[6..|k| - 5] == id;
    k
  }

  /** `key.replace('notes/', '').replace('.json', '')`: the first `notes/`,
      then the first `.json`, removed. */
  function IdOf(key: string): string {
    ReplaceFirst(ReplaceFirst(key, "notes/", ""), ".json", "")
  }

  /** The list keeps keys whose lower-cased form ends in `.json`. */
  predicate IsNoteFile(key: string) {
    EndsWith(Lower(key), ".json")
  }

  predicate HasNoJsonSuffixInside(id: string) {
    forall j :: 0 <= j <= |id| ==> !OccursAt(id, ".json", j)
  }

  /** `.json` first occurs where it was appended when the id holds none:
      the pattern has no border, so it cannot straddle the join. */
  lemma FirstJsonIsAppended(id: string)
    requires HasNoJsonSuffixInside(id)
    ensures IndexOf(id + ".json", ".json") == Some(|id|)
  {
    var s := id + ".json";
    assert OccursAt(s, ".json", |id|) by {
      assert s[|id|..|id| + 5] == ".json";
    }
    forall j | 0 <= j < |id| ensures !OccursAt(s, ".json", j) {
      if j + 5 <= |id| {
        assert !OccursAt(id, ".json", j);
        assert s[j..j + 5] == id[j..j + 5];
      } else if j + 5 <= |s| {
        assert s[j..j + 5][|id| - j] == s[|id|] == '.';
        assert ".json"[|id| - j] != '.';
      }
    }
  }

  /** Saving under `NoteKey(id)` and reading the id back agree whenever the
      id holds no `.json`. */
  lemma IdRoundTrip(id: string)
    requires HasNoJsonSuffixInside(id)
    ensures IdOf(NoteKey(id)) == id
  {
    var key := NoteKey(id);
    assert OccursAt(key, "notes/", 0) by {
      assert key[..6] == "notes/";
    }
    assert key[6..] == id + ".json";
    assert ReplaceFirst(key, "notes/", "") == id + ".json";
    FirstJsonIsAppended(id);
    assert (id + ".json")[..|id|] == id;
  }

  /** A key ending in `.json` written in lower case is always listed. */
  lemma NoteKeyListed(id: string)
    ensures IsNoteFile(NoteKey(id))
  {
    var key := NoteKey(id);
    var k := |key| - 5;
    LowerSuffix(key, k);
    assert key[k..] == ".json";
    var l := Lower(".json");
    assert l[0] == '.' && l[1] == 'j' && l[2] == 's' && l[3] == 'o' && l[4] == 'n';
    assert l == ".json";
  }

  /** Decimal digits never hold `.json`. */
  lemma DigitsHoldNoJson(id: string)
    requires forall i :: 0 <= i < |id| ==> '0' <= id[i] <= '9'
    ensures HasNoJsonSuffixInside(id)
  {
    forall j | 0 <= j <= |id| ensures !OccursAt(id, ".json", j) {
      if j + 5 <= |id| {
        assert id[j..j + 5][0] == id[j];
      }
    }
  }

  /** Every id `createNote` makes (the decimal digits of a timestamp) round
      trips, and its key is listed. */
  lemma CreatedIdsRoundTrip(now: nat)
    ensures IdOf(NoteKey(NatToString(now))) == NatToString(now)
    ensures IsNoteFile(NoteKey(NatToString(now)))
  {
    DigitsHoldNoJson(NatToString(now));
    IdRoundTrip(NatToString(now));
    NoteKeyListed(NatToString(now));
  }

  /** `.json` does not occur in `a.JSON`: the replace is case-sensitive. */
  lemma NoLowerJsonIn(s: string)
    requires s == "a.JSON"
    ensures IndexOf(s, ".json") == None
  {
    forall j | 0 <= j ensures !OccursAt(s, ".json", j) {
      if j + 5 <= |s| {
        assert s[j + 1] != 'j';
        assert s[j..j + 5][1] == s[j + 1];
      }
    }
  }

  /** The case-sensitive replace keeps an upper-case extension: `notes/a.JSON`
      is listed as id `a.JSON`, and saving it writes a different key. */
  lemma UpperCaseExtensionQuirk(key: string)
    requires key == "notes/a.JSON"
    ensures IsNoteFile(key)
    ensures IdOf(key) == "a.JSON"
    ensures NoteKey(IdOf(key)) != key
  {
    LowerSuffix(key, 8);
    assert key[8..] == "JSON";
    var l := Lower("JSON");
    assert l[0] == 'j' && l[1] == 's' && l[2] == 'o' && l[3] == 'n';
    assert key[7] == '.';
    assert Lower(key)[7] == '.';
    assert Lower(key)[8..] == "json";
    assert Lower(key)[|key| - 5..] == ".json";
    assert OccursAt(key, "notes/", 0) by {
      assert key[..6] == "notes/";
    }
    assert ReplaceFirst(key, "notes/", "") == key[6..];
    assert key[6..] == "a.JSON";
    NoLowerJsonIn(key[6..]);
    assert |NoteKey(IdOf(key))| != |key|;
  }

  // ---------------------------------------------------------------------
  // Loading the list
  // ---------------------------------------------------------------------

  /** `{ id: <from key>, ...noteData }`. */
  function NoteFrom(key: string, data: NoteData): (n: Note)
    ensures n.id == (if data.id.Some? then data.id.value else IdOf(key))
    ensures n.title == data.title && n.content == data.content && n.tags == data.tags
  {
    Note(if data.id.Some? then data.id.value else IdOf(key),
         data.title, data.content, data.tags, data.createdAt, data.updatedAt)
  }

  /** The per-file loop of `loadNotesList`: `fetchNote(key)` is the parsed
      note, or `None` when the read throws or is not OK; such notes are
      skipped. */
  function LoadNotes(files: seq<ListEntry>, fetchNote: string -> Option<NoteData>): (notes: seq<Note>)
    ensures |notes| <= |files|
    ensures forall n :: n in notes <==>
              exists j :: 0 <= j < |files| && fetchNote(files[j].key).Some?
                          && n == NoteFrom(files[j].key, fetchNote(files[j].key).value)
  {
    if |files| == 0 then []
    else
      var rest := LoadNotes(files[1..], fetchNote);
      assert forall j :: 0 < j < |files| ==> files[j] == files[1..][j - 1];
      match fetchNote(files[0].key)
      case Some(data) => [NoteFrom(files[0].key, data)] + rest
      case None => rest
  }

  /** Loading a concatenation loads each part in turn. */
  lemma {:induction false} LoadNotesAppend(a: seq<ListEntry>, b: seq<ListEntry>, fetchNote: string -> Option<NoteData>)
    ensures LoadNotes(a + b, fetchNote) == LoadNotes(a, fetchNote) + LoadNotes(b, fetchNote)
  {
    if |a| > 0 {
      assert (a + b)[0] == a[0];
      assert (a + b)[1..] == a[1..] + b;
      LoadNotesAppend(a[1..], b, fetchNote);
    } else {
      assert a + b == b;
    }
  }

  /** A note that fails to load is simply left out: the notes around it
      still load, in order. */
  lemma FailedNoteIsSkipped(before: seq<ListEntry>, f: ListEntry, after: seq<ListEntry>,
                            fetchNote: string -> Option<NoteData>)
    requires fetchNote(f.key).None?
    ensures LoadNotes(before + [f] + after, fetchNote)
            == LoadNotes(before, fetchNote) + LoadNotes(after, fetchNote)
  {
    LoadNotesAppend(before + [f], after, fetchNote);
    LoadNotesAppend(before, [f], fetchNote);
    assert LoadNotes([f], fetchNote) == [] by {
      assert [f][1..] == [];
    }
    assert LoadNotes(before + [f], fetchNote) == LoadNotes(before, fetchNote);
  }

  datatype NotesView = NotesShown(notes: seq<Note>) | NotesError(message: string)

  /** The reads of the note files, one authenticated GET per listed file,
      in list order. */
  function NoteReads(config: Config, encodeUri: string -> string, files: seq<ListEntry>): (calls: seq<Call>)
    ensures |calls| == |files|
    ensures forall i :: 0 <= i < |files| ==>
              calls[i] == GetCall(FileUrl(config.workerUrl, encodeUri, files[i].key), AuthHeader(config.apiToken))
  {
    seq(|files|, i requires 0 <= i < |files| =>
      GetCall(FileUrl(config.workerUrl, encodeUri, files[i].key), AuthHeader(config.apiToken)))
  }

  /** `loadNotesList`: list `notes/`, keep the `.json` keys newest first,
      then read each of them in that order. */
  function LoadNotesList(stored: Option<Config>, encodeUri: string -> string, reply: ApiReply,
                         fetchNote: string -> Option<NoteData>): (r: Run<NotesView>)
    ensures var listed := ListFiltered(stored, NoStoredConfig, NoWorkerUrl, NotesListBody, IsNoteFile, reply);
      && |r.calls| >= |listed.calls| && r.calls[..|listed.calls|] == listed.calls
      && (listed.result.ListError? ==> r == Run(NotesError(listed.result.message), listed.calls))
      && (listed.result.ListShown? ==>
            r == Run(NotesShown(LoadNotes(listed.result.files, fetchNote)),
                     listed.calls + NoteReads(stored.value, encodeUri, listed.result.files)))
    ensures r.result.NotesShown? <==> stored.Some? && stored.value.workerUrl != "" && reply.ApiOk?
    ensures r.result.NotesShown? ==>
              forall n :: n in r.result.notes ==>
                exists e :: e in reply.files && IsNoteFile(e.key) && fetchNote(e.key).Some?
                            && n == NoteFrom(e.key, fetchNote(e.key).value)
  {
    var listed := ListFiltered(stored, NoStoredConfig, NoWorkerUrl, NotesListBody, IsNoteFile, reply);
    match listed.result
    case ListShown(files) =>
      Run(NotesShown(LoadNotes(files, fetchNote)), listed.calls + NoteReads(stored.value, encodeUri, files))
    case ListError(m) => Run(NotesError(m), listed.calls)
  }

  // ---------------------------------------------------------------------
  // Saving, creating and deleting
  // ---------------------------------------------------------------------

  /** The JSON `saveNote` writes: the note without its id, stamped with the
      save time. */
  function SavedData(note: Note, savedAt: string): (d: NoteData)
    ensures d.id.None? && d.updatedAt == savedAt
  {
    NoteData(None, note.title, note.content, note.tags, note.createdAt, savedAt)
  }

  /** Reading a saved note back gives the note as saved. */
  lemma SaveThenLoad(note: Note, savedAt: string, e: ListEntry)
    requires HasNoJsonSuffixInside(note.id) && e.key == NoteKey(note.id)
    ensures NoteFrom(e.key, SavedData(note, savedAt)) == note.(updatedAt := savedAt)
  {
    IdRoundTrip(note.id);
  }

  /** The list after a successful save: only notes with the saved id get
      the new `updatedAt`. */
  function Touch(notes: seq<Note>, id: string, stamp: string): (r: seq<Note>)
    ensures |r| == |notes|
    ensures forall k :: 0 <= k < |notes| && notes[k].id == id ==> r[k] == notes[k].(updatedAt := stamp)
    ensures forall k :: 0 <= k < |notes| && notes[k].id != id ==> r[k] == notes[k]
  {
    seq(|notes|, k requires 0 <= k < |notes| => if notes[k].id == id then notes[k].(updatedAt := stamp) else notes[k])
  }

  /** The upload a note save issues: the note's JSON under its key. */
  datatype NoteWrite = NoteWrite(call: Call, data: NoteData)

  datatype SaveOutcome = SaveOutcome(notes: seq<Note>, error: Option<string>, write: Option<NoteWrite>)

  /** `saveNote`: silently nothing without a stored configuration or worker
      URL; otherwise one upload, and on success the list's `updatedAt` of
      that note is refreshed. */
  function SaveNote(note: Note, notes: seq<Note>, stored: Option<Config>, encodeUri: string -> string,
                    savedAt: string, stamp: string, reply: XhrReply): (r: SaveOutcome)
    ensures stored.None? || stored.value.workerUrl == "" ==> r == SaveOutcome(notes, None, None)
    ensures stored.Some? && stored.value.workerUrl != "" ==>
              r.write == Some(NoteWrite(UploadCall(UploadUrl(stored.value, encodeUri), NoteKey(note.id)),
                                        SavedData(note, savedAt)))
    ensures r.write.Some? && UploadAccepted(reply) ==> r.notes == Touch(notes, note.id, stamp) && r.error.None?
    ensures r.write.Some? && reply.XhrLoaded? && reply.status != 200 ==> r == SaveOutcome(notes, Some("保存失败: 保存失败"), r.write)
    ensures r.write.Some? && reply.XhrNetworkError? ==>
              r == SaveOutcome(notes, Some("保存失败: 保存失败，请检查网络连接"), r.write)
  {
    match stored
    case None => SaveOutcome(notes, None, None)
    case Some(config) =>
      if config.workerUrl == "" then SaveOutcome(notes, None, None)
      else
        var write := NoteWrite(UploadCall(UploadUrl(config, encodeUri), NoteKey(note.id)), SavedData(note, savedAt));
        match reply
        case XhrLoaded(status, _) =>
          if status == 200 then SaveOutcome(Touch(notes, note.id, stamp), None, Some(write))
          else SaveOutcome(notes, Some("保存失败: 保存失败"), Some(write))
        case XhrNetworkError => SaveOutcome(notes, Some("保存失败: 保存失败，请检查网络连接"), Some(write))
  }

  /** The notes list and the note open in the editor. */
  datatype Editor = Editor(notes: seq<Note>, selected: Option<Note>)

  /** The editor after `createNote`, and the save it starts. */
  datatype Created = Created(editor: Editor, save: SaveOutcome)

  /** `createNote`: a fresh empty note titled `新笔记`, id the timestamp's
      digits, put first and opened, then saved at once with `saveNote`
      (whose list update lands on the list that already holds the note).
      The code reads the clock three times: `now` for the id, then
      `createdIso` and `updatedIso` for the two ISO stamps, which need not
      agree. */
  function CreateNote(e: Editor, now: nat, createdIso: string, updatedIso: string, stored: Option<Config>,
                      encodeUri: string -> string, savedAt: string, stamp: string, reply: XhrReply): (r: Created)
    ensures |r.editor.notes| == |e.notes| + 1
    ensures r.editor.selected.Some? && r.editor.selected.value.id == NatToString(now)
    ensures var n := r.editor.selected.value;
            && n.title == "新笔记" && n.content == "" && n.tags == [] && n.createdAt == createdIso && n.updatedAt == updatedIso
    ensures r.editor.notes[0].id == NatToString(now) && r.editor.notes[0].title == "新笔记"
    ensures (forall k :: 0 <= k < |e.notes| ==> e.notes[k].id != NatToString(now)) ==> r.editor.notes[1..] == e.notes
    ensures stored.None? || stored.value.workerUrl == "" ==>
              r.save.write.None? && r.editor.notes == [r.editor.selected.value] + e.notes
    ensures stored.Some? && stored.value.workerUrl != "" ==>
              r.save.write == Some(NoteWrite(UploadCall(UploadUrl(stored.value, encodeUri), NoteKey(NatToString(now))),
                                             SavedData(r.editor.selected.value, savedAt)))
    ensures r.save.write.Some? && (reply.XhrLoaded? && reply.status == 200) ==>
              r.save.error.None? && r.editor.notes[0] == r.editor.selected.value.(updatedAt := stamp)
    ensures r.save.write.Some? && !(reply.XhrLoaded? && reply.status == 200) ==>
              r.save.error.Some? && r.editor.notes == [r.editor.selected.value] + e.notes
  {
    var n := Note(NatToString(now), "新笔记", "", [], createdIso, updatedIso);
    var listed := [n] + e.notes;
    var save := SaveNote(n, listed, stored, encodeUri, savedAt, stamp, reply);
    assert listed[1..] == e.notes;
    Created(Editor(save.notes, Some(n)), save)
  }

  /** The notes that do not carry the id, in order. */
  function Without(notes: seq<Note>, id: string): (r: seq<Note>)
    ensures forall n :: n in r <==> n in notes && n.id != id
    ensures |r| <= |notes|
  {
    if |notes| == 0 then []
    else if notes[0].id == id then Without(notes[1..], id)
    else [notes[0]] + Without(notes[1..], id)
  }

  /** `performDelete`: nothing without a pending id; an error without a
      stored configuration; silently nothing without a worker URL; then one
      delete of `notes/<id>.json`, after which exactly the notes with that
      id are gone and the editor closes if it showed one of them. */
  function PerformDelete(e: Editor, deleting: Option<string>, stored: Option<Config>, reply: ApiReply)
    : (r: Run<(Editor, Option<string>)>)
    ensures deleting.None? || deleting == Some("") ==> r == Run((e, None), [])
    ensures deleting.Some? && deleting.value != "" && stored.None? ==> r == Run((e, Some("未配置 R2 存储信息")), [])
    ensures r.calls != [] <==> deleting.Some? && deleting.value != "" && stored.Some? && stored.value.workerUrl != ""
    ensures r.calls != [] ==>
              r.calls == [ApiRequest(stored.value, "delete", JsonObject(map["key" := NoteKey(deleting.value)]))]
    ensures r.calls != [] && reply.ApiOk? ==>
              && r.result.1.None?
              && r.result.0.notes == Without(e.notes, deleting.value)
              && r.result.0.selected == (if e.selected.Some? && e.selected.value.id == deleting.value then None else e.selected)
    ensures r.calls != [] && reply.ApiFailed? ==> r.result == (e, Some("删除失败: " + ApiErrorMessage(reply.error)))
  {
    match deleting
    case None => Run((e, None), [])
    case Some(id) =>
      if id == "" then Run((e, None), [])
      else match stored
      case None => Run((e, Some("未配置 R2 存储信息")), [])
      case Some(config) =>
        if config.workerUrl == "" then Run((e, None), [])
        else
          var call := ApiRequest(config, "delete", JsonObject(map["key" := NoteKey(id)]));
          match reply
          case ApiOk(_) =>
            var selected := if e.selected.Some? && e.selected.value.id == id then None else e.selected;
            Run((Editor(Without(e.notes, id), selected), None), [call])
          case ApiFailed(err) => Run((e, Some("删除失败: " + ApiErrorMessage(err))), [call])
  }

  // ---------------------------------------------------------------------
  // Search
  // ---------------------------------------------------------------------

  /** The search predicate: the lower-cased query occurs in the lower-cased
      title, content, or some tag. */
  predicate Matches(note: Note, query: string) {
    var q := Lower(query);
    Includes(Lower(note.title), q) || Includes(Lower(note.content), q)
    || exists k :: 0 <= k < |note.tags| && Includes(Lower(note.tags[k]), q)
  }

  /** `filteredNotes`, in list order. */
  function Search(notes: seq<Note>, query: string): (r: seq<Note>)
    ensures forall n :: n in r <==> n in notes && Matches(n, query)
    ensures |r| <= |notes|
  {
    if |notes| == 0 then []
    else if Matches(notes[0], query) then [notes[0]] + Search(notes[1..], query)
    else Search(notes[1..], query)
  }

  /** The empty query matches every note, so the search shows the whole
      list. */
  lemma {:induction false} EmptyQueryKeepsAll(notes: seq<Note>)
    ensures Search(notes, "") == notes
  {
    if |notes| > 0 {
      var n := notes[0];
      assert Lower("") == "";
      assert OccursAt(Lower(n.title), "", 0);
      EmptyQueryKeepsAll(notes[1..]);
    }
  }

  // ---------------------------------------------------------------------
  // Pasting an image
  // ---------------------------------------------------------------------

  /** A clipboard item: its MIME type and, when it yields one, the file's
      name. */
  datatype PasteItem = PasteItem(mimeType: string, file: Option<string>)

  /** The first image item that yields a file. */
  function FirstImage(items: seq<PasteItem>): (r: Option<nat>)
    ensures r.Some? ==> r.value < |items| && StartsWith(items[r.value].mimeType, "image/") && items[r.value].file.Some?
    ensures r.Some? ==> forall k :: 0 <= k < r.value ==> !(StartsWith(items[k].mimeType, "image/") && items[k].file.Some?)
    ensures r.None? ==> forall k :: 0 <= k < |items| ==> !(StartsWith(items[k].mimeType, "image/") && items[k].file.Some?)
  {
    if |items| == 0 then None
    else if StartsWith(items[0].mimeType, "image/") && items[0].file.Some? then Some(0)
    else match FirstImage(items[1..])
      case None => None
      case Some(k) => Some(k + 1)
  }

  /** `assets/${Date.now()}-${file.name}`. */
  function AssetKey(now: nat, name: string): string {
    "assets/" + NatToString(now) + "-" + name
  }

  /** `![name](url)\n` for the uploaded asset. */
  function ImageMarkdown(name: string, url: string): string {
    "![" + name + "](" + url + ")\n"
  }

  /** `handlePaste`: only the first image item with a file is uploaded, and
      only a successful upload appends its Markdown to the open note. */
  function HandlePaste(items: seq<PasteItem>, selected: Option<Note>, stored: Option<Config>,
                       encodeUri: string -> string, now: nat, reply: XhrReply)
    : (r: Run<(Option<Note>, Option<string>)>)
    ensures FirstImage(items).None? ==> r == Run((selected, None), [])
    ensures FirstImage(items).Some? && stored.None? ==> r == Run((selected, Some("未配置 R2 存储信息")), [])
    ensures r.calls != [] <==> FirstImage(items).Some? && stored.Some? && stored.value.workerUrl != ""
    ensures r.calls != [] ==>
              var name := items[FirstImage(items).value].file.value;
              && r.calls == [UploadCall(UploadUrl(stored.value, encodeUri), AssetKey(now, name))]
              && (UploadAccepted(reply) ==>
                    r.result.1.None?
                    && r.result.0 == (if selected.None? then None else Some(selected.value.(content :=
                         selected.value.content
                         + ImageMarkdown(name, FileUrl(stored.value.workerUrl, encodeUri, AssetKey(now, name)))))))
              && (!UploadAccepted(reply) ==> r.result == (selected, Some("图片上传失败: 上传失败")))
  {
    match FirstImage(items)
    case None => Run((selected, None), [])
    case Some(k) =>
      var name := items[k].file.value;
      match stored
      case None => Run((selected, Some("未配置 R2 存储信息")), [])
      case Some(config) =>
        if config.workerUrl == "" then Run((selected, None), [])
        else
          var key := AssetKey(now, name);
          var call := UploadCall(UploadUrl(config, encodeUri), key);
          if UploadAccepted(reply) then
            var md := ImageMarkdown(name, FileUrl(config.workerUrl, encodeUri, key));
            Run((if selected.None? then None else Some(selected.value.(content := selected.value.content + md)), None), [call])
          else Run((selected, Some("图片上传失败: 上传失败")), [call])
  }

  /** A paste never touches the note's other fields and only ever extends
      its content. */
  lemma PasteOnlyAppends(items: seq<PasteItem>, note: Note, stored: Option<Config>,
                         encodeUri: string -> string, now: nat, reply: XhrReply)
    ensures var after := HandlePaste(items, Some(note), stored, encodeUri, now, reply).result.0;
      after.Some? && StartsWith(after.value.content, note.content)
      && after.value == note.(content := after.value.content)
  {
    var after := HandlePaste(items, Some(note), stored, encodeUri, now, reply).result.0;
    assert after.value.content[..|note.content|] == note.content;
  }
}

=== FILE: proxy.dfy ===
/** The request/response vocabulary of the storage proxy and the four JSON
    actions (list, upload, delete, rename), which both worker revisions
    implement identically apart from the upload reply. */
module Proxy {
  import opened Strings
  import opened BlobStore

  datatype Method = Get | Post | Head | Options | OtherMethod(name: string)

  /** The `file` field of a multipart upload: `file.name`, `file.type` and
      the fully buffered content. */
  datatype FilePart = FilePart(name: string, mimeType: string, data: seq<byte>)

  /** What the request body parses to. `Malformed` is a body that neither
      `request.json()` nor `request.formData()` accepts. */
  datatype Body =
    | NoBody
    | Malformed
    | JsonObject(fields: map<string, string>)
    | Form(file: Option<FilePart>)

  /** The parts of an incoming request the handler reads: the method, the
      still percent-encoded `url.pathname`, the `action` and `authorization`
      query parameters, the `Authorization` header and the body. */
  datatype Request = Request(
    verb: Method,
    path: string,
    action: Option<string>,
    queryToken: Option<string>,
    authHeader: Option<string>,
    body: Body)

  /** `env.API_TOKEN`; `None` when the variable is not set. */
  datatype Env = Env(apiToken: Option<string>)

  datatype StoreOp = OpList | OpHead | OpGet | OpPut | OpDelete

  /** The runtime around the handler: `decodeURIComponent` (None when it
      throws), `encodeURIComponent`, how the runtime splits a stored body into
      stream chunks, the order in which `bucket.list` reports keys, the etag
      the store assigns, the store's clock, and which store calls throw. */
  datatype Platform = Platform(
    decodeUri: string -> Option<string>,
    encodeUri: string -> string,
    chunking: seq<byte> -> seq<seq<byte>>,
    listOrder: set<string> -> seq<string>,
    etagOf: seq<byte> -> string,
    now: int,
    failing: set<StoreOp>)

  /** The body stream yields the stored bytes, split somehow into chunks. */
  ghost predicate FaithfulChunking(p: Platform) {
    forall d {:trigger p.chunking(d)} :: Flatten(p.chunking(d)) == d
  }

  /** `bucket.list` reports every key of the set exactly once. */
  ghost predicate FaithfulListing(p: Platform) {
    forall ks: set<string> {:trigger p.listOrder(ks)} ::
      (forall i, j :: 0 <= i < j < |p.listOrder(ks)| ==> p.listOrder(ks)[i] != p.listOrder(ks)[j])
      && (forall k :: k in p.listOrder(ks) <==> k in ks)
  }

  /** One `{Key, Size, LastModified, ETag}` record of a list reply. */
  datatype ListEntry = ListEntry(key: string, size: nat, lastModified: int, etag: string)

  datatype Payload =
    | Empty
    | ErrorBody(error: string)
    | NotFoundBody(error: string, key: string)
    | FaultBody(error: string)
    | Files(files: seq<ListEntry>)
    | UploadBody(key: string, size: Option<nat>)
    | DeleteBody
    | RenameBody(oldKey: string, newKey: string)
    | InvalidActionBody(availableActions: seq<string>, imageExtensions: seq<string>)
    | Text(text: string)
    | Blob(data: seq<byte>)

  datatype Response = Response(status: int, headers: map<string, string>, payload: Payload)

  /** The reply together with the store as the request leaves it. */
  datatype Outcome = Outcome(response: Response, store: Store)

  const AllowOrigin := "Access-Control-Allow-Origin"
  const AllowMethods := "Access-Control-Allow-Methods"
  const AllowHeaders := "Access-Control-Allow-Headers"
  const Actions: seq<string> := ["list", "upload", "delete", "rename"]

  const CorsJson: map<string, string> :=
    map[AllowOrigin := "*", "Content-Type" := "application/json"]

  const PreflightResponse: Response :=
    Response(204, map[AllowOrigin := "*", AllowMethods := "GET, POST, OPTIONS",
                      AllowHeaders := "Content-Type, Authorization"], Empty)

  const UnauthorizedResponse: Response := Response(401, CorsJson, ErrorBody("Unauthorized"))

  /** The catch-all: any exception becomes a 500 with a structured body. */
  const FaultResponse: Response := Response(500, CorsJson, FaultBody("Internal server error"))

  function JsonError(status: int, error: string): Response {
    Response(status, CorsJson, ErrorBody(error))
  }

  function Ok(payload: Payload): Response {
    Response(200, CorsJson, payload)
  }

  /** The headers of a served file: the object's content type, its quoted
      etag, a one-year cache lifetime, CORS and the disposition. */
  function FileHeaders(obj: StoredObject, disposition: string): (h: map<string, string>)
    ensures AllowOrigin in h && h[AllowOrigin] == "*"
    ensures "Content-Disposition" in h && h["Content-Disposition"] == disposition
  {
    var base := if obj.httpMetadata.contentType.Some?
      then map["Content-Type" := obj.httpMetadata.contentType.value] else map[];
    base["etag" := "\"" + obj.etag + "\""]["Cache-Control" := "public, max-age=31536000"]
        [AllowOrigin := "*"]["Content-Disposition" := disposition]
  }

  /** `request.headers.get('Authorization')?.replace('Bearer ', '')`: the
      first occurrence of "Bearer " is removed, wherever it is. */
  function HeaderToken(req: Request): (t: Option<string>)
    ensures t.Some? <==> req.authHeader.Some?
    ensures req.authHeader.Some? && StartsWith(req.authHeader.value, "Bearer ") ==>
              "Bearer " + t.value == req.authHeader.value
  {
    match req.authHeader
    case None => None
    case Some(h) =>
      if StartsWith(h, "Bearer ") then
        assert OccursAt(h, "Bearer ", 0);
        assert h == "Bearer " + h[7..];
        Some(ReplaceFirst(h, "Bearer ", ""))
      else Some(ReplaceFirst(h, "Bearer ", ""))
  }

  /** The token of the global gate: a non-empty `authorization` query
      parameter wins over the header. */
  function GateToken(req: Request): (t: Option<string>)
    ensures req.queryToken.Some? && req.queryToken.value != "" ==> t == req.queryToken
    ensures (req.queryToken.None? || req.queryToken.value == "") ==> t == HeaderToken(req)
  {
    if req.queryToken.Some? && req.queryToken.value != "" then req.queryToken else HeaderToken(req)
  }

  /** `env.API_TOKEN` is truthy. */
  predicate TokenConfigured(env: Env) {
    env.apiToken.Some? && env.apiToken.value != ""
  }

  /** `env.API_TOKEN && token !== env.API_TOKEN`. */
  predicate Denied(env: Env, token: Option<string>) {
    TokenConfigured(env) && token != env.apiToken
  }

  /** The list records for the given keys, in the given order. */
  function Entries(st: Store, keys: seq<string>): (es: seq<ListEntry>)
    ensures |es| <= |keys|
    ensures (forall i :: 0 <= i < |keys| ==> keys[i] in st) ==>
              |es| == |keys| && forall i :: 0 <= i < |keys| ==> es[i] == EntryOf(keys[i], st[keys[i]])
  {
    if |keys| == 0 then []
    else if keys[0] in st then [EntryOf(keys[0], st[keys[0]])] + Entries(st, keys[1..])
    else Entries(st, keys[1..])
  }

  function EntryOf(key: string, obj: StoredObject): ListEntry {
    ListEntry(key, |obj.data|, obj.uploaded, obj.etag)
  }

  /** `body.prefix || ''` where an unparseable body counts as `{}`. */
  function ListPrefix(body: Body): string {
    match body
    case JsonObject(f) => if "prefix" in f then f["prefix"] else ""
    case _ => ""
  }

  /** `action=list`. */
  function HandleList(req: Request, st: Store, p: Platform): (o: Outcome)
    ensures o.store == st
    ensures o.response.headers == CorsJson && o.response.status in {200, 500}
  {
    if OpList in p.failing then Outcome(FaultResponse, st)
    else
      var keys := p.listOrder(KeysWithPrefix(st, ListPrefix(req.body)));
      Outcome(Ok(Files(Entries(st, keys))), st)
  }

  /** `action=upload` (POST only). With `reportSize` the reply carries the
      stored byte length, as the current revision does. */
  function HandleUpload(req: Request, st: Store, p: Platform, reportSize: bool): (o: Outcome)
    ensures req.body == Form(None) ==> o.response == JsonError(400, "No file provided") && o.store == st
    ensures o.response.headers == CorsJson && o.response.status in {200, 400, 500}
  {
    match req.body
    case Form(None) => Outcome(JsonError(400, "No file provided"), st)
    case Form(Some(f)) =>
      if OpPut in p.failing then Outcome(FaultResponse, st)
      else
        var st' := Put(st, f.name, f.data, HttpMetadata(Some(f.mimeType)), map[], p.now, p.etagOf(f.data));
        Outcome(Ok(UploadBody(f.name, if reportSize then Some(|f.data|) else None)), st')
    case _ => Outcome(FaultResponse, st)
  }

  /** `action=delete` (POST only): the store delete is unconditional. */
  function HandleDelete(req: Request, st: Store, p: Platform): (o: Outcome)
    ensures o.response.headers == CorsJson && o.response.status in {200, 500}
  {
    match req.body
    case JsonObject(f) =>
      if "key" !in f || OpDelete in p.failing then Outcome(FaultResponse, st)
      else Outcome(Ok(DeleteBody), Delete(st, f["key"]))
    case _ => Outcome(FaultResponse, st)
  }

  /** A rename request's `oldKey`/`newKey`; the empty string when absent. */
  function Field(f: map<string, string>, name: string): string {
    if name in f then f[name] else ""
  }

  /** `action=rename` (POST only): 400 for a missing key, then 409 when the
      target exists, then 404 when the source is absent, then copy, then
      delete. */
  function HandleRename(req: Request, st: Store, p: Platform): (o: Outcome)
    ensures o.response.headers == CorsJson && o.response.status in {200, 400, 404, 409, 500}
  {
    match req.body
    case JsonObject(f) =>
      var oldKey := Field(f, "oldKey");
      var newKey := Field(f, "newKey");
      if oldKey == "" || newKey == "" then
        Outcome(JsonError(400, "oldKey and newKey are required"), st)
      else if OpHead in p.failing then Outcome(FaultResponse, st)
      else if newKey in st then Outcome(JsonError(409, "Target file already exists"), st)
      else if OpGet in p.failing then Outcome(FaultResponse, st)
      else if oldKey !in st then Outcome(JsonError(404, "Source file not found"), st)
      else
        var obj := st[oldKey];
        var content := Flatten(p.chunking(obj.data));
        if OpPut in p.failing then Outcome(FaultResponse, st)
        else
          var copied := Put(st, newKey, content, obj.httpMetadata, obj.customMetadata,
                            p.now, p.etagOf(content));
          if OpDelete in p.failing then Outcome(FaultResponse, copied)
          else Outcome(Ok(RenameBody(oldKey, newKey)), Delete(copied, oldKey))
    case _ => Outcome(FaultResponse, st)
  }

  /** The `action` query parameter; the empty string when absent. */
  function ActionOf(req: Request): string {
    if req.action.Some? then req.action.value else ""
  }

  /** The action table both revisions share; `None` when no action matches
      (an unknown action, or upload/delete/rename without POST). */
  function DispatchAction(req: Request, st: Store, p: Platform, reportSize: bool): (r: Option<Outcome>)
    ensures r.Some? ==> r.value.response.headers == CorsJson && r.value.response.status != 401
    ensures r.None? <==> !(ActionOf(req) == "list" || (ActionOf(req) in {"upload", "delete", "rename"} && req.verb == Post))
  {
    var action := ActionOf(req);
    if action == "list" then Some(HandleList(req, st, p))
    else if action == "upload" && req.verb == Post then Some(HandleUpload(req, st, p, reportSize))
    else if action == "delete" && req.verb == Post then Some(HandleDelete(req, st, p))
    else if action == "rename" && req.verb == Post then Some(HandleRename(req, st, p))
    else None
  }

  // ---------------------------------------------------------------------
  // Properties of the shared actions
  // ---------------------------------------------------------------------

  /** The JSON body `{ oldKey, newKey }` a rename request carries. */
  function RenameFields(oldKey: string, newKey: string): Body {
    JsonObject(map["oldKey" := oldKey, "newKey" := newKey])
  }

  function RenameRequest(oldKey: string, newKey: string): Request {
    Request(Post, "/", Some("rename"), None, None, RenameFields(oldKey, newKey))
  }

  /** The list reply holds exactly the objects under the prefix, each
      reported with its stored size, upload time and etag. */
  lemma ListReportsPrefixObjects(req: Request, st: Store, p: Platform)
    requires FaithfulListing(p) && OpList !in p.failing
    ensures var o := HandleList(req, st, p);
      && o.response.status == 200 && o.response.payload.Files? && o.store == st
      && (forall e :: e in o.response.payload.files <==>
            e.key in st && StartsWith(e.key, ListPrefix(req.body)) && e == EntryOf(e.key, st[e.key]))
      && (forall e :: e in o.response.payload.files ==> e.size == |st[e.key].data|)
  {
    var keys := p.listOrder(KeysWithPrefix(st, ListPrefix(req.body)));
    var es := Entries(st, keys);
    assert forall i :: 0 <= i < |keys| ==> keys[i] in KeysWithPrefix(st, ListPrefix(req.body));
    forall e | e in es
      ensures e.key in st && StartsWith(e.key, ListPrefix(req.body)) && e == EntryOf(e.key, st[e.key])
    {
      var i :| 0 <= i < |es| && es[i] == e;
      assert keys[i] in keys;
    }
    forall e: ListEntry | e.key in st && StartsWith(e.key, ListPrefix(req.body)) && e == EntryOf(e.key, st[e.key])
      ensures e in es
    {
      assert e.key in keys;
      var i :| 0 <= i < |keys| && keys[i] == e.key;
      assert es[i] == e;
    }
  }

  /** The list prefix is the body's `prefix`, or "" for an absent or
      unparseable body or a falsy prefix. */
  lemma ListPrefixDefaults(body: Body)
    ensures body.NoBody? || body.Malformed? || body.Form? ==> ListPrefix(body) == ""
    ensures body.JsonObject? && "prefix" in body.fields ==> ListPrefix(body) == body.fields["prefix"]
    ensures body.JsonObject? && "prefix" !in body.fields ==> ListPrefix(body) == ""
  {
  }

  /** A stored upload puts the fully buffered bytes at exactly `file.name`
      and reports their length; nothing else changes. */
  lemma UploadStoresAtName(req: Request, st: Store, p: Platform, f: FilePart)
    requires req.body == Form(Some(f)) && OpPut !in p.failing
    ensures var o := HandleUpload(req, st, p, true);
      && o.response == Ok(UploadBody(f.name, Some(|f.data|)))
      && o.store.Keys == st.Keys + {f.name}
      && o.store[f.name].data == f.data
      && o.store[f.name].httpMetadata == HttpMetadata(Some(f.mimeType))
      && (forall k :: k in st && k != f.name ==> o.store[k] == st[k])
    ensures HandleUpload(req, st, p, false).response == Ok(UploadBody(f.name, None))
  {
  }

  /** Delete answers success whether or not the key exists; an absent key
      leaves the store as it was. */
  lemma DeleteAlwaysSucceeds(st: Store, p: Platform, key: string)
    requires OpDelete !in p.failing
    ensures var req := Request(Post, "/", Some("delete"), None, None, JsonObject(map["key" := key]));
      var o := HandleDelete(req, st, p);
      && o.response == Ok(DeleteBody)
      && o.store.Keys == st.Keys - {key}
      && (key !in st ==> o.store == st)
  {
  }

  /** Every rename reply except success and a failing final delete leaves
      the store exactly as it was. */
  lemma RenameEarlyExitsLeaveStore(req: Request, st: Store, p: Platform)
    requires OpDelete !in p.failing
    ensures var o := HandleRename(req, st, p);
      o.response.status != 200 ==> o.store == st
  {
  }

  /** The precondition checks run in the fixed order 400, 409, 404. */
  lemma RenameCheckOrder(st: Store, p: Platform, oldKey: string, newKey: string)
    requires p.failing == {}
    ensures var o := HandleRename(RenameRequest(oldKey, newKey), st, p);
      && ((oldKey == "" || newKey == "")
            <==> o.response == JsonError(400, "oldKey and newKey are required"))
      && ((oldKey != "" && newKey != "" && newKey in st)
            <==> o.response == JsonError(409, "Target file already exists"))
      && ((oldKey != "" && newKey != "" && newKey !in st && oldKey !in st)
            <==> o.response == JsonError(404, "Source file not found"))
  {
  }

  /** Renaming a key onto itself never loses the object: either the target
      exists (409) or the source is missing (404), or a store call throws
      before any write. */
  lemma RenameOntoItselfKeepsStore(st: Store, p: Platform, key: string)
    ensures HandleRename(RenameRequest(key, key), st, p).store == st
    ensures key != "" && key in st && OpHead !in p.failing ==>
      HandleRename(RenameRequest(key, key), st, p).response.status == 409
  {
  }

  /** A successful rename moves exactly one key: the target holds the
      source's bytes and metadata, the source is gone, nothing else changes. */
  lemma RenameMovesOneKey(st: Store, p: Platform, oldKey: string, newKey: string)
    requires FaithfulChunking(p)
    ensures var o := HandleRename(RenameRequest(oldKey, newKey), st, p);
      o.response.status == 200 ==>
        && oldKey != newKey && oldKey in st && newKey !in st
        && o.response.payload == RenameBody(oldKey, newKey)
        && o.store.Keys == st.Keys - {oldKey} + {newKey}
        && o.store[newKey].data == st[oldKey].data
        && o.store[newKey].httpMetadata == st[oldKey].httpMetadata
        && o.store[newKey].customMetadata == st[oldKey].customMetadata
        && (forall k :: k in st && k != oldKey && k != newKey ==> o.store[k] == st[k])
  {
    var o := HandleRename(RenameRequest(oldKey, newKey), st, p);
    if o.response.status == 200 {
      assert Flatten(p.chunking(st[oldKey].data)) == st[oldKey].data;
    }
  }

  /** With no store fault the rename of an existing key to a free key
      succeeds. */
  lemma RenameSucceedsWhenFree(st: Store, p: Platform, oldKey: string, newKey: string)
    requires p.failing == {}
    requires oldKey != "" && newKey != "" && oldKey in st && newKey !in st
    ensures HandleRename(RenameRequest(oldKey, newKey), st, p).response
      == Ok(RenameBody(oldKey, newKey))
  {
  }

  /** The non-atomic window: when the final delete throws, both keys exist
      and the reply is a 500. A throw at any earlier step leaves the store
      untouched. */
  lemma RenameFailureWindows(st: Store, p: Platform, oldKey: string, newKey: string)
    requires oldKey != "" && newKey != "" && oldKey in st && newKey !in st
    ensures var o := HandleRename(RenameRequest(oldKey, newKey), st, p);
      && (OpDelete in p.failing && OpHead !in p.failing && OpGet !in p.failing && OpPut !in p.failing ==>
            o.response == FaultResponse && oldKey in o.store && newKey in o.store
            && o.store[oldKey] == st[oldKey])
      && (OpHead in p.failing || OpGet in p.failing || OpPut in p.failing ==>
            o.response == FaultResponse && o.store == st)
  {
  }
}

=== FILE: strings.dfy ===
/** String helpers shared by the proxy and the client components.

    Each helper mirrors one JavaScript string primitive the source relies on
    (`startsWith`, `endsWith`, `toLowerCase`, `trim`, `indexOf`, `lastIndexOf`,
    `replace` with a string pattern, `includes`, number-to-string). */
module Strings {

  datatype Option<+T> = None | Some(value: T)

  predicate StartsWith(s: string, prefix: string) {
    |prefix| <= |s| && s[..|prefix|] == prefix
  }

  predicate EndsWith(s: string, suffix: string) {
    |suffix| <= |s| && s[|s| - |suffix|..] == suffix
  }

  /** `toLowerCase` on one UTF-16 code unit, restricted to ASCII letters. */
  function LowerChar(c: char): char {
    if 'A' <= c <= 'Z' then (c as int + 32) as char else c
  }

  function Lower(s: string): (r: string)
    ensures |r| == |s|
    ensures forall i :: 0 <= i < |s| ==> r[i] == LowerChar(s[i])
  {
    seq(|s|, i requires 0 <= i < |s| => LowerChar(s[i]))
  }

  lemma LowerAppend(a: string, b: string)
    ensures Lower(a + b) == Lower(a) + Lower(b)
  {
  }

  /** Lower-casing commutes with taking a suffix. */
  lemma LowerSuffix(s: string, k: nat)
    requires k <= |s|
    ensures Lower(s)[k..] == Lower(s[k..])
  {
  }

  /** The code units that `String.prototype.trim` removes: WhiteSpace and
      LineTerminator of ECMAScript. */
  predicate IsJsWhitespace(c: char) {
    c == '\t' || c == '\n' || c == '\U{000B}' || c == '\U{000C}' || c == '\r' || c == ' '
    || c == '\U{00A0}' || c == '\U{1680}' || ('\U{2000}' <= c <= '\U{200A}')
    || c == '\U{2028}' || c == '\U{2029}' || c == '\U{202F}' || c == '\U{205F}'
    || c == '\U{3000}' || c == '\U{FEFF}'
  }

  /** `!s.trim()`: the string is empty once trimmed. */
  predicate IsBlank(s: string) {
    forall i :: 0 <= i < |s| ==> IsJsWhitespace(s[i])
  }

  predicate OccursAt(s: string, pat: string, j: int) {
    0 <= j && j + |pat| <= |s| && s[j..j + |pat|] == pat
  }

  /** `s.indexOf(pat, from)`: the first occurrence at or after `from`. */
  function IndexFrom(s: string, pat: string, from: nat): (r: Option<nat>)
    requires from <= |s|
    ensures r.Some? ==> from <= r.value && OccursAt(s, pat, r.value)
    ensures r.Some? ==> forall j :: from <= j < r.value ==> !OccursAt(s, pat, j)
    ensures r.None? ==> forall j :: from <= j ==> !OccursAt(s, pat, j)
    decreases |s| - from
  {
    if OccursAt(s, pat, from) then Some(from)
    else if from + |pat| >= |s| then None
    else IndexFrom(s, pat, from + 1)
  }

  function IndexOf(s: string, pat: string): Option<nat> {
    IndexFrom(s, pat, 0)
  }

  /** `s.includes(pat)`. */
  predicate Includes(s: string, pat: string) {
    IndexOf(s, pat).Some?
  }

  lemma IncludesIff(s: string, pat: string)
    ensures Includes(s, pat) <==> exists j :: OccursAt(s, pat, j)
  {
  }

  /** `s.replace(pat, rep)` with a string pattern: only the first occurrence
      is replaced. */
  function ReplaceFirst(s: string, pat: string, rep: string): string {
    match IndexOf(s, pat)
    case None => s
    case Some(i) => s[..i] + rep + s[i + |pat|..]
  }

  /** `s.lastIndexOf(c)` for a one-character pattern; -1 when absent. */
  function LastIndexOf(s: string, c: char): (r: int)
    ensures -1 <= r < |s|
    ensures r >= 0 ==> s[r] == c
    ensures forall j :: r < j < |s| ==> s[j] != c
  {
    if |s| == 0 then -1
    else if s[|s| - 1] == c then |s| - 1
    else LastIndexOf(s[..|s| - 1], c)
  }

  /** An occurrence with none after it is the last one. */
  lemma LastIndexOfIs(s: string, c: char, k: int)
    requires 0 <= k < |s| && s[k] == c
    requires forall j :: k < j < |s| ==> s[j] != c
    ensures LastIndexOf(s, c) == k
  {
  }

  /** Lower-casing neither makes nor removes a `.`. */
  lemma LowerKeepsDot(c: char)
    ensures LowerChar(c) == '.' <==> c == '.'
  {
  }

  /** When the lower-cased string ends in `.` plus a dot-free tail, the
      original has a `.` at that position and none after it. */
  lemma DotOfLowerSuffix(s: string, suffix: string)
    requires EndsWith(Lower(s), suffix)
    requires |suffix| >= 1 && suffix[0] == '.'
    requires forall j :: 1 <= j < |suffix| ==> suffix[j] != '.'
    ensures s[|s| - |suffix|] == '.'
    ensures forall j :: |s| - |suffix| < j < |s| ==> s[j] != '.'
  {
    var dot := |s| - |suffix|;
    var low := Lower(s);
    assert low[dot..] == suffix;
    assert low[dot] == '.';
    LowerKeepsDot(s[dot]);
    forall j | dot < j < |s| ensures s[j] != '.' {
      assert low[j] == suffix[j - dot];
      LowerKeepsDot(s[j]);
    }
  }

  /** ... so that `.` is the last one of the original string. */
  lemma LastDotOfLowerSuffix(s: string, suffix: string)
    requires EndsWith(Lower(s), suffix)
    requires |suffix| >= 1 && suffix[0] == '.'
    requires forall j :: 1 <= j < |suffix| ==> suffix[j] != '.'
    ensures LastIndexOf(s, '.') == |s| - |suffix|
  {
    DotOfLowerSuffix(s, suffix);
    LastIndexOfIs(s, '.', |s| - |suffix|);
  }

  function DigitChar(d: nat): char
    requires d < 10
  {
    "0123456789"[d]
  }

  predicate IsDigits(s: string) {
    forall i :: 0 <= i < |s| ==> '0' <= s[i] <= '9'
  }

  /** The number a string of decimal digits denotes, most significant
      digit first. */
  function DecimalValue(s: string): nat
    requires IsDigits(s)
  {
    if |s| == 0 then 0 else 10 * DecimalValue(s[..|s| - 1]) + (s[|s| - 1] as int - '0' as int)
  }

  lemma DigitCharValue(d: nat)
    requires d < 10
    ensures '0' <= DigitChar(d) <= '9' && DigitChar(d) as int - '0' as int == d
  {
  }

  /** Decimal rendering of a non-negative integer, as `${n}` prints it:
      digits denoting `n`, with no leading zero. */
  function NatToString(n: nat): (r: string)
    ensures |r| > 0 && IsDigits(r)
    ensures DecimalValue(r) == n
    ensures r[0] == '0' ==> r == "0"
  {
    DigitCharValue(n % 10);
    if n < 10 then [DigitChar(n)]
    else
      var front := NatToString(n / 10);
      var r := front + [DigitChar(n % 10)];
      assert r[..|r| - 1] == front;
      r
  }

  /** Distinct numbers print differently. */
  lemma NatToStringInjective(a: nat, b: nat)
    requires NatToString(a) == NatToString(b)
    ensures a == b
  {
    assert DecimalValue(NatToString(a)) == DecimalValue(NatToString(b));
  }

  /** Decimal rendering of an integer with a leading '-' when negative. */
  function IntToString(n: int): string {
    if n < 0 then "-" + NatToString(-n) else NatToString(n)
  }

  /** `parts.join(sep)`. */
  function Join(parts: seq<string>, sep: string): string {
    if |parts| == 0 then ""
    else if |parts| == 1 then parts[0]
    else parts[0] + sep + Join(parts[1..], sep)
  }
}

=== FILE: worker.dfy ===
/** The current proxy revision: preflight first, then the `/file/` route with
    its image bypass, then the global token gate, then action dispatch, all
    inside one catch-all that turns exceptions into 500 replies. */
module Worker {
  import opened Strings
  import opened BlobStore
  import opened Proxy

  /** The image allow-list of the direct-read route. */
  const ImageExtensions: seq<string> := [".jpg", ".jpeg", ".png", ".gif", ".webp", ".svg", ".bmp", ".ico"]

  /** `imageExtensions.some(ext => key.toLowerCase().endsWith(ext))`. */
  predicate IsImageKey(key: string) {
    exists ext :: ext in ImageExtensions && EndsWith(Lower(key), ext)
  }

  /** Every allow-list entry is a `.` followed by a dot-free extension. */
  lemma ImageExtensionShape(x: string)
    requires x in ImageExtensions
    ensures |x| > 1 && x[0] == '.' && forall j :: 1 <= j < |x| ==> x[j] != '.'
  {
  }

  /** `${dispositionType}; filename="${encodeURIComponent(key)}"`. */
  function Disposition(image: bool, encodedKey: string): string {
    (if image then "inline" else "attachment") + "; filename=\"" + encodedKey + "\""
  }

  /** The `/file/{key}` route: decode, decide auth, then look the key up. */
  function ServeFile(req: Request, env: Env, st: Store, p: Platform): (o: Outcome)
    requires StartsWith(req.path, "/file/")
    ensures o.store == st
  {
    match p.decodeUri(req.path[6..])
    case None => Outcome(FaultResponse, st)
    case Some(key) =>
      var image := IsImageKey(key);
      if !image && Denied(env, HeaderToken(req)) then Outcome(UnauthorizedResponse, st)
      else if OpGet in p.failing then Outcome(FaultResponse, st)
      else if key !in st then Outcome(Response(404, CorsJson, NotFoundBody("File not found", key)), st)
      else
        var obj := st[key];
        Outcome(Response(200, FileHeaders(obj, Disposition(image, p.encodeUri(key))), Blob(obj.data)), st)
  }

  const InvalidAction: Response :=
    Response(400, CorsJson, InvalidActionBody(Actions, ["jpg", "jpeg", "png", "gif", "webp", "svg", "bmp", "ico"]))

  /** The whole `fetch` handler. */
  function Handle(req: Request, env: Env, st: Store, p: Platform): (o: Outcome)
    ensures AllowOrigin in o.response.headers && o.response.headers[AllowOrigin] == "*"
    ensures req.verb == Options ==> o == Outcome(PreflightResponse, st)
    ensures o.response.status == 401 ==> o.store == st
  {
    if req.verb == Options then Outcome(PreflightResponse, st)
    else if StartsWith(req.path, "/file/") then ServeFile(req, env, st, p)
    else if Denied(env, GateToken(req)) then Outcome(UnauthorizedResponse, st)
    else match DispatchAction(req, st, p, true)
      case Some(o) => o
      case None => Outcome(InvalidAction, st)
  }

  // ---------------------------------------------------------------------
  // Properties
  // ---------------------------------------------------------------------

  /** A preflight is answered 204 with the three CORS headers before any
      token check, whatever `API_TOKEN` is. */
  lemma PreflightBeforeEverything(req: Request, env: Env, st: Store, p: Platform)
    requires req.verb == Options
    ensures var o := Handle(req, env, st, p);
      && o.response.status == 204 && o.store == st
      && o.response.headers[AllowOrigin] == "*"
      && o.response.headers[AllowMethods] == "GET, POST, OPTIONS"
      && o.response.headers[AllowHeaders] == "Content-Type, Authorization"
  {
  }

  function FileRequest(encodedKey: string, queryToken: Option<string>, authHeader: Option<string>): Request {
    Request(Get, "/file/" + encodedKey, None, queryToken, authHeader, NoBody)
  }

  /** On the `/file/` route an image key is never refused for auth, and a
      non-image key is refused exactly when a token is configured and the
      header token differs; the query token plays no part. */
  lemma FileRouteAuth(encodedKey: string, queryToken: Option<string>, authHeader: Option<string>,
                      env: Env, st: Store, p: Platform, key: string)
    requires p.decodeUri(encodedKey) == Some(key)
    ensures var req := FileRequest(encodedKey, queryToken, authHeader);
      var o := Handle(req, env, st, p);
      && (IsImageKey(key) ==> o.response.status != 401)
      && (!IsImageKey(key) ==>
            (o.response.status == 401 <==> TokenConfigured(env) && HeaderToken(req) != env.apiToken))
  {
    var req := FileRequest(encodedKey, queryToken, authHeader);
    assert req.path[6..] == encodedKey;
  }

  /** Auth is settled before the lookup; a missing key is a 404 naming the
      key; a present one is served with its bytes and an `inline`
      disposition for images and `attachment` otherwise. */
  lemma FileRouteLookup(encodedKey: string, authHeader: Option<string>, env: Env, st: Store,
                        p: Platform, key: string)
    requires p.decodeUri(encodedKey) == Some(key) && OpGet !in p.failing
    requires IsImageKey(key) || !Denied(env, HeaderToken(FileRequest(encodedKey, None, authHeader)))
    ensures var o := Handle(FileRequest(encodedKey, None, authHeader), env, st, p);
      && (key !in st ==> o.response == Response(404, CorsJson, NotFoundBody("File not found", key)))
      && (key in st ==>
            && o.response.status == 200 && o.response.payload == Blob(st[key].data)
            && o.response.headers["Content-Disposition"]
               == Disposition(IsImageKey(key), p.encodeUri(key))
            && StartsWith(o.response.headers["Content-Disposition"],
                          if IsImageKey(key) then "inline;" else "attachment;"))
  {
    var req := FileRequest(encodedKey, None, authHeader);
    assert req.path[6..] == encodedKey;
  }

  /** Outside `/file/`, a configured token must match the gate token, where
      a non-empty query parameter wins over the header: a wrong query token
      is refused even with a correct header. */
  lemma GateQueryWins(req: Request, env: Env, st: Store, p: Platform)
    requires req.verb != Options && !StartsWith(req.path, "/file/")
    requires TokenConfigured(env)
    requires req.queryToken.Some? && req.queryToken.value != "" && req.queryToken != env.apiToken
    ensures Handle(req, env, st, p) == Outcome(UnauthorizedResponse, st)
  {
  }

  /** Without a configured token no request is refused for auth. */
  lemma NoTokenNoRefusal(req: Request, env: Env, st: Store, p: Platform)
    requires !TokenConfigured(env)
    ensures Handle(req, env, st, p).response.status != 401
  {
    if req.verb != Options && StartsWith(req.path, "/file/") {
      match p.decodeUri(req.path[6..])
      case None =>
      case Some(key) =>
    }
  }

  /** A request past the gate that names no known action gets the 400
      listing the four actions. */
  lemma UnknownActionIs400(req: Request, env: Env, st: Store, p: Platform)
    requires req.verb != Options && !StartsWith(req.path, "/file/") && !Denied(env, GateToken(req))
    requires req.action.None? || req.action.value !in Actions
    ensures Handle(req, env, st, p) == Outcome(InvalidAction, st)
  {
  }
}

=== FILE: worker_legacy.dfy ===
/** The earlier proxy revision: preflight, then the global token gate for
    every path (outside the catch-all), then action dispatch, and only then
    the `/file/` route, which needs the header token and has no image bypass. */
module WorkerLegacy {
  import opened Strings
  import opened BlobStore
  import opened Proxy
  import Worker

  /** `attachment; filename="${encodeURIComponent(key)}"`. */
  function Disposition(encodedKey: string): string {
    "attachment; filename=\"" + encodedKey + "\""
  }

  /** The plain-text 404 of a direct read. */
  const FileNotFound: Response := Response(404, map[AllowOrigin := "*"], Text("File not found"))

  /** The `/file/{key}` route: header token first, then decode and lookup. */
  function ServeFile(req: Request, env: Env, st: Store, p: Platform): (o: Outcome)
    requires StartsWith(req.path, "/file/")
    ensures o.store == st
  {
    if Denied(env, HeaderToken(req)) then Outcome(UnauthorizedResponse, st)
    else match p.decodeUri(req.path[6..])
      case None => Outcome(FaultResponse, st)
      case Some(key) =>
        if OpGet in p.failing then Outcome(FaultResponse, st)
        else if key !in st then Outcome(FileNotFound, st)
        else
          var obj := st[key];
          Outcome(Response(200, FileHeaders(obj, Disposition(p.encodeUri(key))), Blob(obj.data)), st)
  }

  const InvalidAction: Response := Response(400, CorsJson, InvalidActionBody(Actions, []))

  /** The whole `fetch` handler of this revision. */
  function Handle(req: Request, env: Env, st: Store, p: Platform): (o: Outcome)
    ensures AllowOrigin in o.response.headers && o.response.headers[AllowOrigin] == "*"
    ensures req.verb == Options ==> o == Outcome(PreflightResponse, st)
    ensures o.response.status == 401 ==> o.store == st
  {
    if req.verb == Options then Outcome(PreflightResponse, st)
    else if Denied(env, GateToken(req)) then Outcome(UnauthorizedResponse, st)
    else match DispatchAction(req, st, p, false)
      case Some(o) => o
      case None =>
        if StartsWith(req.path, "/file/") then ServeFile(req, env, st, p)
        else Outcome(InvalidAction, st)
  }

  // ---------------------------------------------------------------------
  // Properties
  // ---------------------------------------------------------------------

  /** A preflight is answered 204 before the token gate. */
  lemma PreflightBeforeGate(req: Request, env: Env, st: Store, p: Platform)
    requires req.verb == Options
    ensures var o := Handle(req, env, st, p);
      o.response.status == 204 && o.store == st && o.response.headers[AllowMethods] == "GET, POST, OPTIONS"
  {
  }

  /** The gate runs before any routing, `/file/` paths included. */
  lemma GateBeforeRouting(req: Request, env: Env, st: Store, p: Platform)
    requires req.verb != Options && Denied(env, GateToken(req))
    ensures Handle(req, env, st, p) == Outcome(UnauthorizedResponse, st)
  {
  }

  /** A correct query token alone passes the gate but a direct read still
      needs the header token, whatever the key's extension. */
  lemma FileReadNeedsHeaderToken(encodedKey: string, env: Env, st: Store, p: Platform)
    requires TokenConfigured(env)
    ensures var req := Request(Get, "/file/" + encodedKey, None, env.apiToken, None, NoBody);
      !Denied(env, GateToken(req)) && Handle(req, env, st, p) == Outcome(UnauthorizedResponse, st)
  {
    var req := Request(Get, "/file/" + encodedKey, None, env.apiToken, None, NoBody);
    assert StartsWith(req.path, "/file/");
  }

  /** Action dispatch comes first: a `/file/` URL carrying `action=list` is
      answered as a list. */
  lemma ActionBeforeFileRoute(req: Request, env: Env, st: Store, p: Platform)
    requires req.verb != Options && !Denied(env, GateToken(req))
    requires StartsWith(req.path, "/file/") && req.action == Some("list")
    ensures Handle(req, env, st, p) == HandleList(req, st, p)
  {
  }

  /** A direct read is always an attachment, and a missing key is the
      plain-text 404. */
  lemma DirectReadDisposition(encodedKey: string, env: Env, st: Store, p: Platform, key: string)
    requires p.decodeUri(encodedKey) == Some(key) && OpGet !in p.failing
    requires !TokenConfigured(env)
    ensures var o := Handle(Request(Get, "/file/" + encodedKey, None, None, None, NoBody), env, st, p);
      && (key !in st ==> o.response == FileNotFound)
      && (key in st ==>
            && o.response.status == 200 && o.response.payload == Blob(st[key].data)
            && o.response.headers["Content-Disposition"] == Disposition(p.encodeUri(key))
            && StartsWith(o.response.headers["Content-Disposition"], "attachment;"))
  {
    var req := Request(Get, "/file/" + encodedKey, None, None, None, NoBody);
    assert req.path[6..] == encodedKey;
    assert StartsWith(req.path, "/file/");
    assert DispatchAction(req, st, p, false).None?;
    assert Handle(req, env, st, p) == ServeFile(req, env, st, p);
    AttachmentLead(p.encodeUri(key));
  }

  lemma AttachmentLead(encodedKey: string)
    ensures StartsWith(Disposition(encodedKey), "attachment;")
  {
    assert Disposition(encodedKey) == "attachment;" + " filename=\"" + encodedKey + "\"";
  }

  /** Upload replies without a size in this revision. */
  lemma UploadReplyHasNoSize(req: Request, env: Env, st: Store, p: Platform, f: FilePart)
    requires req.verb == Post && req.action == Some("upload") && !Denied(env, GateToken(req))
    requires req.body == Form(Some(f)) && OpPut !in p.failing
    ensures var o := Handle(req, env, st, p);
      o.response == Ok(UploadBody(f.name, None)) && o.store[f.name].data == f.data
  {
  }

  /** The two revisions disagree on a public image: with a token configured
      and no credentials, the current one serves `a.png`, this one refuses. */
  lemma RevisionsDisagreeOnImages(env: Env, st: Store, p: Platform)
    requires TokenConfigured(env) && p.decodeUri("a.png") == Some("a.png")
    requires "a.png" in st && OpGet !in p.failing
    ensures var req := Request(Get, "/file/a.png", None, None, None, NoBody);
      && Worker.Handle(req, env, st, p).response.status == 200
      && Handle(req, env, st, p).response.status == 401
  {
    var req := Request(Get, "/file/a.png", None, None, None, NoBody);
    assert req.path[6..] == "a.png";
    assert StartsWith(req.path, "/file/");
    assert EndsWith(Lower("a.png"), ".png");
    assert Worker.IsImageKey("a.png");
    assert HeaderToken(req) == None;
  }

  /** Rename behaves the same in both revisions once a request reaches it. */
  lemma RenameSameInBothRevisions(req: Request, env: Env, st: Store, p: Platform)
    requires req.verb == Post && req.action == Some("rename")
    requires !StartsWith(req.path, "/file/")
    ensures Handle(req, env, st, p) == Worker.Handle(req, env, st, p)
  {
  }
}
